=== FILE: README.md ===
# basismixer performance codec, modelled in Dafny

This project models the performance codec of basismixer. It turns a score aligned with a recorded performance into per-note expressive parameters, and turns such parameters plus a score back into a performance.

An encoding has two parts:

- **Dynamics.** One column: the MIDI velocity scaled into [0, 1].
- **Time.** Three columns:
  - a tempo parameter, one per group of simultaneous notes;
  - a timing offset per note;
  - a log2 articulation per note.

The time columns rest on these steps:

- **Onset grouping.** A stable sort of the onsets, cut wherever neighbouring onsets are more than eps apart.
- **Group sequence.** One mean time per group plus a closing time.
- **Greedy monotonizer.** It removes points until performed time rises with score time.
- **Tempo estimate.** Either the average inter-onset ratio, sampled through a piecewise-linear interpolant, or a central-difference derivative.
- **Tempo normalizations.** Five normalizations of the beat-period curve.

Decoding places every note at its group's equivalent onset less its timing, and rebuilds its duration from the articulation. It then moves the earliest onset to 0. It also clips velocities and pitches to 1..127.

The model follows the shape of the code:

- **Pure numpy pipelines are functions:** grouping, `get_unique_seq`, `_is_monotonic`, `_select_problematic`, the normalizations, the interpolants and the codec facades.
- **The four places where the code works in place are methods over arrays:**
  - the mask loop of `_monotonize_times`;
  - the articulation fill of `encode_articulation`;
  - the matrix fills of `TimeCodec._encode` and `TimeCodec.decode`, including the final shift;
  - the in-place `clip` calls of `PerformanceCodec.decode`.

  Each method is proved equal to the function that specifies it. The properties are proved as lemmas about those functions.
- **Opaque math is passed in.** `log2`, `2**x` and `sqrt` come from the caller as a `Transcendentals` value. The predicate `Numerics.Lawful` states the laws the proofs use: `2**log2(x) == x` for positive x, `log2(2**y) == y`, `2**0 == 1`, `sqrt(0) == 0`, and a positive square root for a positive number.
- **`np.round` is defined exactly,** as round-half-to-even.

Modules and files:

| module | file |
|---|---|
| `Results` | results.dfy |
| `Numerics` | numerics.dfy |
| `OnsetGroups` | onset_groups.dfy |
| `UniqueSeqs` | unique_seqs.dfy |
| `Monotonizer` | monotonizer.dfy |
| `Interpolation` | interpolation.dfy |
| `Tempo` | tempo.dfy |
| `TempoNormalization` | tempo_normalization.dfy |
| `Articulation` | articulation.dfy |
| `TimeCodecs` | time_codecs.dfy |
| `Dynamics` | dynamics_codec.dfy |
| `PerformanceCodecs` | performance_codecs.dfy |

Two behaviours of the code are worth stating up front:

- **Every group has an inter-onset interval, the last one included.** `get_unique_seq` appends a closing time after the last group (basismixer/performance_codec.py:445-455).
- **A grace note decodes to duration 0.** Decoding multiplies by the notated duration, which is 0 for a grace note (basismixer/performance_codec.py:136-137).

## Model

| member | source | states |
|---|---|---|
| Numerics.Min | basismixer/performance_codec.py:442 | np.min of a non-empty array is one of its entries and no entry is below it |
| Numerics.Max | basismixer/performance_codec.py:445 | np.max of a non-empty array is one of its entries and no entry is above it |
| Numerics.Diff | basismixer/performance_codec.py:463 | np.diff has one entry less than a non-empty input, each the difference of two neighbours |
| Numerics.ArgMin | basismixer/performance_codec.py:562 | np.argmin returns a position holding the smallest value, and every earlier position holds a strictly larger value (first minimum wins) |
| Numerics.PrefixSums | basismixer/performance_codec.py:670 | np.cumsum(np.r_[0, xs]) has one more entry than xs, starts at 0 and steps by xs |
| Numerics.PrefixSumsAgree | basismixer/performance_codec.py:670 | running totals of two arrays agree as far as the arrays agree |
| Numerics.Std | basismixer/performance_codec.py:366 | np.std through the supplied square root: a constant curve has deviation sqrt(0) |
| Numerics.VarianceZeroIffConstant | basismixer/performance_codec.py:366 | the population variance of np.std is never negative, and it is zero exactly when every entry equals the first |
| Numerics.DeviationsNonnegative | basismixer/performance_codec.py:366 | each squared deviation is non-negative, and zero only at the mean |
| Numerics.StdZeroIffConstant | basismixer/performance_codec.py:366 | with a lawful square root, np.std is zero exactly on a constant array |
| Numerics.Add | basismixer/performance_codec.py:200 | onsets + durations, entry by entry |
| Numerics.Shift | basismixer/performance_codec.py:733 | every entry less the same constant |
| Numerics.RoundHalfEven | basismixer/performance_codec.py:602-604 | np.round lands within 1/2 of its argument, and on an exact half it picks the even integer |
| Numerics.RoundOfInteger | basismixer/performance_codec.py:602-604 | rounding an integer gives that integer back |
| Numerics.Log2OfOne | basismixer/performance_codec.py:125 | under the stated laws, log2(1) is 0, so a note played for its notated length has articulation 0 |
| Numerics.MeanBounds | basismixer/performance_codec.py:453 | a mean lies between the minimum and the maximum |
| Numerics.MeanWithin | basismixer/performance_codec.py:453 | a mean of values within [lo, hi] is within [lo, hi] |
| Numerics.MeanOfConstant | basismixer/performance_codec.py:711 | the mean of equal values is that value |
| Numerics.SumOfConstant | basismixer/performance_codec.py:711 | n equal values sum to n times the value |
| Numerics.MinOfShift | basismixer/performance_codec.py:733 | subtracting a constant moves the minimum by that constant |
| Numerics.StepsUpIncreasing | basismixer/performance_codec.py:489 | a sequence rising at every step rises between any two positions |
| OnsetGroups.Insert | basismixer/performance_codec.py:421 | inserting a later index into a stably sorted list yields a stably sorted list holding one more copy of that index |
| OnsetGroups.InsertAfterHead | basismixer/performance_codec.py:421 | when the new index does not start before the head, the head stays in front of the rest with the index inserted |
| OnsetGroups.SortPrefix | basismixer/performance_codec.py:421 | the stable argsort of the first n notes holds every index below n exactly once, ordered by onset, ties by index |
| OnsetGroups.InsertKeepsIndices | basismixer/performance_codec.py:421 | adding index j to a list of all indices below j gives a list of all indices below j + 1 |
| OnsetGroups.StableArgSort | basismixer/performance_codec.py:421 | np.argsort(kind='mergesort') is a permutation of 0..n-1, sorted by onset, with equal onsets in original index order |
| OnsetGroups.SplitRuns | basismixer/performance_codec.py:422-423 | np.split of the sorted indices: the pieces concatenate back to the input, and are all non-empty unless the input is empty, which gives one empty piece |
| OnsetGroups.SplitRunsWithin | basismixer/performance_codec.py:422-423 | inside a piece, neighbouring onsets differ by at most eps |
| OnsetGroups.SplitRunsApart | basismixer/performance_codec.py:422-423 | across a cut, the first onset of a piece is more than eps after the last onset of the piece before |
| OnsetGroups.ApartAfterSingleton | basismixer/performance_codec.py:422 | a note more than eps before the first piece starts a piece of its own, and the cuts stay more than eps apart |
| OnsetGroups.ApartAfterMerge | basismixer/performance_codec.py:422 | a note that joins the first piece keeps every cut more than eps apart |
| OnsetGroups.FlattenInRange | basismixer/performance_codec.py:423 | pieces of an in-range index list hold in-range indices |
| OnsetGroups.GroupOnsets | basismixer/performance_codec.py:394-432 | get_unique_onset_idxs concatenates to the stable argsort; on a non-empty input it partitions 0..n-1 into groups; onsets inside a group are within eps and across groups more than eps apart; an empty input gives one empty group |
| OnsetGroups.PartitionFromFlatten | basismixer/performance_codec.py:421-423 | non-empty pieces of a duplicate-free list of all indices form a partition |
| OnsetGroups.MemberOfFlatten | basismixer/performance_codec.py:423 | every member of a piece is in the concatenation |
| OnsetGroups.DistinctFlattenDisjoint | basismixer/performance_codec.py:423 | pieces of a duplicate-free list never share an index |
| OnsetGroups.NotInBoth | basismixer/performance_codec.py:423 | an entry of the first half of a duplicate-free list is not in the second |
| OnsetGroups.GroupOfFindsMember | basismixer/performance_codec.py:423 | an index in the concatenation is found in some group |
| OnsetGroups.GroupOfIsUnique | basismixer/performance_codec.py:423 | in disjoint groups a note is found in the group that holds it |
| OnsetGroups.PartitionFacts | basismixer/performance_codec.py:421-423 | in a partition no index occurs twice and every note lies in exactly one group |
| OnsetGroups.WriterOf | basismixer/performance_codec.py:686-689 | when a loop writes each group's value to its notes, note j carries the value of the last group that holds it, or none |
| OnsetGroups.WriterWithinStep | basismixer/performance_codec.py:686-689 | writing one more note of the current group changes the writer of that note only |
| OnsetGroups.WriterWithinDone | basismixer/performance_codec.py:686-689 | after all notes of group g are written, the writers are those of the first g + 1 groups |
| OnsetGroups.WriterOfDisjoint | basismixer/performance_codec.py:686-689 | with disjoint groups, each note of group g ends up written by group g |
| OnsetGroups.SortedGroups | basismixer/performance_codec.py:417-423 | cutting sorted indices into groups keeps the stable order inside each group and between any two groups |
| OnsetGroups.GroupsAscend | basismixer/performance_codec.py:417-423 | the groups of get_unique_onset_idxs keep the stable order inside, and every note of a later group starts strictly later than every note of an earlier one |
| OnsetGroups.AscendingRuns | basismixer/performance_codec.py:421-423 | sorted indices cut into runs more than eps apart give groups in strictly ascending onset order |
| OnsetGroups.AscendAcross | basismixer/performance_codec.py:421-423 | two notes of two sorted runs more than eps apart are strictly ordered by onset |
| OnsetGroups.TruncMonotone | basismixer/performance_codec.py:196 | the integer cast of (1e4 * onset) never reverses the order of two onsets |
| OnsetGroups.QuantizedKeys | basismixer/performance_codec.py:196 | one quantized key per note |
| OnsetGroups.QuantizedGroupsShareKey | basismixer/performance_codec.py:196 | grouping the quantized keys with eps = 1e-6 puts only notes with equal keys in one group |
| OnsetGroups.IntegerKeysShareKey | basismixer/performance_codec.py:196 | integer keys within 1e-6 of their neighbours along each run are equal throughout the group |
| OnsetGroups.IntegersApart | basismixer/performance_codec.py:196 | two different integer keys are at least 1 apart, so more than eps |
| OnsetGroups.KeyOrderIsOnsetOrder | basismixer/performance_codec.py:196 | groups in strictly ascending key order are in strictly ascending onset order |
| OnsetGroups.QuantizedGroupsAscend | basismixer/performance_codec.py:196 | the default grouping of the tempo estimates is strictly ascending in key and in onset |
| OnsetGroups.SameKeyAlongRun | basismixer/performance_codec.py:422 | a run of equal neighbouring keys has one key throughout |
| UniqueSeqs.GroupMeans | basismixer/performance_codec.py:453 | one mean per group |
| UniqueSeqs.LastTime | basismixer/performance_codec.py:444-445 | the closing time is max(max(onsets) + eps, max(offsets)): strictly after every onset and not before any offset |
| UniqueSeqs.GetUniqueSeq | basismixer/performance_codec.py:435-465 | u_onset holds each group's mean onset then the closing time; total_dur is closing time less min(onsets); diff_u_onset is present exactly when asked for and is np.diff(u_onset); default groups come from get_unique_onset_idxs; empty arrays, out-of-range indices and empty groups are errors |
| UniqueSeqs.GroupMeanBounds | basismixer/performance_codec.py:453 | a group's mean lies within any bounds of its members |
| UniqueSeqs.UniqueOnsetsIncrease | basismixer/performance_codec.py:442-455 | for groups in strictly ascending onset order, u_onset strictly increases, closing time included |
| UniqueSeqs.MeansAscend | basismixer/performance_codec.py:453 | an earlier group's mean onset is below a later group's |
| UniqueSeqs.MeanBeforeClosing | basismixer/performance_codec.py:445-455 | every group's mean onset is below the closing time |
| Monotonizer.Count | basismixer/performance_codec.py:485 | the number of masked points is at most the mask length |
| Monotonizer.MaskedIndices | basismixer/performance_codec.py:563 | np.where(mask)[0] holds one in-range set position per set bit, in strictly ascending order |
| Monotonizer.MaskedIndicesComplete | basismixer/performance_codec.py:563 | every set position is among the masked indices |
| Monotonizer.MaskedIndicesFirst | basismixer/performance_codec.py:563 | a set first bit is the first masked index |
| Monotonizer.Select | basismixer/performance_codec.py:485 | s[mask] has one entry per set bit |
| Monotonizer.Slopes | basismixer/performance_codec.py:489-491 | np.diff(s[mask]) / np.diff(deltas[mask]) has one entry less than the masked points |
| Monotonizer.Slope | basismixer/performance_codec.py:489-491 | the slope between two masked points scales their delta gap to their value gap |
| Monotonizer.IsMonotonic | basismixer/performance_codec.py:468-491 | _is_monotonic: fewer than four masked points always pass; what passing means for the points is stated by MonotonicSelectionRises and RisingIsMonotonic |
| Monotonizer.SlopeSign | basismixer/performance_codec.py:489 | over a rising delta, a slope is positive exactly when the point rises |
| Monotonizer.PositiveSlopeRises | basismixer/performance_codec.py:489 | a positive slope between two neighbouring masked points means the second is higher |
| Monotonizer.MonotonicSelectionRises | basismixer/performance_codec.py:485-491 | a strictly monotonic mask with at least four points selects strictly rising values |
| Monotonizer.RisingIsMonotonic | basismixer/performance_codec.py:485-491 | with nothing masked out, strictly rising points pass the strict monotonicity test |
| Monotonizer.ProblemPosition | basismixer/performance_codec.py:562 | argmin(diffs[1:] * diffs[:-1]) + 1 is an interior position among the masked points |
| Monotonizer.SelectProblematic | basismixer/performance_codec.py:536-563 | _select_problematic returns a currently set mask position |
| Monotonizer.ProblematicIsInterior | basismixer/performance_codec.py:561-563 | the chosen point has a set position on either side, so it is neither the first nor the last masked point |
| Monotonizer.CountClear | basismixer/performance_codec.py:580 | clearing a set bit lowers the count by one |
| Monotonizer.ClearProblematic | basismixer/performance_codec.py:578-580 | one step of _monotonize_times keeps the mask length and clears exactly one set bit |
| Monotonizer.ClearProblematicFacts | basismixer/performance_codec.py:578-580 | the step only clears bits and keeps the first and the last set bit |
| Monotonizer.ClearInterior | basismixer/performance_codec.py:580 | clearing a bit with set bits on both sides only clears that bit and keeps the first and last set bits |
| Monotonizer.MonotonizeMask | basismixer/performance_codec.py:566-582 | the recursion ends (fewer steps than set bits), keeps the mask length, and its result passes _is_monotonic |
| Monotonizer.MonotonizeMaskClearsOnly | basismixer/performance_codec.py:573-582 | the final mask only clears bits of the initial one |
| Monotonizer.MonotonizeMaskKeepsEnds | basismixer/performance_codec.py:573-582 | the first and the last set bits are never cleared |
| Monotonizer.MonotonizeMaskKeepsThree | basismixer/performance_codec.py:573-582 | a mask starting with at least three set bits keeps at least three |
| Monotonizer.MonotonizeMaskInPlace | basismixer/performance_codec.py:566-582 | the in-place loop leaves in the caller's mask array the mask the recursion describes |
| Monotonizer.PadEps | basismixer/performance_codec.py:514-517 | the padding is positive: float32 epsilon when strict, 1e-3 otherwise |
| Monotonizer.Padded | basismixer/performance_codec.py:519-521 | the padded array has two more entries, and its interior is the input |
| Monotonizer.PaddedAt | basismixer/performance_codec.py:519 | entry k of the input is entry k + 1 of the padded array |
| Monotonizer.PaddedIncreasing | basismixer/performance_codec.py:521 | padding a strictly increasing delta keeps it strictly increasing |
| Monotonizer.AllSet | basismixer/performance_codec.py:524 | np.ones(n, dtype=bool) |
| Monotonizer.CountOfAllSet | basismixer/performance_codec.py:524 | the all-set mask counts n |
| Monotonizer.MaskedIndicesAllSet | basismixer/performance_codec.py:524 | the masked indices of the all-set mask are 0..n-1 |
| Monotonizer.MonotonicMask | basismixer/performance_codec.py:519-525 | the monotonized mask of the padded arrays is two longer than the input |
| Monotonizer.FinalMask | basismixer/performance_codec.py:524-526 | the mask after both padding bits are cleared is two longer than the input |
| Monotonizer.FullMaskFacts | basismixer/performance_codec.py:524-525 | monotonizing the all-set mask keeps both end bits and at least three bits |
| Monotonizer.MonotonicMaskFacts | basismixer/performance_codec.py:519-526 | the monotonized padded mask keeps both padding points and at least one point between them |
| Monotonizer.MaskedEnds | basismixer/performance_codec.py:526 | with both end bits set, the first masked index is 0 and the last is the last position |
| Monotonizer.ClearFirst | basismixer/performance_codec.py:526 | clearing the first bit drops the first masked index |
| Monotonizer.ClearLast | basismixer/performance_codec.py:526 | clearing the last bit drops the last masked index |
| Monotonizer.ClearBothEnds | basismixer/performance_codec.py:526 | clearing both end bits keeps exactly the interior masked indices |
| Monotonizer.FinalMaskClearsEnds | basismixer/performance_codec.py:526 | the final mask has both padding bits clear |
| Monotonizer.InteriorIndices | basismixer/performance_codec.py:526-533 | with both end bits clear, every masked index is an original position |
| Monotonizer.Unpadded | basismixer/performance_codec.py:533 | the masked positions of the padded arrays, shifted back by one, are ascending positions of the input |
| Monotonizer.KeptIndices | basismixer/performance_codec.py:526-533 | the surviving positions are ascending positions of the input, one per set bit of the final mask |
| Monotonizer.MonotonizedSize | basismixer/performance_codec.py:519-533 | at least one and at most all input points survive |
| Monotonizer.Monotonized | basismixer/performance_codec.py:494-533 | monotonize_times succeeds exactly on a non-empty input with deltas of equal length (np.min of nothing raises; a mask of the wrong length cannot index); its two outputs have equal length between 1 and len(s) |
| Monotonizer.MonotonizeTimes | basismixer/performance_codec.py:494-533 | the imperative version (allocate, monotonize in place, clear the padding, read off) returns what Monotonized describes |
| Monotonizer.MonotonizedWithoutDeltas | basismixer/performance_codec.py:496-533 | monotonize_times with deltas=None fails on every non-empty input (TypeError), and on empty input as np.min does |
| Monotonizer.MonotonizedUnitDeltas | basismixer/performance_codec.py:496-533 | monotonize_times without deltas as intended, over unit spacing: succeeds exactly on non-empty input, with one to len(s) points |
| Monotonizer.MonotonizedUnitDeltasIncreasing | basismixer/performance_codec.py:496-533 | in strict mode the intended version returns strictly increasing times |
| Monotonizer.NoDeltasRejected | basismixer/performance_codec.py:487-491 | on [1, 0, 2] the program raises and the intended version succeeds |
| Monotonizer.MonotonizedOutput | basismixer/performance_codec.py:519-533 | the outputs are the padded arrays at the interior masked indices of the monotonized mask |
| Monotonizer.MonotonizedIsSubsequence | basismixer/performance_codec.py:519-533 | both outputs are the same order-preserving selection of positions from s and from deltas |
| Monotonizer.InteriorRises | basismixer/performance_codec.py:485-491 | between the two kept ends, a strictly monotonic mask selects strictly rising points in both arrays |
| Monotonizer.MonotonizedIncreasing | basismixer/performance_codec.py:494-533 | in strict mode both outputs strictly increase |
| Monotonizer.MonotonizedKeepsRisingInput | basismixer/performance_codec.py:494-533 | an input already rising with its deltas comes back unchanged |
| Monotonizer.InteriorOfAllSet | basismixer/performance_codec.py:524-533 | the interior points selected by the all-set mask are the interior of the array |
| Monotonizer.GatherIncreasing | basismixer/performance_codec.py:533 | an ascending selection from a rising array rises |
| Monotonizer.GatherSlice | basismixer/performance_codec.py:533 | selecting a slice of positions gives the slice of the selection |
| Monotonizer.SliceIncreasing | basismixer/performance_codec.py:533 | a slice of a rising array rises |
| Interpolation.SearchSortedLeft | basismixer/performance_codec.py:223-230 | searchsorted(side='left') on sorted knots counts the knots below the query |
| Interpolation.SearchAtKnot | basismixer/performance_codec.py:223-230 | searching for a knot finds its own position |
| Interpolation.SearchMonotone | basismixer/performance_codec.py:223-230 | a later query never lands on an earlier segment |
| Interpolation.Segment | basismixer/performance_codec.py:223-230 | the evaluated segment is clipped into 1..len-1 |
| Interpolation.Line | basismixer/performance_codec.py:223 | the segment between two knots passes through both of them |
| Interpolation.InterpAt | basismixer/performance_codec.py:223-225 | the interpolant at one query: a single knot gives its value everywhere; with held ends, every query at or before the first knot gets the first value and at or after the last knot the last value |
| Interpolation.SegmentBrackets | basismixer/performance_codec.py:223-230 | inside the knot range, the query lies between the two knots of its segment |
| Interpolation.Interpolate | basismixer/performance_codec.py:223-230 | interp1d(xs, ys)(queries) succeeds exactly when xs and ys have equal length and there are two knots, or one knot with held ends; one value per query; unequal lengths are a shape error |
| Interpolation.LineAtEnds | basismixer/performance_codec.py:223 | the linear segment passes through both of its knots |
| Interpolation.LineBetween | basismixer/performance_codec.py:223 | between its knots the segment stays between their values |
| Interpolation.LineRises | basismixer/performance_codec.py:319 | a segment through a rising pair of knots rises |
| Interpolation.InterpAtKnot | basismixer/performance_codec.py:223-230 | interpolating at a knot gives that knot's value |
| Interpolation.HoldEndsWithin | basismixer/performance_codec.py:223-225 | holding the end values (fill_value=(bp[0], bp[-1])), the interpolant never leaves the range of the knot values |
| Interpolation.ExtrapolateRises | basismixer/performance_codec.py:319-320 | with fill_value='extrapolate', the interpolant of strictly rising knots strictly rises everywhere |
| Tempo.UniqueTimes | basismixer/performance_codec.py:198-212 | the u_onset of get_unique_seq(onsets, onsets + durations, groups), with its errors passed through; one entry per group plus the closing time |
| Tempo.MonotonizedPair | basismixer/performance_codec.py:214-216 | monotonize_times(perf, deltas=score) succeeds, and both outputs strictly increase and have equal length |
| Tempo.Align | basismixer/performance_codec.py:193-216 | grouping (by quantized keys when none is given), both unique sequences and the monotonized pair; arrays of different lengths are a shape error, an empty score an empty-input error |
| Tempo.DefaultGroups | basismixer/performance_codec.py:194-196 | the default grouping of the quantized onsets: at least one group, and on a non-empty score a partition of the notes in strictly ascending onset order |
| Tempo.AlignWith | basismixer/performance_codec.py:198-216 | the same with the grouping settled; the record carries the given groups |
| Tempo.DefaultAlignSucceeds | basismixer/performance_codec.py:193-216 | with equal-length non-empty inputs and the default grouping, alignment succeeds and the groups partition the notes |
| Tempo.RisingTimesKept | basismixer/performance_codec.py:214-216 | when the performed group times already rise, the monotonizer keeps every point |
| Tempo.BeatPeriods | basismixer/performance_codec.py:218-221 | one beat period per segment, scaling the score interval to the performed interval |
| Tempo.BeatPeriodsPositive | basismixer/performance_codec.py:218-221 | rising performed times over rising score times give positive beat periods |
| Tempo.BeatPeriodIsRatio | basismixer/performance_codec.py:219-221 | each beat period is the performed interval over the score interval |
| Tempo.PositiveRatio | basismixer/performance_codec.py:221 | the quotient scales the denominator to the numerator |
| Tempo.ScalesPositive | basismixer/performance_codec.py:221 | a positive interval over a positive interval gives a positive beat period |
| Tempo.RatioIsQuotient | basismixer/performance_codec.py:219-221 | a number scaling the score interval to the performed interval is their quotient |
| Tempo.Prefix | basismixer/performance_codec.py:223 | xs[:-1] drops the last entry and keeps rising arrays rising |
| Tempo.QueryTimes | basismixer/performance_codec.py:227-228 | given query times are used as given; otherwise they are unique_s_onsets[:-1], one per group |
| Tempo.TempoByAverage | basismixer/performance_codec.py:142-237 | alignment errors pass through; otherwise the curve of AverageCurve |
| Tempo.AverageCurve | basismixer/performance_codec.py:218-237 | succeeds exactly when two monotonized points remain; one value per query time; groups and query times returned |
| Tempo.AverageCurvePositive | basismixer/performance_codec.py:218-230 | every value of the average tempo curve is positive |
| Tempo.TempoByAveragePositive | basismixer/performance_codec.py:142-237 | a successful tempo_by_average gives a positive beat period everywhere |
| Tempo.BeatPeriodAtKnot | basismixer/performance_codec.py:223-230 | sampling the held interpolant at a group's score time gives that segment's IOI ratio |
| Tempo.HeldCurveAtKnots | basismixer/performance_codec.py:223-230 | a curve sampled at the knots is the per-group ratio of performed to score IOI |
| Tempo.AverageCurveIsIoiRatio | basismixer/performance_codec.py:218-230 | when nothing was monotonized away, the default curve is the per-group IOI ratio |
| Tempo.TempoByAverageIsIoiRatio | basismixer/performance_codec.py:142-237 | for rising performed group times, tempo_by_average returns, for every group, performed IOI over score IOI |
| Tempo.TempoByDerivative | basismixer/performance_codec.py:240-332 | alignment errors pass through; otherwise the curve of DerivativeCurve |
| Tempo.DerivativeCurve | basismixer/performance_codec.py:317-332 | succeeds exactly when two monotonized points remain; one central-difference slope per query time |
| Tempo.OnsetSlope | basismixer/performance_codec.py:319-325 | derivative(onset_fun, x, dx=0.5) is positive wherever the monotonized performed times rise |
| Tempo.DerivativeCurvePositive | basismixer/performance_codec.py:317-325 | every slope of the extrapolated performed-time line is positive |
| Tempo.TempoByDerivativePositive | basismixer/performance_codec.py:240-332 | a successful tempo_by_derivative gives a positive beat period everywhere |
| Tempo.TempoOf | basismixer/performance_codec.py:662-667 | the tempo_fun the codec was built with; whichever estimate, a successful curve is positive everywhere |
| Tempo.DefaultTempoFacts | basismixer/performance_codec.py:662-667 | a successful estimate with default grouping and query times gives one positive beat period per group over a partition of the notes, sampled at the unique score onsets |
| TempoNormalization.Name | basismixer/performance_codec.py:338-385 | the parameter names 'beat_period' (or the given name), 'log_bp', 'standardized_bp', 'bpr' and 'log_bpr' |
| TempoNormalization.Log2All | basismixer/performance_codec.py:355 | np.log2 entry by entry |
| TempoNormalization.Pow2All | basismixer/performance_codec.py:358 | 2 ** x entry by entry |
| TempoNormalization.Scale | basismixer/performance_codec.py:377 | dividing by a non-zero constant: each entry times the constant gives back the input |
| TempoNormalization.Normalize | basismixer/performance_codec.py:338-388 | normalize_tempo succeeds for plain and log always; an empty curve normalizes to an empty curve; otherwise the standardized one succeeds exactly on a non-zero standard deviation and the ratio ones on a non-zero mean; one value per beat period |
| TempoNormalization.StandardizedRefusesConstant | basismixer/performance_codec.py:365-366 | with a lawful square root, the standardized normalize_tempo fails exactly on a non-empty constant curve, where numpy divides by a zero deviation |
| TempoNormalization.Rescale | basismixer/performance_codec.py:345-391 | rescale_tempo fails without the standard deviation for the standardized normalization and with an extra argument for log and ratio ones; the plain one ignores extras; one value per parameter |
| TempoNormalization.SideFor | basismixer/performance_codec.py:368-369 | the extra argument to rescale_tempo: the standard deviation std_bp exactly for the standardized normalization, nothing otherwise |
| TempoNormalization.NormalizationRoundTrip | basismixer/performance_codec.py:338-391 | rescaling a normalized positive curve with its mean (and standard deviation when standardized) gives the curve back, for all five normalizations |
| TempoNormalization.LogRoundTrip | basismixer/performance_codec.py:354-358 | 2 ** log2(x) gives back a positive curve |
| TempoNormalization.StandardRoundTrip | basismixer/performance_codec.py:365-369 | x * std + mean undoes standardization |
| TempoNormalization.UnstandardizeInverts | basismixer/performance_codec.py:365-369 | x * sigma + mu undoes (x - mu) / sigma for any non-zero sigma |
| TempoNormalization.MeanRatioRoundTrip | basismixer/performance_codec.py:376-380 | x * mean undoes the mean ratio |
| TempoNormalization.LogRatioRoundTrip | basismixer/performance_codec.py:387-391 | a positive curve has a positive mean, and 2 ** x * mean undoes log2(curve / mean) |
| TempoNormalization.RatiosPositive | basismixer/performance_codec.py:388 | a positive curve over a positive mean gives positive ratios, so log2 applies |
| TempoNormalization.ScaledLogRoundTrip | basismixer/performance_codec.py:387-391 | 2 ** log2(ratio) * mean is the curve again |
| TempoNormalization.LogNormalizationInverts | basismixer/performance_codec.py:354-358 | normalizing a rescaled log parameter gives the parameter back |
| Articulation.GroupFault | basismixer/performance_codec.py:113-125 | a group can be processed exactly when its indices fit both duration arrays and, if it is non-empty, its beat period is non-zero |
| Articulation.LogArticulation | basismixer/performance_codec.py:119-125 | log2 of performed over notated duration in seconds; a grace note counts as notated one beat and played for one beat period, a ratio of one, so log2(1) |
| Articulation.Articulations | basismixer/performance_codec.py:112-125 | after the first m groups, one value per note: that of the last group holding it, 0 otherwise |
| Articulation.WriterInRange | basismixer/performance_codec.py:113-125 | a written note lies within both duration arrays and its writer's beat period is non-zero |
| Articulation.ArticulationsStep | basismixer/performance_codec.py:125 | writing group m sets exactly its notes to their log ratio at its beat period |
| Articulation.EncodeArticulation | basismixer/performance_codec.py:107-127 | the loop stops at the shorter of groups and beat periods; it succeeds exactly when no group up to there is at fault, then returns Articulations; on failure it reports the fault of the first faulty group |
| Articulation.DecodeArticulation | basismixer/performance_codec.py:130-139 | decode_articulation: a grace note decodes to duration 0; that it inverts the encoding of every other note is ArticulationRoundTrip |
| Articulation.GraceNoteEncodesToZero | basismixer/performance_codec.py:118-125 | a note of notated duration 0 encodes to articulation 0 |
| Articulation.ArticulationRoundTrip | basismixer/performance_codec.py:125-139 | decoding the encoded articulation gives back the performed duration of a non-grace note, and 0 for a grace note |
| Articulation.EncodeDecodedArticulation | basismixer/performance_codec.py:125-139 | encoding a decoded duration gives the articulation back |
| TimeCodecs.NewTimeCodec | basismixer/performance_codec.py:620-638 | TimeCodec.__init__: the plain normalization when none is given; 'auto' names are the tuple (normalization name, 'timing', 'log_articulation'); a given list or tuple is kept, and the codec records whether it was a list; anything else is an error |
| TimeCodecs.EquivalentOnsets | basismixer/performance_codec.py:670-671 | equivalent onsets start at the mean performed onset of the first group and step by beat period times score IOI |
| TimeCodecs.ParamRow | basismixer/performance_codec.py:686-689 | the row of one note: width 3, its articulation last; written by group g it holds g's tempo parameter and a timing that, added to its onset, gives g's equivalent onset; written by no group it keeps zeros |
| TimeCodecs.ScoreSteps | basismixer/performance_codec.py:670 | beat_period[:-1] * np.diff(s_onsets): one step per segment |
| TimeCodecs.EncodeTime | basismixer/performance_codec.py:640-694 | TimeCodec.encode: different onset shapes are an error, tempo errors pass through, and a success has one row per note over a partition with positive beat periods |
| TimeCodecs.EncodeWith | basismixer/performance_codec.py:659-694 | _encode succeeds exactly when the tempo normalizes; one row per note; returns mean(beat_period) and the groups |
| TimeCodecs.TempoArticulable | basismixer/performance_codec.py:677-681 | with positive beat periods over a partition, encode_articulation never fails |
| TimeCodecs.EncodedRows | basismixer/performance_codec.py:683-689 | row j is (tempo parameter of its group, equivalent onset of its group less its performed onset, its articulation) |
| TimeCodecs.EncodedRowFacts | basismixer/performance_codec.py:683-689 | every row has width 3, timing relative to the group's equivalent onset, and the log articulation at the group's beat period |
| TimeCodecs.EveryNoteWritten | basismixer/performance_codec.py:686-689 | the groups partition the notes, so every row is written by a group |
| TimeCodecs.RowColumns | basismixer/performance_codec.py:683-689 | rows built from the articulations have width 3 and carry timing and articulation of the note's group |
| TimeCodecs.WrittenArticulations | basismixer/performance_codec.py:112-125 | with every note written, each note's articulation is the log ratio at its own group's beat period |
| TimeCodecs.WrittenRows | basismixer/performance_codec.py:684-689 | rows of the filled matrix carry the group's tempo parameter, the timing and the articulation |
| TimeCodecs.GroupColumn | basismixer/performance_codec.py:711 | parameters[uix, c]: one value per note of the group |
| TimeCodecs.GroupTempoParams | basismixer/performance_codec.py:711-712 | one mean tempo parameter per group |
| TimeCodecs.TempoParamsRecovered | basismixer/performance_codec.py:711-712 | when every note of a partition carries its group's tempo parameter, the group means are those parameters |
| TimeCodecs.DecodeTime | basismixer/performance_codec.py:696-735 | TimeCodec.decode: shape mismatches, an empty score and too narrow a matrix are errors; a success has one onset and one duration per note |
| TimeCodecs.DecodedEquivalentOnsets | basismixer/performance_codec.py:718-720 | decoded equivalent onsets start at 0 and step by beat period times score IOI |
| TimeCodecs.RawOnsets | basismixer/performance_codec.py:724-726 | one decoded onset per note before the shift |
| TimeCodecs.Durations | basismixer/performance_codec.py:727-731 | one decoded duration per note |
| TimeCodecs.PlaceNotes | basismixer/performance_codec.py:722-735 | one onset and one duration per note |
| TimeCodecs.PlacedOnsetsStartAtZero | basismixer/performance_codec.py:733 | after the shift the earliest onset is exactly 0 |
| TimeCodecs.DecodedOnsetsStartAtZero | basismixer/performance_codec.py:733 | every successful decode puts the earliest onset at 0 |
| TimeCodecs.PartitionWriters | basismixer/performance_codec.py:686-689 | over a partition every note is written, by the group that holds it |
| TimeCodecs.SameStepsAgree | basismixer/performance_codec.py:718-720 | two sequences with equal steps and offset starts stay offset |
| TimeCodecs.EncodedStep | basismixer/performance_codec.py:670 | encoder equivalent onsets step by beat period times score IOI |
| TimeCodecs.DecodedStep | basismixer/performance_codec.py:718-720 | decoder equivalent onsets step by beat period times score IOI |
| TimeCodecs.StepsMatch | basismixer/performance_codec.py:718-720 | equal score IOIs give equal steps in encoder and decoder |
| TimeCodecs.DiffsAgree | basismixer/performance_codec.py:709 | agreeing neighbours give agreeing differences |
| TimeCodecs.EquivalentOnsetsRecovered | basismixer/performance_codec.py:718-720 | the decoder's equivalent onsets are the encoder's less its starting mean |
| TimeCodecs.UniqueTimesAgree | basismixer/performance_codec.py:702-707 | decode's get_unique_seq yields the unique score onsets the encoder used when the groupings agree |
| TimeCodecs.DefaultGroupsPartition | basismixer/performance_codec.py:196 | the quantized default grouping partitions the notes |
| TimeCodecs.RawOnsetsRecovered | basismixer/performance_codec.py:724-726 | decoded onsets before the shift are the performed onsets less one constant |
| TimeCodecs.ShiftedBack | basismixer/performance_codec.py:733 | shifting by the minimum removes any constant offset |
| TimeCodecs.DurationsRecovered | basismixer/performance_codec.py:727-731 | decoded durations equal the performed ones for non-grace notes with positive durations, and are 0 for grace notes |
| TimeCodecs.PositiveRatio | basismixer/performance_codec.py:125 | positive durations and beat period give a positive ratio |
| TimeCodecs.DecodeReachesPlacement | basismixer/performance_codec.py:702-731 | decoding an encoding passes every check and reaches the placement with the encoder's groups and beat periods |
| TimeCodecs.PlacedNotesRecovered | basismixer/performance_codec.py:722-735 | the placement of encoded rows gives the performed onsets less their minimum and the performed durations (0 for grace notes) |
| TimeCodecs.EncodedPlacement | basismixer/performance_codec.py:722-735 | placing the rows of a successful encoding gives the performed onsets less their minimum, the performed duration of every non-grace note with positive durations, and 0 for grace notes |
| TimeCodecs.RoundTripWith | basismixer/performance_codec.py:659-735 | decode(encode(x)) with the returned mean beat period restores onsets up to the shift and durations |
| TimeCodecs.TimeRoundTrip | basismixer/performance_codec.py:640-735 | TimeCodec round trip: with the same grouping at both ends, decode gives onsets equal to performed onsets less their minimum, the performed duration of every non-grace note, and 0 for grace notes |
| TimeCodecs.MatrixRows | basismixer/performance_codec.py:684 | the rows of an n x 3 matrix |
| TimeCodecs.Column | basismixer/performance_codec.py:735 | a column of the performance matrix |
| TimeCodecs.Encode | basismixer/performance_codec.py:640-657 | the imperative encode returns EncodeTime |
| TimeCodecs.EncodeMatrix | basismixer/performance_codec.py:659-694 | the imperative _encode returns EncodeWith |
| TimeCodecs.FillRows | basismixer/performance_codec.py:684-689 | the filled zero matrix, read row by row, holds every note's row |
| TimeCodecs.FillParameters | basismixer/performance_codec.py:684-689 | after the loop, every row of the matrix is that note's row |
| TimeCodecs.FillGroup | basismixer/performance_codec.py:686-689 | one pass writes group g's tempo parameter and timings over the earlier groups' values |
| TimeCodecs.Decode | basismixer/performance_codec.py:696-735 | the imperative decode returns DecodeTime |
| TimeCodecs.Place | basismixer/performance_codec.py:722-735 | the zeroed matrix, filled and shifted, holds PlaceNotes |
| TimeCodecs.PlaceGroups | basismixer/performance_codec.py:724-731 | after the loop, column 0 holds the raw onsets and column 1 the durations |
| TimeCodecs.PlaceGroup | basismixer/performance_codec.py:724-731 | one pass writes group g's onsets and durations over the earlier groups' values |
| TimeCodecs.ShiftOnsets | basismixer/performance_codec.py:733 | column 0 loses its minimum; column 1 is unchanged |
| Dynamics.DynamicsNames | basismixer/performance_codec.py:591-593 | parameter_names is a one-element tuple of the given name |
| Dynamics.EncodeVelocities | basismixer/performance_codec.py:595-597 | velocities / 127 |
| Dynamics.RoundAll | basismixer/performance_codec.py:602-604 | np.round entry by entry: each within 1/2 |
| Dynamics.TimesFullScale | basismixer/performance_codec.py:602 | parameters * 127 |
| Dynamics.DecodeVelocities | basismixer/performance_codec.py:599-604 | an empty input is an error (np.max); all parameters at most 1 are scaled by 127 and rounded; otherwise they are rounded as they are |
| Dynamics.VelocityRoundTrip | basismixer/performance_codec.py:595-604 | every velocity 0..127 comes back from its encoding |
| Dynamics.ScaleFollowsMaximum | basismixer/performance_codec.py:601-604 | the scale is read off the whole vector: [1] decodes to [127] but [1, 2] to [1, 2] |
| PerformanceCodecs.NewPerformanceCodec | basismixer/performance_codec.py:24-34 | fails with a TypeError exactly when the time names were given as a list (tuple + list); otherwise the names are the dynamics name followed by the time names |
| PerformanceCodecs.JoinedPerformanceCodec | basismixer/performance_codec.py:31-32 | the constructor as intended: the dynamics name followed by the time names, list or tuple |
| PerformanceCodecs.JoinedAgreesWhereAccepted | basismixer/performance_codec.py:31-32 | for every accepted TimeCodec, PerformanceCodec succeeds exactly when the names were not a list, and then equals the joined constructor |
| PerformanceCodecs.ListNamesRejected | basismixer/performance_codec.py:31-32 | TimeCodec accepts the list ['beat_period', 'timing', 'log_articulation']; PerformanceCodec then fails, the joined constructor does not |
| PerformanceCodecs.ScoreOf | basismixer/performance_codec.py:41-52 | the score fields of a matched note |
| PerformanceCodecs.Stack | basismixer/performance_codec.py:56 | np.column_stack((dynamics, time)): the dynamics value first, then the time row |
| PerformanceCodecs.LeadingColumns | basismixer/performance_codec.py:72 | parameters[:, :w] |
| PerformanceCodecs.FirstColumn | basismixer/performance_codec.py:72 | the single dynamics column: one entry per note, each that note's first parameter |
| PerformanceCodecs.TrailingColumns | basismixer/performance_codec.py:74 | parameters[:, w:] |
| PerformanceCodecs.SplitUndoesStack | basismixer/performance_codec.py:72-74 | splitting at the dynamics width gives back the dynamics column and the time rows |
| PerformanceCodecs.EncodePerformance | basismixer/performance_codec.py:36-63 | time errors pass through; otherwise the time encoding with the scaled velocity in front of each row |
| PerformanceCodecs.WithDynamics | basismixer/performance_codec.py:48-58 | each row is velocity / 127 followed by the time row; mean beat period and groups kept |
| PerformanceCodecs.Clamp | basismixer/performance_codec.py:88 | clip to [lo, hi]: values inside stay, values outside go to the nearer bound |
| PerformanceCodecs.ClipAll | basismixer/performance_codec.py:88 | clip applied to every velocity |
| PerformanceCodecs.ClipScore | basismixer/performance_codec.py:68-70 | clip(score['pitch'], 1, 127), other fields untouched |
| PerformanceCodecs.Clip | basismixer/performance_codec.py:88 | the in-place clip leaves the clipped array |
| PerformanceCodecs.ClipPitches | basismixer/performance_codec.py:68-70 | the caller's score array has its pitches clipped in place |
| PerformanceCodecs.DecodePerformance | basismixer/performance_codec.py:65-104 | time errors pass through; otherwise one note per score note with velocities decoded and clipped |
| PerformanceCodecs.DynamicsColumnExists | basismixer/performance_codec.py:72-76 | a successful time decode means the matrix has a dynamics column for every note |
| PerformanceCodecs.WithVelocities | basismixer/performance_codec.py:82-98 | each output note keeps pitch, onset and duration, takes the decoded onset and duration, and a velocity in 1..127 decoded from column 0 and clipped |
| PerformanceCodecs.Zip | basismixer/performance_codec.py:90-92 | zip(score, velocities, onsets_durations) into matched notes |
| PerformanceCodecs.Decode | basismixer/performance_codec.py:65-104 | clips the caller's pitches in place and returns DecodePerformance on the clipped score |
| PerformanceCodecs.DecodeClipped | basismixer/performance_codec.py:72-104 | the imperative decode after the pitch clip returns DecodePerformance |
| PerformanceCodecs.AttachVelocities | basismixer/performance_codec.py:82-98 | decoding, clipping in place and zipping give WithVelocities |
| PerformanceCodecs.VelocitiesRecovered | basismixer/performance_codec.py:72-86 | the dynamics column of an encoding decodes to the original velocities, and the time columns split back out |
| PerformanceCodecs.ScoreFieldsKept | basismixer/performance_codec.py:70 | clipping pitches leaves onsets and durations alone |
| PerformanceCodecs.ZippedNotesRecovered | basismixer/performance_codec.py:82-98 | zipping recovered velocities and timings restores every note |
| PerformanceCodecs.TimingFromTimes | basismixer/performance_codec.py:76-80 | the time round trip, read per matched note |
| PerformanceCodecs.TimeRowWidths | basismixer/performance_codec.py:684 | every time row has width 3 |
| PerformanceCodecs.DecodedNotes | basismixer/performance_codec.py:65-98 | recovered dynamics and timing give back every note |
| PerformanceCodecs.RoundTripFromParts | basismixer/performance_codec.py:36-98 | the facade round trip, given a time round trip |
| PerformanceCodecs.PerformanceRoundTrip | basismixer/performance_codec.py:19-104 | decode(encode(notes)) on the (pitch-clipped) score restores pitch (clipped), onset, duration, velocity (clipped), the performed onset less the earliest one, and the performed duration of every non-grace note (0 for a grace note), provided both ends group the notes alike |

## Left out

- `tempo_by_average`, `tempo_by_derivative` and the `return_onset_idxs`, `return_u_onset_idx` and `return_unique_onsets` flags: the groups are always returned as part of the record, so the flags are not modelled.
- scipy's `interp1d` is not part of this model. It is replaced by a piecewise-linear interpolant: searchsorted-left segment choice, and either held end values or extended end lines. scipy's `derivative` is modelled as the central difference (f(x + 0.5) - f(x - 0.5)) / 1, which is what it computes with three points.
- The `return_interp_seq` branch of `monotonize_times` is not modelled. The codec never uses it.
- Floating point is modelled by exact reals. The float32/float64 casts and the 'f4'/'i4' output dtypes are not modelled. `np.finfo(np.float32).eps` is the exact constant 2^-23.
- log2, 2**x and sqrt are parameters obeying stated laws. No numeric approximation is modelled.
- Division by zero, which numpy turns into inf or nan, is not modelled. A zero beat period in `encode_articulation` and a zero mean or standard deviation in a normalization are reported as DegenerateInput.
- Monotonizer.Monotonized: takes deltas always, because the codec always passes the unique score onsets. The default deltas=None path of `monotonize_times` raises a TypeError in the program; it is modelled apart, as a finding.
- Monotonizer.Monotonized: requires strictly increasing deltas. A repeated delta makes numpy divide by zero; the only caller passes strictly increasing unique score onsets.
- Tempo.AlignWith: refuses unique score onsets that do not strictly increase (DegenerateInput). Only a caller-supplied grouping can produce them.
- Interpolation.Interpolate: requires strictly increasing knots. scipy sorts its knots and divides by zero on repeated ones.
- UniqueSeqs.GetUniqueSeq: an empty group is reported as DegenerateInput, where numpy returns nan with a warning.
- Numpy broadcasting and 2-D array shapes: a parameter matrix is a sequence of rows. `PerformanceCodecs.Rectangular` states that all rows have one width, which a numpy matrix always has.
- The `default_values`, `midi_out_fn`, `time_div`, `tempo` and `sanitize` arguments, logging, and the empty `OnsetwiseDecompositionDynamicsCodec` do nothing observable, so they are not modelled.
- basismixer.utils.clip is not part of this model. It is modelled as an in-place clamp to [lo, hi].
- new_datasets.py (file copying and random sampling) and performance_codec_example.py (a loading script) are not modelled.
- TimeCodecs.TimeRoundTrip: holds when decode's grouping (eps = 1e-6 on the raw score onsets) equals encode's grouping (on the onsets quantized to 1/10000 beat). The code does not guarantee this, and the lemma requires it.
- PerformanceCodecs.PerformanceRoundTrip: carries the same grouping requirement, and takes the standardized normalization's standard deviation as the side argument of decode.
- TimeCodecs.DurationsRecovered: a note with a zero or negative performed duration has no log2 ratio, so its decoded duration is not stated.

## Findings

| source | as written | input that shows it | evidently intended | confidence | as-written member | corrected member |
|---|---|---|---|---|---|---|
| basismixer/performance_codec.py:31-32 | `dynamics.parameter_names + time.parameter_names` adds a list to a tuple when TimeCodec was given its names as a list, which TimeCodec accepts (lines 633-634) | `PerformanceCodec(TimeCodec(parameter_names=['beat_period', 'timing', 'log_articulation']), NotewiseDynamicsCodec())` raises TypeError | the names are joined whether they came as a list or a tuple | medium, not executed | PerformanceCodecs.ListNamesRejected | PerformanceCodecs.JoinedPerformanceCodec |
| basismixer/performance_codec.py:487-491, 522-533 | with the default deltas=None, `_is_monotonic` and the final read-off index None, so `monotonize_times(s)` always raises; the deltas=None branch of `_select_problematic` (lines 556-559) is never reached | `monotonize_times(np.array([1.0, 0.0, 2.0]))` raises TypeError | without deltas, points are one unit apart, as `_select_problematic` assumes | medium, not executed | Monotonizer.NoDeltasRejected | Monotonizer.MonotonizedUnitDeltas |

=== FILE: articulation.dfy ===
/**
 * encode_articulation and decode_articulation: the log2 ratio between the
 * performed duration of a note and its notated duration in seconds at the
 * local beat period, and back.
 */
module Articulation {
  import opened Results
  import opened Numerics
  import opened OnsetGroups

  function Smaller(a: nat, b: nat): nat {
    if a < b then a else b
  }

  /**
   * The log articulation of one note. A grace note (notated duration 0)
   * is treated as notated 1 and performed `b`, a ratio of one.
   */
  function LogArticulation(tx: Transcendentals, s: real, p: real, b: real): (a: real)
    requires b != 0.0
    ensures s == 0.0 ==> a == tx.log2(1.0)
  {
    if s == 0.0 then assert b / (b * 1.0) == 1.0; tx.log2(b / (b * 1.0)) else tx.log2(p / (b * s))
  }

  /**
   * Why the loop cannot process a group: an index beyond the durations
   * (an IndexError), or a zero beat period that the ratio divides by.
   */
  function GroupFault(n: nat, group: seq<nat>, b: real): (f: Option<Error>)
    ensures f == None <==> InRange(group, n) && (b == 0.0 ==> |group| == 0)
  {
    if !InRange(group, n) then Some(ShapeMismatch)
    else if b == 0.0 && |group| > 0 then Some(DegenerateInput)
    else None
  }

  /** None of the first m groups is at fault. */
  predicate Processable(sd: seq<real>, pd: seq<real>, groups: seq<seq<nat>>, bp: seq<real>, m: nat) {
    && m <= |groups| && m <= |bp|
    && forall g :: 0 <= g < m ==> GroupFault(Smaller(|sd|, |pd|), groups[g], bp[g]) == None
  }

  /**
   * The articulation after the first m groups have been written: each note
   * carries the value of the last of them that holds it, 0 if none does.
   */
  function Articulations(tx: Transcendentals, sd: seq<real>, pd: seq<real>, groups: seq<seq<nat>>,
                         bp: seq<real>, m: nat): (r: seq<real>)
    requires Processable(sd, pd, groups, bp, m)
    ensures |r| == |sd|
  {
    seq(|sd|, j requires 0 <= j < |sd| =>
      var w := WriterOf(groups, m, j);
      if w < 0 then 0.0
      else
        WriterInRange(sd, pd, groups, bp, m, j);
        LogArticulation(tx, sd[j], pd[j], bp[w]))
  }

  lemma {:induction false} WriterInRange(sd: seq<real>, pd: seq<real>, groups: seq<seq<nat>>, bp: seq<real>, m: nat, j: nat)
    requires Processable(sd, pd, groups, bp, m)
    requires WriterOf(groups, m, j) >= 0
    ensures j < |sd| && j < |pd| && bp[WriterOf(groups, m, j)] != 0.0
  {
    var w := WriterOf(groups, m, j);
    var k :| 0 <= k < |groups[w]| && groups[w][k] == j;
    assert GroupFault(Smaller(|sd|, |pd|), groups[w], bp[w]) == None;
  }

  /** Writing group m on top of the first m groups. */
  lemma {:induction false} ArticulationsStep(tx: Transcendentals, sd: seq<real>, pd: seq<real>, groups: seq<seq<nat>>,
                          bp: seq<real>, m: nat, j: nat)
    requires Processable(sd, pd, groups, bp, m + 1) && j < |sd|
    ensures j in groups[m] ==> j < |pd| && bp[m] != 0.0
    ensures Articulations(tx, sd, pd, groups, bp, m + 1)[j]
         == if j in groups[m] then LogArticulation(tx, sd[j], pd[j], bp[m])
            else Articulations(tx, sd, pd, groups, bp, m)[j]
  {
    if j in groups[m] {
      assert WriterOf(groups, m + 1, j) == m;
      WriterInRange(sd, pd, groups, bp, m + 1, j);
    }
  }

  /**
   * encode_articulation(score_durations, performed_durations,
   * unique_onset_idxs, beat_period): zip stops at the shorter of the
   * groups and the beat periods; the loop stops at the first group at
   * fault.
   */
  method EncodeArticulation(tx: Transcendentals, sd: seq<real>, pd: seq<real>, groups: seq<seq<nat>>,
                            bp: seq<real>) returns (r: Result<seq<real>>)
    ensures var m := Smaller(|groups|, |bp|);
      r.Ok? <==> Processable(sd, pd, groups, bp, m)
    ensures var m := Smaller(|groups|, |bp|);
      r.Ok? ==> r.value == Articulations(tx, sd, pd, groups, bp, m)
    ensures r.Err? ==> exists g: nat :: g < |groups| && g < |bp| && Processable(sd, pd, groups, bp, g)
                                   && GroupFault(Smaller(|sd|, |pd|), groups[g], bp[g]) == Some(r.error)
  {
    var n := Smaller(|sd|, |pd|);
    var m := Smaller(|groups|, |bp|);
    var art := new real[|sd|](_ => 0.0);
    var g := 0;
    while g < m
      invariant 0 <= g <= m
      invariant Processable(sd, pd, groups, bp, g)
      invariant art[..] == Articulations(tx, sd, pd, groups, bp, g)
    {
      var fault := GroupFault(n, groups[g], bp[g]);
      if fault.Some? {
        return Err(fault.value);
      }
      assert Processable(sd, pd, groups, bp, g + 1);
      var idx := groups[g];
      ghost var before := art[..];
      var k := 0;
      while k < |idx|
        invariant 0 <= k <= |idx|
        invariant forall j :: 0 <= j < art.Length ==>
          art[j] == if j in idx[..k] then LogArticulation(tx, sd[j], pd[j], bp[g]) else before[j]
      {
        assert idx[k] < n;
        art[idx[k]] := LogArticulation(tx, sd[idx[k]], pd[idx[k]], bp[g]);
        assert idx[..k + 1] == idx[..k] + [idx[k]];
        k := k + 1;
      }
      assert idx[..k] == idx;
      forall j | 0 <= j < art.Length
        ensures art[j] == Articulations(tx, sd, pd, groups, bp, g + 1)[j]
      {
        ArticulationsStep(tx, sd, pd, groups, bp, g, j);
      }
      g := g + 1;
    }
    return Ok(art[..]);
  }

  /** decode_articulation for one note: 2**a notated durations at beat period `b`. */
  function DecodeArticulation(tx: Transcendentals, s: real, a: real, b: real): (d: real)
    ensures s == 0.0 ==> d == 0.0
  {
    tx.pow2(a) * s * b
  }

  // ---------------------------------------------------------------------
  // Properties

  /** A grace note encodes to articulation 0. */
  lemma {:induction false} GraceNoteEncodesToZero(tx: Transcendentals, p: real, b: real)
    requires Lawful(tx) && b != 0.0
    ensures LogArticulation(tx, 0.0, p, b) == 0.0
  {
    assert b / (b * 1.0) == 1.0;
    Log2OfOne(tx);
  }

  /**
   * Decoding an encoded articulation gives back the performed duration,
   * whenever the performed-to-notated ratio has a logarithm; a grace note
   * comes back with duration 0.
   */
  lemma {:induction false} ArticulationRoundTrip(tx: Transcendentals, s: real, p: real, b: real)
    requires Lawful(tx) && b != 0.0
    requires s != 0.0 ==> p / (b * s) > 0.0
    ensures s != 0.0 ==> DecodeArticulation(tx, s, LogArticulation(tx, s, p, b), b) == p
    ensures s == 0.0 ==> DecodeArticulation(tx, s, LogArticulation(tx, s, p, b), b) == 0.0
  {
    if s != 0.0 {
      var ratio := p / (b * s);
      assert tx.pow2(tx.log2(ratio)) == ratio;
      assert ratio * s * b == p;
    }
  }

  /** Encoding a decoded duration gives the articulation back. */
  lemma {:induction false} EncodeDecodedArticulation(tx: Transcendentals, s: real, a: real, b: real)
    requires Lawful(tx) && b != 0.0 && s != 0.0
    ensures LogArticulation(tx, s, DecodeArticulation(tx, s, a, b), b) == a
  {
    var p := DecodeArticulation(tx, s, a, b);
    assert p / (b * s) == tx.pow2(a);
  }
}

=== FILE: dynamics_codec.dfy ===
/**
 * NotewiseDynamicsCodec: the MIDI velocity of every note as a single
 * expressive parameter, scaled into [0, 1] and rounded back.
 */
module Dynamics {
  import opened Results
  import opened Numerics

  /** NotewiseDynamicsCodec(parameter_names): one parameter, named as given. */
  datatype DynamicsCodec = DynamicsCodec(name: string)

  /** The codec built without arguments. */
  const DefaultDynamics: DynamicsCodec := DynamicsCodec("velocity")

  /** The parameter names: a tuple holding the one name. */
  function DynamicsNames(codec: DynamicsCodec): (names: seq<string>)
    ensures |names| == 1 && names[0] == codec.name
  {
    [codec.name]
  }

  /** NotewiseDynamicsCodec.encode: velocities / 127. */
  function EncodeVelocities(velocities: seq<int>): (p: seq<real>)
    ensures |p| == |velocities|
    ensures forall k :: 0 <= k < |p| ==> p[k] * 127.0 == velocities[k] as real
  {
    seq(|velocities|, k requires 0 <= k < |velocities| => velocities[k] as real / 127.0)
  }

  /** np.round, entry by entry. */
  function RoundAll(p: seq<real>): (v: seq<int>)
    ensures |v| == |p|
    ensures forall k :: 0 <= k < |p| ==> -0.5 <= p[k] - v[k] as real <= 0.5
  {
    seq(|p|, k requires 0 <= k < |p| => RoundHalfEven(p[k]))
  }

  /** parameters * 127.0 */
  function TimesFullScale(p: seq<real>): (q: seq<real>)
    ensures |q| == |p|
    ensures forall k :: 0 <= k < |p| ==> q[k] == p[k] * 127.0
  {
    seq(|p|, k requires 0 <= k < |p| => p[k] * 127.0)
  }

  /**
   * NotewiseDynamicsCodec.decode: parameters that all lie at or below 1
   * are taken as scaled and multiplied by 127, otherwise they are taken as
   * velocities already; either way they are rounded. np.max of nothing
   * raises.
   */
  function DecodeVelocities(p: seq<real>): (r: Result<seq<int>>)
    ensures |p| == 0 <==> r == Err(EmptyInput)
    ensures r.Ok? ==> |r.value| == |p|
    ensures r.Ok? && (forall k :: 0 <= k < |p| ==> p[k] <= 1.0) ==>
      forall k :: 0 <= k < |p| ==> -0.5 <= p[k] * 127.0 - r.value[k] as real <= 0.5
    ensures r.Ok? && (exists k :: 0 <= k < |p| && p[k] > 1.0) ==>
      forall k :: 0 <= k < |p| ==> -0.5 <= p[k] - r.value[k] as real <= 0.5
  {
    if |p| == 0 then Err(EmptyInput)
    else if Max(p) <= 1.0 then Ok(RoundAll(TimesFullScale(p)))
    else Ok(RoundAll(p))
  }

  // ---------------------------------------------------------------------
  // Properties

  /** Every MIDI velocity 0 .. 127 comes back from its encoding. */
  lemma {:induction false} VelocityRoundTrip(velocities: seq<int>)
    requires |velocities| > 0
    requires forall k :: 0 <= k < |velocities| ==> 0 <= velocities[k] <= 127
    ensures DecodeVelocities(EncodeVelocities(velocities)) == Ok(velocities)
  {
    var p := EncodeVelocities(velocities);
    forall k | 0 <= k < |p| ensures p[k] <= 1.0 {
      assert p[k] * 127.0 <= 127.0;
    }
    assert Max(p) <= 1.0;
    var q := TimesFullScale(p);
    var back := RoundAll(q);
    forall k | 0 <= k < |p| ensures back[k] == velocities[k] {
      assert q[k] == velocities[k] as real;
      RoundOfInteger(velocities[k]);
    }
    assert back == velocities;
  }

  /**
   * The scale is read off the whole vector: a parameter of 1 decodes to
   * velocity 127, but next to a parameter of 2 it decodes to velocity 1.
   */
  lemma {:induction false} ScaleFollowsMaximum()
    ensures DecodeVelocities([1.0]) == Ok([127])
    ensures DecodeVelocities([1.0, 2.0]) == Ok([1, 2])
  {
    RoundOfInteger(127);
    RoundOfInteger(1);
    RoundOfInteger(2);
    assert TimesFullScale([1.0]) == [127.0];
    assert RoundAll([127.0]) == [127];
    assert Max([1.0, 2.0]) == 2.0 by {
      assert [1.0, 2.0][1..] == [2.0];
    }
    assert RoundAll([1.0, 2.0]) == [1, 2];
  }
}

=== FILE: interpolation.dfy ===
/**
 * Piecewise-linear interpolation over strictly increasing knots, as the
 * tempo estimates use scipy's interp1d: either holding the end values
 * outside the knots (fill_value=(y[0], y[-1])) or extending the first and
 * the last segment (fill_value='extrapolate').
 */
module Interpolation {
  import opened Results
  import opened Numerics

  datatype Bounds = HoldEnds | Extrapolate

  /** np.searchsorted(xs, x, side='left'): the number of knots below x. */
  function SearchSortedLeft(xs: seq<real>, x: real): (i: nat)
    ensures i <= |xs|
    ensures StrictlyIncreasing(xs) ==> forall k :: 0 <= k < i ==> xs[k] < x
    ensures StrictlyIncreasing(xs) ==> forall k :: i <= k < |xs| ==> x <= xs[k]
  {
    if |xs| == 0 then 0
    else if xs[|xs| - 1] < x then |xs|
    else
      var i := SearchSortedLeft(xs[..|xs| - 1], x);
      assert StrictlyIncreasing(xs) ==> StrictlyIncreasing(xs[..|xs| - 1]);
      i
  }

  /** The segment interp1d evaluates: searchsorted clipped to [1, |xs| - 1]. */
  function Segment(xs: seq<real>, x: real): (i: nat)
    requires |xs| >= 2
    ensures 1 <= i <= |xs| - 1
  {
    var i := SearchSortedLeft(xs, x);
    if i < 1 then 1 else if i > |xs| - 1 then |xs| - 1 else i
  }

  /** The straight line through (xlo, ylo) and (xhi, yhi), at x. */
  function Line(xlo: real, ylo: real, xhi: real, yhi: real, x: real): (y: real)
    requires xlo < xhi
    ensures x == xlo ==> y == ylo
    ensures x == xhi ==> y == yhi
  {
    ylo + (yhi - ylo) / (xhi - xlo) * (x - xlo)
  }

  /**
   * The interpolant at x. One knot gives its value everywhere (numpy's
   * interp with the two fill values both equal to it).
   */
  function InterpAt(xs: seq<real>, ys: seq<real>, x: real, bounds: Bounds): (y: real)
    requires |xs| == |ys| >= 1 && StrictlyIncreasing(xs)
    requires bounds == Extrapolate ==> |xs| >= 2
    ensures |xs| == 1 ==> y == ys[0]
    ensures bounds == HoldEnds && x <= xs[0] ==> y == ys[0]
    ensures bounds == HoldEnds && x >= xs[|xs| - 1] ==> y == ys[|ys| - 1]
  {
    if |xs| == 1 then ys[0]
    else if bounds == HoldEnds && x < xs[0] then ys[0]
    else if bounds == HoldEnds && x > xs[|xs| - 1] then ys[|ys| - 1]
    else
      var i := Segment(xs, x);
      Line(xs[i - 1], ys[i - 1], xs[i], ys[i], x)
  }

  /**
   * interp1d(xs, ys, ...)(queries). Fewer than one knot is refused;
   * extrapolating from a single knot divides zero by zero.
   */
  function Interpolate(xs: seq<real>, ys: seq<real>, bounds: Bounds, queries: seq<real>): (r: Result<seq<real>>)
    requires StrictlyIncreasing(xs)
    ensures r.Ok? <==> |xs| == |ys| && (|xs| >= 2 || (|xs| == 1 && bounds == HoldEnds))
    ensures |xs| != |ys| ==> r == Err(ShapeMismatch)
    ensures r.Ok? ==> |r.value| == |queries|
    ensures r.Ok? ==> forall q :: 0 <= q < |queries| ==> r.value[q] == InterpAt(xs, ys, queries[q], bounds)
  {
    if |xs| != |ys| then Err(ShapeMismatch)
    else if |xs| == 0 || (|xs| == 1 && bounds == Extrapolate) then Err(DegenerateInput)
    else
      var values := seq(|queries|, q requires 0 <= q < |queries| => InterpAt(xs, ys, queries[q], bounds));
      assert |xs| >= 2 || (|xs| == 1 && bounds == HoldEnds);
      assert forall q :: 0 <= q < |queries| ==> values[q] == InterpAt(xs, ys, queries[q], bounds);
      Ok(values)
  }

  // ---------------------------------------------------------------------
  // Properties

  lemma {:induction false} LineAtEnds(xlo: real, ylo: real, xhi: real, yhi: real)
    requires xlo < xhi
    ensures Line(xlo, ylo, xhi, yhi, xlo) == ylo
    ensures Line(xlo, ylo, xhi, yhi, xhi) == yhi
  {
    assert (yhi - ylo) / (xhi - xlo) * (xhi - xlo) == yhi - ylo;
  }

  /** Between its two points, the line stays between their values. */
  lemma {:induction false} LineBetween(xlo: real, ylo: real, xhi: real, yhi: real, x: real, lo: real, hi: real)
    requires xlo < xhi && xlo <= x <= xhi
    requires lo <= ylo <= hi && lo <= yhi <= hi
    ensures lo <= Line(xlo, ylo, xhi, yhi, x) <= hi
  {
    var d, s := xhi - xlo, x - xlo;
    var t := s / d;
    FractionWithinUnit(s, d);
    assert (yhi - ylo) / d * s == (yhi - ylo) * t;
    if ylo <= yhi {
      ScaledWithin(yhi - ylo, t);
    } else {
      ScaledWithin(ylo - yhi, t);
    }
  }

  lemma {:induction false} FractionWithinUnit(s: real, d: real)
    requires d > 0.0 && 0.0 <= s <= d
    ensures 0.0 <= s / d <= 1.0
  {
    QuotientBounds(s, d, 0.0, 1.0);
  }

  lemma {:induction false} ScaledWithin(a: real, t: real)
    requires a >= 0.0 && 0.0 <= t <= 1.0
    ensures 0.0 <= a * t <= a
  {
    assert a - a * t == a * (1.0 - t);
  }

  /** A line through a rising pair of points rises. */
  lemma {:induction false} LineRises(xlo: real, ylo: real, xhi: real, yhi: real, x: real, y: real)
    requires xlo < xhi && ylo < yhi && x < y
    ensures Line(xlo, ylo, xhi, yhi, x) < Line(xlo, ylo, xhi, yhi, y)
  {
    var slope := (yhi - ylo) / (xhi - xlo);
    PositiveQuotient(yhi - ylo, xhi - xlo);
    ScaledGap(slope, x - xlo, y - xlo);
    assert Line(xlo, ylo, xhi, yhi, x) == ylo + slope * (x - xlo);
    assert Line(xlo, ylo, xhi, yhi, y) == ylo + slope * (y - xlo);
  }

  lemma {:induction false} PositiveQuotient(a: real, b: real)
    requires a > 0.0 && b > 0.0
    ensures a / b > 0.0
  {
  }

  /** A positive factor keeps the order of two numbers. */
  lemma {:induction false} ScaledGap(s: real, a: real, b: real)
    requires s > 0.0 && a < b
    ensures s * a < s * b
  {
    assert s * b - s * a == s * (b - a);
  }

  /** Searching for a knot finds its own position. */
  lemma {:induction false} SearchAtKnot(xs: seq<real>, k: nat)
    requires StrictlyIncreasing(xs) && k < |xs|
    ensures SearchSortedLeft(xs, xs[k]) == k
  {
    var prefix := xs[..|xs| - 1];
    assert StrictlyIncreasing(prefix);
    if k < |xs| - 1 {
      assert prefix[k] == xs[k];
      SearchAtKnot(prefix, k);
    } else if |prefix| > 0 {
      assert prefix[|prefix| - 1] < xs[k];
    }
  }

  /** A later query never lands before an earlier one. */
  lemma {:induction false} SearchMonotone(xs: seq<real>, x: real, y: real)
    requires x <= y
    ensures SearchSortedLeft(xs, x) <= SearchSortedLeft(xs, y)
  {
    if |xs| > 0 && !(xs[|xs| - 1] < y) {
      SearchMonotone(xs[..|xs| - 1], x, y);
    }
  }

  /** Where x lies relative to the two knots of the segment it is evaluated on. */
  lemma {:induction false} SegmentBrackets(xs: seq<real>, x: real)
    requires StrictlyIncreasing(xs) && |xs| >= 2
    ensures Segment(xs, x) < |xs| - 1 || x <= xs[|xs| - 1] ==> x <= xs[Segment(xs, x)]
    ensures Segment(xs, x) > 1 ==> xs[Segment(xs, x) - 1] < x
    ensures xs[0] <= x ==> xs[Segment(xs, x) - 1] <= x
  {
    var raw, i := SearchSortedLeft(xs, x), Segment(xs, x);
    if raw == 0 {
      assert x <= xs[0];
    } else if raw == |xs| {
      assert xs[i - 1] < x;
      assert xs[i] < x;
    } else {
      assert xs[raw - 1] < x;
      assert x <= xs[raw];
    }
  }

  /** Interpolating at a knot gives that knot's value. */
  lemma {:induction false} InterpAtKnot(xs: seq<real>, ys: seq<real>, k: nat, bounds: Bounds)
    requires |xs| == |ys| >= 1 && StrictlyIncreasing(xs) && k < |xs|
    requires bounds == Extrapolate ==> |xs| >= 2
    ensures InterpAt(xs, ys, xs[k], bounds) == ys[k]
  {
    if |xs| > 1 {
      var i := Segment(xs, xs[k]);
      SearchAtKnot(xs, k);
      LineAtEnds(xs[i - 1], ys[i - 1], xs[i], ys[i]);
    }
  }

  /**
   * Holding the end values, the interpolant never leaves the range of the
   * knot values.
   */
  lemma {:induction false} HoldEndsWithin(xs: seq<real>, ys: seq<real>, x: real, lo: real, hi: real)
    requires |xs| == |ys| >= 1 && StrictlyIncreasing(xs)
    requires forall k :: 0 <= k < |ys| ==> lo <= ys[k] <= hi
    ensures lo <= InterpAt(xs, ys, x, HoldEnds) <= hi
  {
    if |xs| > 1 && xs[0] <= x <= xs[|xs| - 1] {
      var i := Segment(xs, x);
      SegmentBrackets(xs, x);
      LineBetween(xs[i - 1], ys[i - 1], xs[i], ys[i], x, lo, hi);
    }
  }

  /**
   * Extending the end segments, the interpolant of strictly rising values
   * strictly rises.
   */
  lemma {:induction false} ExtrapolateRises(xs: seq<real>, ys: seq<real>, x: real, y: real)
    requires |xs| == |ys| >= 2 && StrictlyIncreasing(xs) && StrictlyIncreasing(ys)
    requires x < y
    ensures InterpAt(xs, ys, x, Extrapolate) < InterpAt(xs, ys, y, Extrapolate)
  {
    var i, j := Segment(xs, x), Segment(xs, y);
    SearchMonotone(xs, x, y);
    if i == j {
      LineRises(xs[i - 1], ys[i - 1], xs[i], ys[i], x, y);
    } else {
      SegmentBrackets(xs, x);
      SegmentBrackets(xs, y);
      LineAtEnds(xs[i - 1], ys[i - 1], xs[i], ys[i]);
      LineAtEnds(xs[j - 1], ys[j - 1], xs[j], ys[j]);
      if x < xs[i] {
        LineRises(xs[i - 1], ys[i - 1], xs[i], ys[i], x, xs[i]);
      }
      LineRises(xs[j - 1], ys[j - 1], xs[j], ys[j], xs[j - 1], y);
      assert ys[i] <= ys[j - 1];
    }
  }
}

=== FILE: monotonizer.dfy ===
/**
 * The greedy monotonizer behind the tempo estimate (monotonize_times and its
 * helpers): it pads a sequence with a smaller first and a larger last
 * point, then clears the points of a boolean mask one at a time until the
 * masked points rise against the matching `deltas`.
 */
module Monotonizer {
  import opened Results
  import opened Numerics
  import opened OnsetGroups

  /** The number of set bits. */
  function Count(mask: seq<bool>): (c: nat)
    ensures c <= |mask|
  {
    if |mask| == 0 then 0 else Count(mask[..|mask| - 1]) + (if mask[|mask| - 1] then 1 else 0)
  }

  /** np.where(mask)[0]: the set positions, in ascending order. */
  function MaskedIndices(mask: seq<bool>): (r: seq<nat>)
    ensures |r| == Count(mask)
    ensures forall k :: 0 <= k < |r| ==> r[k] < |mask| && mask[r[k]]
    ensures forall a, b :: 0 <= a < b < |r| ==> r[a] < r[b]
  {
    if |mask| == 0 then []
    else
      var front := mask[..|mask| - 1];
      var t := MaskedIndices(front);
      assert forall k :: 0 <= k < |t| ==> mask[t[k]] == front[t[k]];
      if mask[|mask| - 1] then t + [|mask| - 1] else t
  }

  /** Every set position is among the masked indices. */
  lemma {:induction false} MaskedIndicesComplete(mask: seq<bool>, i: nat)
    requires i < |mask| && mask[i]
    ensures i in MaskedIndices(mask)
  {
    var n := |mask|;
    if i < n - 1 {
      MaskedIndicesComplete(mask[..n - 1], i);
    }
  }

  /** xs[mask]. */
  function Select(xs: seq<real>, mask: seq<bool>): (r: seq<real>)
    requires |xs| == |mask|
    ensures |r| == Count(mask)
  {
    Gather(xs, MaskedIndices(mask))
  }

  /** np.diff(s[mask]) / np.diff(deltas[mask]). */
  function Slopes(s: seq<real>, deltas: seq<real>, mask: seq<bool>): (r: seq<real>)
    requires |s| == |mask| && |deltas| == |mask|
    requires StrictlyIncreasing(deltas)
    ensures |r| == if Count(mask) == 0 then 0 else Count(mask) - 1
  {
    var idx := MaskedIndices(mask);
    if |idx| == 0 then []
    else
      seq(|idx| - 1, k requires 0 <= k < |idx| - 1 => Slope(s, deltas, idx[k], idx[k + 1]))
  }

  /** The slope from point i to point j. */
  function Slope(s: seq<real>, deltas: seq<real>, i: nat, j: nat): (q: real)
    requires i < |s| && j < |s| && |deltas| == |s| && deltas[i] != deltas[j]
    ensures q * (deltas[j] - deltas[i]) == s[j] - s[i]
  {
    (s[j] - s[i]) / (deltas[j] - deltas[i])
  }

  /** Over a rising delta, the slope is positive exactly when the point rises. */
  lemma {:induction false} SlopeSign(s: seq<real>, deltas: seq<real>, i: nat, j: nat)
    requires i < |s| && j < |s| && |deltas| == |s| && deltas[i] < deltas[j]
    ensures Slope(s, deltas, i, j) > 0.0 <==> s[i] < s[j]
  {
    var num, den := s[j] - s[i], deltas[j] - deltas[i];
    var q := Slope(s, deltas, i, j);
    assert q * den == num;
    if q > 0.0 {
      ProductPositive(q, den);
    }
    if num > 0.0 {
      QuotientPositive(num, den);
    }
  }

  lemma {:induction false} QuotientPositive(num: real, den: real)
    requires num > 0.0 && den > 0.0
    ensures num / den > 0.0
  {
  }

  /**
   * _is_monotonic: fewer than four masked points always count as
   * monotonic; otherwise every slope must be positive (strict) or
   * non-negative.
   */
  predicate IsMonotonic(s: seq<real>, mask: seq<bool>, strict: bool, deltas: seq<real>)
    requires |s| == |mask| && |deltas| == |mask|
    requires StrictlyIncreasing(deltas)
    ensures Count(mask) < 4 ==> IsMonotonic(s, mask, strict, deltas)
  {
    var d := Slopes(s, deltas, mask);
    Count(mask) < 4 ||
    (if strict then forall k :: 0 <= k < |d| ==> d[k] > 0.0
     else forall k :: 0 <= k < |d| ==> d[k] >= 0.0)
  }

  /**
   * The position, among the masked points, that _select_problematic picks:
   * one past the first smallest product of two neighbouring slopes.
   */
  function ProblemPosition(s: seq<real>, deltas: seq<real>, mask: seq<bool>): (q: nat)
    requires |s| == |mask| && |deltas| == |mask|
    requires StrictlyIncreasing(deltas)
    requires Count(mask) >= 3
    ensures 1 <= q <= Count(mask) - 2
  {
    var d := Slopes(s, deltas, mask);
    var products := seq(|d| - 1, j requires 0 <= j < |d| - 1 => d[j + 1] * d[j]);
    ArgMin(products) + 1
  }

  /** _select_problematic: the mask position of that point, which is set. */
  function SelectProblematic(s: seq<real>, deltas: seq<real>, mask: seq<bool>): (p: nat)
    requires |s| == |mask| && |deltas| == |mask|
    requires StrictlyIncreasing(deltas)
    requires Count(mask) >= 3
    ensures p < |mask| && mask[p]
  {
    MaskedIndices(mask)[ProblemPosition(s, deltas, mask)]
  }

  /**
   * There is a set position on either side of the problematic point, so the
   * first and the last masked points are never chosen.
   */
  lemma {:induction false} ProblematicIsInterior(s: seq<real>, deltas: seq<real>, mask: seq<bool>)
    requires |s| == |mask| && |deltas| == |mask|
    requires StrictlyIncreasing(deltas)
    requires Count(mask) >= 3
    ensures var p := SelectProblematic(s, deltas, mask);
      && (exists a :: 0 <= a < p && mask[a])
      && (exists b :: p < b < |mask| && mask[b])
  {
    var idx := MaskedIndices(mask);
    var q := ProblemPosition(s, deltas, mask);
    assert mask[idx[q - 1]] && idx[q - 1] < idx[q];
    assert mask[idx[q + 1]] && idx[q] < idx[q + 1];
  }

  /** i is the first set position. */
  predicate FirstSet(mask: seq<bool>, i: nat) {
    i < |mask| && mask[i] && forall j :: 0 <= j < i ==> !mask[j]
  }

  /** i is the last set position. */
  predicate LastSet(mask: seq<bool>, i: nat) {
    i < |mask| && mask[i] && forall j :: i < j < |mask| ==> !mask[j]
  }

  lemma {:induction false} CountClear(mask: seq<bool>, p: nat)
    requires p < |mask| && mask[p]
    ensures Count(mask[p := false]) == Count(mask) - 1
  {
    var n := |mask|;
    var cleared := mask[p := false];
    if p < n - 1 {
      assert cleared[..n - 1] == mask[..n - 1][p := false];
      CountClear(mask[..n - 1], p);
    } else {
      assert cleared[..n - 1] == mask[..n - 1];
    }
  }

  /**
   * One step of _monotonize_times: clear the problematic bit. Exactly one
   * set bit goes, and it is neither the first nor the last set bit.
   */
  function ClearProblematic(s: seq<real>, deltas: seq<real>, mask: seq<bool>): (next: seq<bool>)
    requires |s| == |mask| && |deltas| == |mask|
    requires StrictlyIncreasing(deltas)
    requires Count(mask) >= 3
    ensures |next| == |mask|
    ensures Count(next) == Count(mask) - 1
  {
    var p := SelectProblematic(s, deltas, mask);
    CountClear(mask, p);
    mask[p := false]
  }

  /** The step clears one set bit, and neither the first nor the last set bit. */
  lemma {:induction false} ClearProblematicFacts(s: seq<real>, deltas: seq<real>, mask: seq<bool>)
    requires |s| == |mask| && |deltas| == |mask|
    requires StrictlyIncreasing(deltas)
    requires Count(mask) >= 3
    ensures var next := ClearProblematic(s, deltas, mask);
      && (forall i :: 0 <= i < |next| && next[i] ==> mask[i])
      && (forall i: nat :: FirstSet(mask, i) ==> FirstSet(next, i))
      && (forall i: nat :: LastSet(mask, i) ==> LastSet(next, i))
  {
    var p := SelectProblematic(s, deltas, mask);
    ProblematicIsInterior(s, deltas, mask);
    ClearInterior(mask, p);
  }

  /** Clearing a set bit with set bits on both sides keeps the first and the last set bit. */
  lemma {:induction false} ClearInterior(mask: seq<bool>, p: nat)
    requires p < |mask| && mask[p]
    requires exists a :: 0 <= a < p && mask[a]
    requires exists b :: p < b < |mask| && mask[b]
    ensures Count(mask[p := false]) == Count(mask) - 1
    ensures forall i :: 0 <= i < |mask| && mask[p := false][i] ==> mask[i]
    ensures forall i: nat :: FirstSet(mask, i) ==> FirstSet(mask[p := false], i)
    ensures forall i: nat :: LastSet(mask, i) ==> LastSet(mask[p := false], i)
  {
    CountClear(mask, p);
    var a :| 0 <= a < p && mask[a];
    var b :| p < b < |mask| && mask[b];
    forall i: nat | FirstSet(mask, i) ensures FirstSet(mask[p := false], i) {
      assert i <= a;
    }
    forall i: nat | LastSet(mask, i) ensures LastSet(mask[p := false], i) {
      assert b <= i;
    }
  }

  /**
   * _monotonize_times: clear the problematic point until the masked points
   * are monotonic. Each step clears one set bit, so this ends after fewer
   * steps than the mask has bits.
   */
  function MonotonizeMask(s: seq<real>, mask: seq<bool>, strict: bool, deltas: seq<real>): (r: seq<bool>)
    requires |s| == |mask| && |deltas| == |mask|
    requires StrictlyIncreasing(deltas)
    ensures |r| == |mask|
    ensures IsMonotonic(s, r, strict, deltas)
    decreases Count(mask)
  {
    if IsMonotonic(s, mask, strict, deltas) then mask
    else MonotonizeMask(s, ClearProblematic(s, deltas, mask), strict, deltas)
  }

  /** The monotonized mask only clears bits. */
  lemma {:induction false} MonotonizeMaskClearsOnly(s: seq<real>, mask: seq<bool>, strict: bool, deltas: seq<real>)
    requires |s| == |mask| && |deltas| == |mask|
    requires StrictlyIncreasing(deltas)
    ensures var r := MonotonizeMask(s, mask, strict, deltas);
      forall i :: 0 <= i < |r| && r[i] ==> mask[i]
    decreases Count(mask)
  {
    if !IsMonotonic(s, mask, strict, deltas) {
      var cleared := ClearProblematic(s, deltas, mask);
      ClearProblematicFacts(s, deltas, mask);
      MonotonizeMaskClearsOnly(s, cleared, strict, deltas);
      assert MonotonizeMask(s, mask, strict, deltas) == MonotonizeMask(s, cleared, strict, deltas);
    }
  }

  /** The first and the last set bits are never cleared. */
  lemma {:induction false} MonotonizeMaskKeepsEnds(s: seq<real>, mask: seq<bool>, strict: bool, deltas: seq<real>, i: nat)
    requires |s| == |mask| && |deltas| == |mask|
    requires StrictlyIncreasing(deltas)
    requires FirstSet(mask, i) || LastSet(mask, i)
    ensures MonotonizeMask(s, mask, strict, deltas)[i]
    decreases Count(mask)
  {
    if !IsMonotonic(s, mask, strict, deltas) {
      ClearProblematicFacts(s, deltas, mask);
      MonotonizeMaskKeepsEnds(s, ClearProblematic(s, deltas, mask), strict, deltas, i);
    }
  }

  /** A mask that starts with at least three set bits keeps at least three. */
  lemma {:induction false} MonotonizeMaskKeepsThree(s: seq<real>, mask: seq<bool>, strict: bool, deltas: seq<real>)
    requires |s| == |mask| && |deltas| == |mask|
    requires StrictlyIncreasing(deltas)
    requires Count(mask) >= 3
    ensures Count(MonotonizeMask(s, mask, strict, deltas)) >= 3
    decreases Count(mask)
  {
    if !IsMonotonic(s, mask, strict, deltas) {
      ClearProblematicFacts(s, deltas, mask);
      MonotonizeMaskKeepsThree(s, ClearProblematic(s, deltas, mask), strict, deltas);
    }
  }

  /**
   * The in-place loop of _monotonize_times on the caller's mask array: the
   * mask it leaves is the one the recursion above describes.
   */
  method MonotonizeMaskInPlace(s: seq<real>, mask: array<bool>, strict: bool, deltas: seq<real>)
    requires |s| == mask.Length && |deltas| == mask.Length
    requires StrictlyIncreasing(deltas)
    modifies mask
    ensures mask[..] == MonotonizeMask(s, old(mask[..]), strict, deltas)
  {
    while !IsMonotonic(s, mask[..], strict, deltas)
      invariant MonotonizeMask(s, mask[..], strict, deltas) == MonotonizeMask(s, old(mask[..]), strict, deltas)
      decreases Count(mask[..])
    {
      ghost var before := mask[..];
      var p := SelectProblematic(s, deltas, mask[..]);
      mask[p] := false;
      assert mask[..] == ClearProblematic(s, deltas, before);
    }
  }

  // ---------------------------------------------------------------------
  // monotonize_times

  /** The padding: float32 epsilon when strict, 1e-3 otherwise. */
  function PadEps(strict: bool): (eps: real)
    ensures eps > 0.0
  {
    if strict then Float32Eps else 0.001
  }

  /** np.r_[np.min(xs) - eps, xs, np.max(xs) + eps]. */
  function Padded(xs: seq<real>, eps: real): (r: seq<real>)
    requires |xs| > 0
    ensures |r| == |xs| + 2
    ensures r[1..|r| - 1] == xs
  {
    [Min(xs) - eps] + xs + [Max(xs) + eps]
  }

  lemma {:induction false} PaddedIncreasing(xs: seq<real>, eps: real)
    requires |xs| > 0 && eps > 0.0 && StrictlyIncreasing(xs)
    ensures StrictlyIncreasing(Padded(xs, eps))
  {
    var r := Padded(xs, eps);
    forall i, j | 0 <= i < j < |r| ensures r[i] < r[j] {
      if 0 < i && j < |r| - 1 {
        assert r[i] == r[1..|r| - 1][i - 1] && r[j] == r[1..|r| - 1][j - 1];
      }
    }
  }

  function AllSet(n: nat): (mask: seq<bool>)
    ensures |mask| == n && forall i :: 0 <= i < n ==> mask[i]
  {
    seq(n, _ => true)
  }

  /** The mask of the padded arrays once _monotonize_times is done with it. */
  function MonotonicMask(s: seq<real>, deltas: seq<real>, strict: bool): (m: seq<bool>)
    requires |s| > 0 && |deltas| == |s| && StrictlyIncreasing(deltas)
    ensures |m| == |s| + 2
  {
    var eps := PadEps(strict);
    PaddedIncreasing(deltas, eps);
    var ps, pd := Padded(s, eps), Padded(deltas, eps);
    MonotonizeMask(ps, AllSet(|ps|), strict, pd)
  }

  /** The mask monotonize_times ends with: the monotonized mask with both padding points cleared. */
  function FinalMask(s: seq<real>, deltas: seq<real>, strict: bool): (m: seq<bool>)
    requires |s| > 0 && |deltas| == |s| && StrictlyIncreasing(deltas)
    ensures |m| == |s| + 2
  {
    var m := MonotonicMask(s, deltas, strict);
    m[0 := false][|m| - 1 := false]
  }

  /**
   * The monotonized mask of the padded arrays keeps both padding points
   * and at least one point between them.
   */
  lemma {:induction false} MonotonicMaskFacts(s: seq<real>, deltas: seq<real>, strict: bool)
    requires |s| > 0 && |deltas| == |s| && StrictlyIncreasing(deltas)
    ensures var m := MonotonicMask(s, deltas, strict);
      && m[0] && m[|m| - 1] && Count(m) >= 3
  {
    var eps := PadEps(strict);
    PaddedIncreasing(deltas, eps);
    var ps, pd := Padded(s, eps), Padded(deltas, eps);
    var m := MonotonicMask(s, deltas, strict);
    FullMaskFacts(ps, pd, strict);
    assert m == MonotonizeMask(ps, AllSet(|ps|), strict, pd);
    assert |m| - 1 == |ps| - 1;
  }

  /** Monotonizing the all-set mask keeps its two end bits and at least three bits. */
  lemma {:induction false} FullMaskFacts(ps: seq<real>, pd: seq<real>, strict: bool)
    requires |ps| >= 3 && |pd| == |ps| && StrictlyIncreasing(pd)
    ensures var m := MonotonizeMask(ps, AllSet(|ps|), strict, pd);
      && m[0] && m[|ps| - 1] && Count(m) >= 3
  {
    var full := AllSet(|ps|);
    CountOfAllSet(|ps|);
    assert FirstSet(full, 0) && LastSet(full, |ps| - 1);
    MonotonizeMaskKeepsEnds(ps, full, strict, pd, 0);
    MonotonizeMaskKeepsEnds(ps, full, strict, pd, |ps| - 1);
    MonotonizeMaskKeepsThree(ps, full, strict, pd);
  }

  /**
   * monotonize_times(s, strict, deltas): the surviving points of `s` and
   * of `deltas`. np.min of an empty array raises, and a mask of the wrong
   * length cannot index the other array.
   */
  function Monotonized(s: seq<real>, deltas: seq<real>, strict: bool): (r: Result<(seq<real>, seq<real>)>)
    requires StrictlyIncreasing(deltas)
    ensures r.Ok? <==> |s| > 0 && |deltas| == |s|
    ensures |s| == 0 || |deltas| == 0 ==> r == Err(EmptyInput)
    ensures r.Ok? ==> 1 <= |r.value.0| == |r.value.1| <= |s|
  {
    if |s| == 0 || |deltas| == 0 then Err(EmptyInput)
    else if |deltas| != |s| then Err(ShapeMismatch)
    else
      var eps := PadEps(strict);
      var m := FinalMask(s, deltas, strict);
      MonotonizedSize(s, deltas, strict);
      Ok((Select(Padded(s, eps), m), Select(Padded(deltas, eps), m)))
  }

  /**
   * monotonize_times(s, strict) with its default deltas=None: the padded
   * deltas stay None, and the first use of them raises a TypeError. With
   * two or more input points that is _is_monotonic's deltas[mask]; with one
   * it is the final _deltas[mask].
   */
  function MonotonizedWithoutDeltas(s: seq<real>, strict: bool): (r: Result<(seq<real>, seq<real>)>)
    ensures |s| == 0 ==> r == Err(EmptyInput)
    ensures |s| > 0 ==> r == Err(TypeMismatch)
  {
    if |s| == 0 then Err(EmptyInput) else Err(TypeMismatch)
  }

  /** 0, 1, ..., n-1: the unit spacing that _select_problematic assumes when deltas is None. */
  function UnitDeltas(n: nat): (d: seq<real>)
    ensures |d| == n && StrictlyIncreasing(d)
    ensures forall k :: 0 <= k < n ==> d[k] == k as real
  {
    seq(n, k requires 0 <= k < n => k as real)
  }

  /** monotonize_times without deltas, as intended: the points are taken one time unit apart. */
  function MonotonizedUnitDeltas(s: seq<real>, strict: bool): (r: Result<(seq<real>, seq<real>)>)
    ensures r.Ok? <==> |s| > 0
    ensures |s| == 0 ==> r == Err(EmptyInput)
    ensures r.Ok? ==> 1 <= |r.value.0| == |r.value.1| <= |s|
  {
    Monotonized(s, UnitDeltas(|s|), strict)
  }

  /** Without deltas, the intended strict monotonization yields strictly rising times. */
  lemma {:induction false} MonotonizedUnitDeltasIncreasing(s: seq<real>)
    requires |s| > 0
    ensures var out := MonotonizedUnitDeltas(s, true).value;
      StrictlyIncreasing(out.0) && StrictlyIncreasing(out.1)
  {
    MonotonizedIncreasing(s, UnitDeltas(|s|));
  }

  /** A three-point input: the program raises, the intended version succeeds. */
  lemma {:induction false} NoDeltasRejected()
    ensures MonotonizedWithoutDeltas([1.0, 0.0, 2.0], true) == Err(TypeMismatch)
    ensures MonotonizedUnitDeltas([1.0, 0.0, 2.0], true).Ok?
  {
  }

  /**
   * The imperative monotonize_times: allocate an all-set mask over the
   * padded arrays, monotonize it in place, clear both padding points and
   * read off the surviving points.
   */
  method MonotonizeTimes(s: seq<real>, deltas: seq<real>, strict: bool) returns (r: Result<(seq<real>, seq<real>)>)
    requires StrictlyIncreasing(deltas)
    ensures r == Monotonized(s, deltas, strict)
  {
    if |s| == 0 || |deltas| == 0 {
      return Err(EmptyInput);
    }
    if |deltas| != |s| {
      return Err(ShapeMismatch);
    }
    var eps := PadEps(strict);
    var ps := Padded(s, eps);
    var pd := Padded(deltas, eps);
    PaddedIncreasing(deltas, eps);
    var mask := new bool[|ps|](_ => true);
    assert mask[..] == AllSet(|ps|);
    MonotonizeMaskInPlace(ps, mask, strict, pd);
    mask[0] := false;
    mask[mask.Length - 1] := false;
    r := Ok((Select(ps, mask[..]), Select(pd, mask[..])));
  }

  // ---------------------------------------------------------------------
  // Properties of the monotonized output

  lemma {:induction false} CountOfAllSet(n: nat)
    ensures Count(AllSet(n)) == n
  {
    if n > 0 {
      assert AllSet(n)[..n - 1] == AllSet(n - 1);
      CountOfAllSet(n - 1);
    }
  }

  lemma {:induction false} MaskedEnds(mask: seq<bool>)
    requires |mask| >= 2 && mask[0] && mask[|mask| - 1]
    ensures Count(mask) >= 2
    ensures MaskedIndices(mask)[0] == 0
    ensures MaskedIndices(mask)[Count(mask) - 1] == |mask| - 1
  {
    var n := |mask|;
    MaskedIndicesFirst(mask[..n - 1]);
    assert MaskedIndices(mask) == MaskedIndices(mask[..n - 1]) + [n - 1];
  }

  /** A set first bit is the first masked index. */
  lemma {:induction false} MaskedIndicesFirst(mask: seq<bool>)
    requires |mask| > 0 && mask[0]
    ensures |MaskedIndices(mask)| > 0 && MaskedIndices(mask)[0] == 0
  {
    var n := |mask|;
    if n > 1 {
      MaskedIndicesFirst(mask[..n - 1]);
    }
  }

  /** Clearing the first set bit drops the first masked index. */
  lemma {:induction false} ClearFirst(mask: seq<bool>)
    requires |mask| > 0 && mask[0]
    ensures |MaskedIndices(mask)| > 0 && MaskedIndices(mask[0 := false]) == MaskedIndices(mask)[1..]
  {
    MaskedIndicesFirst(mask);
    var n := |mask|;
    if n > 1 {
      var cleared := mask[0 := false];
      assert cleared[..n - 1] == mask[..n - 1][0 := false];
      ClearFirst(mask[..n - 1]);
      assert |MaskedIndices(mask[..n - 1])| > 0 by {
        MaskedIndicesFirst(mask[..n - 1]);
      }
    }
  }

  /** Clearing the last bit, when set, drops the last masked index. */
  lemma {:induction false} ClearLast(mask: seq<bool>)
    requires |mask| > 0 && mask[|mask| - 1]
    ensures MaskedIndices(mask[|mask| - 1 := false]) == MaskedIndices(mask)[..Count(mask) - 1]
  {
    var n := |mask|;
    assert mask[n - 1 := false][..n - 1] == mask[..n - 1];
  }

  /** Clearing both end bits keeps the interior masked indices. */
  lemma {:induction false} ClearBothEnds(mask: seq<bool>)
    requires |mask| >= 2 && mask[0] && mask[|mask| - 1]
    ensures Count(mask) >= 2
    ensures MaskedIndices(mask[0 := false][|mask| - 1 := false]) == MaskedIndices(mask)[1..Count(mask) - 1]
  {
    var n, c := |mask|, Count(mask);
    var idx := MaskedIndices(mask);
    MaskedEnds(mask);
    var m1 := mask[0 := false];
    ClearFirst(mask);
    CountClear(mask, 0);
    assert m1[n - 1];
    ClearLast(m1);
    assert MaskedIndices(m1) == idx[1..];
    assert idx[1..][..c - 2] == idx[1..c - 1];
  }

  lemma {:induction false} MonotonizedSize(s: seq<real>, deltas: seq<real>, strict: bool)
    requires |s| > 0 && |deltas| == |s| && StrictlyIncreasing(deltas)
    ensures 1 <= Count(FinalMask(s, deltas, strict)) <= |s|
  {
    var m := MonotonicMask(s, deltas, strict);
    MonotonicMaskFacts(s, deltas, strict);
    CountClear(m, 0);
    CountClear(m[0 := false], |m| - 1);
  }

  /** With both end bits clear, every masked index is an interior position. */
  lemma {:induction false} InteriorIndices(m: seq<bool>, n: nat)
    requires |m| == n + 2 && !m[0] && !m[n + 1]
    ensures forall k :: 0 <= k < |MaskedIndices(m)| ==> 1 <= MaskedIndices(m)[k] <= n
  {
    var idx := MaskedIndices(m);
    forall k | 0 <= k < |idx| ensures 1 <= idx[k] <= n {
      assert m[idx[k]];
    }
  }

  /** The final mask has both padding bits clear. */
  lemma {:induction false} FinalMaskClearsEnds(s: seq<real>, deltas: seq<real>, strict: bool)
    requires |s| > 0 && |deltas| == |s| && StrictlyIncreasing(deltas)
    ensures var m := FinalMask(s, deltas, strict); !m[0] && !m[|s| + 1]
  {
    var mm := MonotonicMask(s, deltas, strict);
    assert FinalMask(s, deltas, strict) == mm[0 := false][|s| + 1 := false];
  }

  /** The positions of `s` that survive monotonize_times, in ascending order. */
  function KeptIndices(s: seq<real>, deltas: seq<real>, strict: bool): (kept: seq<nat>)
    requires |s| > 0 && |deltas| == |s| && StrictlyIncreasing(deltas)
    ensures |kept| == Count(FinalMask(s, deltas, strict))
    ensures forall k :: 0 <= k < |kept| ==> kept[k] < |s|
    ensures forall a, b :: 0 <= a < b < |kept| ==> kept[a] < kept[b]
  {
    FinalMaskClearsEnds(s, deltas, strict);
    Unpadded(FinalMask(s, deltas, strict), |s|)
  }

  /**
   * The masked positions of a padded mask whose padding bits are clear,
   * as positions of the unpadded sequence.
   */
  function Unpadded(m: seq<bool>, n: nat): (kept: seq<nat>)
    requires |m| == n + 2 && !m[0] && !m[n + 1]
    ensures |kept| == Count(m)
    ensures forall k :: 0 <= k < |kept| ==> kept[k] < n && kept[k] + 1 == MaskedIndices(m)[k]
    ensures forall a, b :: 0 <= a < b < |kept| ==> kept[a] < kept[b]
  {
    var idx := MaskedIndices(m);
    InteriorIndices(m, n);
    seq(|idx|, k requires 0 <= k < |idx| => idx[k] - 1)
  }

  /**
   * The two outputs of monotonize_times are the same order-preserving
   * selection from `s` and from `deltas`.
   */
  lemma {:induction false} MonotonizedIsSubsequence(s: seq<real>, deltas: seq<real>, strict: bool)
    requires |s| > 0 && |deltas| == |s| && StrictlyIncreasing(deltas)
    ensures var out := Monotonized(s, deltas, strict).value;
      var kept := KeptIndices(s, deltas, strict);
      && |kept| == |out.0| == |out.1|
      && (forall k :: 0 <= k < |kept| ==> out.0[k] == s[kept[k]] && out.1[k] == deltas[kept[k]])
  {
    var eps := PadEps(strict);
    var m := FinalMask(s, deltas, strict);
    var idx := MaskedIndices(m);
    var kept := KeptIndices(s, deltas, strict);
    var ps, pd := Padded(s, eps), Padded(deltas, eps);
    var out := Monotonized(s, deltas, strict).value;
    assert out == (Gather(ps, idx), Gather(pd, idx));
    forall k | 0 <= k < |kept| ensures out.0[k] == s[kept[k]] && out.1[k] == deltas[kept[k]] {
      var i := kept[k];
      assert idx[k] == i + 1;
      assert ps[i + 1] == s[i] by { PaddedAt(s, eps, i); }
      assert pd[i + 1] == deltas[i] by { PaddedAt(deltas, eps, i); }
    }
  }

  lemma {:induction false} PaddedAt(xs: seq<real>, eps: real, k: nat)
    requires k < |xs|
    ensures Padded(xs, eps)[k + 1] == xs[k]
  {
    var r := Padded(xs, eps);
    assert r[k + 1] == r[1..|r| - 1][k];
  }

  /**
   * In strict mode both outputs strictly increase: the performed onsets
   * the tempo estimate divides by keep rising with the score onsets.
   */
  lemma {:induction false} MonotonizedIncreasing(s: seq<real>, deltas: seq<real>)
    requires |s| > 0 && |deltas| == |s| && StrictlyIncreasing(deltas)
    ensures var out := Monotonized(s, deltas, true).value;
      StrictlyIncreasing(out.0) && StrictlyIncreasing(out.1)
  {
    var eps := PadEps(true);
    PaddedIncreasing(deltas, eps);
    var ps, pd := Padded(s, eps), Padded(deltas, eps);
    MonotonizedOutput(s, deltas, true);
    InteriorRises(ps, pd, MonotonicMask(s, deltas, true));
  }

  /** Between the two kept end points, a strictly monotonic mask selects rising points. */
  lemma {:induction false} InteriorRises(ps: seq<real>, pd: seq<real>, m: seq<bool>)
    requires |ps| == |m| && |pd| == |m| && StrictlyIncreasing(pd)
    requires IsMonotonic(ps, m, true, pd) && Count(m) >= 3
    ensures var idx := MaskedIndices(m);
      && StrictlyIncreasing(Gather(ps, idx[1..|idx| - 1]))
      && StrictlyIncreasing(Gather(pd, idx[1..|idx| - 1]))
  {
    var idx := MaskedIndices(m);
    var inner := idx[1..|idx| - 1];
    GatherIncreasing(pd, inner);
    if Count(m) >= 4 {
      MonotonicSelectionRises(ps, pd, m);
      GatherSlice(ps, idx, 1, |idx| - 1);
      SliceIncreasing(Select(ps, m), 1, |idx| - 1);
    }
  }

  /** monotonize_times returns the interior points of the monotonized mask. */
  lemma {:induction false} MonotonizedOutput(s: seq<real>, deltas: seq<real>, strict: bool)
    requires |s| > 0 && |deltas| == |s| && StrictlyIncreasing(deltas)
    ensures var m := MonotonicMask(s, deltas, strict);
      m[0] && m[|s| + 1] && |MaskedIndices(m)| >= 3
    ensures var m := MonotonicMask(s, deltas, strict);
      var idx := MaskedIndices(m);
      var eps := PadEps(strict);
      Monotonized(s, deltas, strict)
         == Ok((Gather(Padded(s, eps), idx[1..|idx| - 1]), Gather(Padded(deltas, eps), idx[1..|idx| - 1])))
  {
    var m := MonotonicMask(s, deltas, strict);
    MonotonicMaskFacts(s, deltas, strict);
    ClearBothEnds(m);
  }

  lemma {:induction false} GatherSlice(xs: seq<real>, idx: seq<nat>, lo: nat, hi: nat)
    requires InRange(idx, |xs|) && lo <= hi <= |idx|
    ensures Gather(xs, idx[lo..hi]) == Gather(xs, idx)[lo..hi]
  {
  }

  lemma {:induction false} SliceIncreasing(xs: seq<real>, lo: nat, hi: nat)
    requires StrictlyIncreasing(xs) && lo <= hi <= |xs|
    ensures StrictlyIncreasing(xs[lo..hi])
  {
    var t := xs[lo..hi];
    forall a, b | 0 <= a < b < |t| ensures t[a] < t[b] {
      assert t[a] == xs[lo + a] && t[b] == xs[lo + b];
    }
  }

  /** An increasing selection from an increasing sequence is increasing. */
  lemma {:induction false} GatherIncreasing(xs: seq<real>, idx: seq<nat>)
    requires StrictlyIncreasing(xs) && InRange(idx, |xs|)
    requires forall a, b :: 0 <= a < b < |idx| ==> idx[a] < idx[b]
    ensures StrictlyIncreasing(Gather(xs, idx))
  {
    var g := Gather(xs, idx);
    forall a, b | 0 <= a < b < |g| ensures g[a] < g[b] {
      assert idx[a] < idx[b];
    }
  }

  /** A positive slope over increasing deltas is a rise. */
  lemma {:induction false} PositiveSlopeRises(s: seq<real>, deltas: seq<real>, mask: seq<bool>, k: nat)
    requires |s| == |mask| && |deltas| == |mask| && StrictlyIncreasing(deltas)
    requires k + 1 < Count(mask)
    requires Slopes(s, deltas, mask)[k] > 0.0
    ensures var idx := MaskedIndices(mask); s[idx[k]] < s[idx[k + 1]]
  {
    var idx := MaskedIndices(mask);
    var i, j := idx[k], idx[k + 1];
    assert i < j;
    assert deltas[i] < deltas[j];
    assert Slopes(s, deltas, mask)[k] == Slope(s, deltas, i, j);
    SlopeSign(s, deltas, i, j);
  }

  /** Positive slopes over increasing deltas make the masked points rise. */
  lemma {:induction false} MonotonicSelectionRises(s: seq<real>, deltas: seq<real>, mask: seq<bool>)
    requires |s| == |mask| && |deltas| == |mask| && StrictlyIncreasing(deltas)
    requires IsMonotonic(s, mask, true, deltas) && Count(mask) >= 4
    ensures StrictlyIncreasing(Select(s, mask))
  {
    var sel := Select(s, mask);
    var idx := MaskedIndices(mask);
    var d := Slopes(s, deltas, mask);
    forall k | 0 <= k < |sel| - 1 ensures sel[k] < sel[k + 1] {
      assert d[k] > 0.0;
      PositiveSlopeRises(s, deltas, mask, k);
    }
    StepsUpIncreasing(sel);
  }

  lemma {:induction false} MaskedIndicesAllSet(n: nat)
    ensures forall k :: 0 <= k < n ==> k < |MaskedIndices(AllSet(n))| && MaskedIndices(AllSet(n))[k] == k
  {
    CountOfAllSet(n);
    if n > 0 {
      assert AllSet(n)[..n - 1] == AllSet(n - 1);
      assert MaskedIndices(AllSet(n)) == MaskedIndices(AllSet(n - 1)) + [n - 1];
      MaskedIndicesAllSet(n - 1);
    }
  }

  /**
   * When `s` already rises strictly with `deltas`, monotonize_times clears
   * nothing but the padding and hands both arrays back unchanged.
   */
  lemma {:induction false} MonotonizedKeepsRisingInput(s: seq<real>, deltas: seq<real>)
    requires |s| > 0 && |deltas| == |s|
    requires StrictlyIncreasing(s) && StrictlyIncreasing(deltas)
    ensures Monotonized(s, deltas, true) == Ok((s, deltas))
  {
    var eps := PadEps(true);
    PaddedIncreasing(deltas, eps);
    PaddedIncreasing(s, eps);
    var ps, pd := Padded(s, eps), Padded(deltas, eps);
    var full := AllSet(|ps|);
    RisingIsMonotonic(ps, pd);
    assert MonotonicMask(s, deltas, true) == full;
    MonotonizedOutput(s, deltas, true);
    InteriorOfAllSet(ps);
    InteriorOfAllSet(pd);
    assert ps[1..|ps| - 1] == s;
    assert pd[1..|pd| - 1] == deltas;
  }

  /** With nothing masked out, rising points are monotonic. */
  lemma {:induction false} RisingIsMonotonic(ps: seq<real>, pd: seq<real>)
    requires |ps| == |pd| && StrictlyIncreasing(ps) && StrictlyIncreasing(pd)
    ensures IsMonotonic(ps, AllSet(|ps|), true, pd)
  {
    var n := |ps|;
    var full := AllSet(n);
    CountOfAllSet(n);
    MaskedIndicesAllSet(n);
    var idx := MaskedIndices(full);
    var d := Slopes(ps, pd, full);
    forall k | 0 <= k < |d| ensures d[k] > 0.0 {
      assert idx[k] == k && idx[k + 1] == k + 1;
      assert d[k] == Slope(ps, pd, k, k + 1);
      SlopeSign(ps, pd, k, k + 1);
    }
  }

  /** The interior points selected by the all-set mask are the interior of the sequence. */
  lemma {:induction false} InteriorOfAllSet(xs: seq<real>)
    requires |xs| >= 2
    ensures var idx := MaskedIndices(AllSet(|xs|));
      |idx| == |xs| && Gather(xs, idx[1..|idx| - 1]) == xs[1..|xs| - 1]
  {
    CountOfAllSet(|xs|);
    MaskedIndicesAllSet(|xs|);
  }
}

=== FILE: numerics.dfy ===
/**
 * The numeric vocabulary of the codec: sums, means, minima and maxima over
 * sequences of reals, cumulative sums, numpy's rounding, and the
 * transcendental functions (log2, 2**x, sqrt) that Dafny cannot define.
 */
module Numerics {

  /** numpy's float32 machine epsilon, 2^-23, used by the codec as a small positive offset. */
  const Float32Eps: real := 0.00000011920928955078125

  /**
   * log2, 2**x and sqrt as supplied by the platform. They are parameters of
   * the model; `Lawful` states the laws the proofs rely on.
   */
  datatype Transcendentals = Transcendentals(log2: real -> real, pow2: real -> real, sqrt: real -> real)

  /**
   * 2**x and log2 are mutually inverse on the positive reals, and 2**0 == 1;
   * the square root of 0 is 0 and that of a positive number is positive.
   */
  ghost predicate Lawful(tx: Transcendentals) {
    && (forall x :: x > 0.0 ==> tx.pow2(tx.log2(x)) == x)
    && (forall y :: tx.pow2(y) > 0.0)
    && (forall y :: tx.log2(tx.pow2(y)) == y)
    && tx.pow2(0.0) == 1.0
    && tx.sqrt(0.0) == 0.0
    && (forall x :: x > 0.0 ==> tx.sqrt(x) > 0.0)
  }

  lemma {:induction false} Log2OfOne(tx: Transcendentals)
    requires Lawful(tx)
    ensures tx.log2(1.0) == 0.0
  {
    assert tx.log2(tx.pow2(0.0)) == 0.0;
  }

  function Sum(xs: seq<real>): real {
    if |xs| == 0 then 0.0 else xs[0] + Sum(xs[1..])
  }

  /** np.mean of a non-empty array. */
  function Mean(xs: seq<real>): (m: real)
    requires |xs| > 0
  {
    Sum(xs) / (|xs| as real)
  }

  /** np.min of a non-empty array. */
  function Min(xs: seq<real>): (r: real)
    requires |xs| > 0
    ensures r in xs
    ensures forall k :: 0 <= k < |xs| ==> r <= xs[k]
  {
    if |xs| == 1 then xs[0]
    else
      var m := Min(xs[1..]);
      assert forall k :: 1 <= k < |xs| ==> xs[1..][k - 1] == xs[k];
      if xs[0] <= m then xs[0] else m
  }

  /** np.max of a non-empty array. */
  function Max(xs: seq<real>): (r: real)
    requires |xs| > 0
    ensures r in xs
    ensures forall k :: 0 <= k < |xs| ==> xs[k] <= r
  {
    if |xs| == 1 then xs[0]
    else
      var m := Max(xs[1..]);
      assert forall k :: 1 <= k < |xs| ==> xs[1..][k - 1] == xs[k];
      if xs[0] >= m then xs[0] else m
  }

  /** np.diff: the differences of neighbouring entries. */
  function Diff(xs: seq<real>): (r: seq<real>)
    ensures |r| == if |xs| == 0 then 0 else |xs| - 1
    ensures forall k :: 0 <= k < |r| ==> r[k] == xs[k + 1] - xs[k]
  {
    if |xs| == 0 then [] else seq(|xs| - 1, k requires 0 <= k < |xs| - 1 => xs[k + 1] - xs[k])
  }

  predicate StrictlyIncreasing(xs: seq<real>) {
    forall i, j :: 0 <= i < j < |xs| ==> xs[i] < xs[j]
  }

  /** Each entry is larger than the one before it. */
  predicate StepsUp(xs: seq<real>) {
    forall k :: 0 <= k < |xs| - 1 ==> xs[k] < xs[k + 1]
  }

  lemma {:induction false} StepsUpIncreasing(xs: seq<real>)
    requires StepsUp(xs)
    ensures StrictlyIncreasing(xs)
  {
    if |xs| > 1 {
      var t := xs[..|xs| - 1];
      assert StepsUp(t);
      StepsUpIncreasing(t);
      forall i | 0 <= i < |xs| - 1 ensures xs[i] < xs[|xs| - 1] {
        if i < |xs| - 2 {
          assert t[i] < t[|xs| - 2];
        }
      }
    }
  }

  /**
   * np.argmin: the position of the smallest entry, the first one when
   * several entries are smallest.
   */
  function ArgMin(xs: seq<real>): (r: nat)
    requires |xs| > 0
    ensures r < |xs|
    ensures forall k :: 0 <= k < |xs| ==> xs[r] <= xs[k]
    ensures forall k :: 0 <= k < r ==> xs[r] < xs[k]
  {
    if |xs| == 1 then 0
    else
      var t := xs[..|xs| - 1];
      var m := ArgMin(t);
      assert forall k :: 0 <= k < |xs| - 1 ==> t[k] == xs[k];
      if xs[|xs| - 1] < xs[m] then |xs| - 1 else m
  }

  function Abs(a: real): (r: real)
    ensures r >= 0.0 && (r == a || r == -a)
  {
    if a < 0.0 then -a else a
  }

  /**
   * The squared deviations from the mean, numpy's abs(x - x.mean())**2,
   * each written as |x - mean| * |mean - x|: the same number as
   * (x - mean) * (x - mean), but with two distinct factors, whose product
   * the solver can show positive where it cannot for a literal square.
   */
  function SquaredDeviations(xs: seq<real>): (r: seq<real>)
    requires |xs| > 0
    ensures |r| == |xs|
    ensures forall k :: 0 <= k < |xs| ==> r[k] == Abs(xs[k] - Mean(xs)) * Abs(Mean(xs) - xs[k])
  {
    var mu := Mean(xs);
    seq(|xs|, k requires 0 <= k < |xs| => Abs(xs[k] - mu) * Abs(mu - xs[k]))
  }

  /** The population variance np.var: the mean of the squared deviations. */
  function Variance(xs: seq<real>): real
    requires |xs| > 0
  {
    Mean(SquaredDeviations(xs))
  }

  /** The population standard deviation np.std, through the supplied square root. */
  function Std(tx: Transcendentals, xs: seq<real>): (sd: real)
    requires |xs| > 0
    ensures (forall k :: 0 <= k < |xs| ==> xs[k] == xs[0]) ==> sd == tx.sqrt(0.0)
  {
    VarianceZeroIffConstant(xs); tx.sqrt(Variance(xs))
  }

  /** Elementwise sum of two arrays of the same length. */
  function Add(xs: seq<real>, ys: seq<real>): (r: seq<real>)
    requires |xs| == |ys|
    ensures |r| == |xs|
    ensures forall k :: 0 <= k < |xs| ==> r[k] == xs[k] + ys[k]
  {
    seq(|xs|, k requires 0 <= k < |xs| => xs[k] + ys[k])
  }

  /** `xs` with `c` subtracted from every element. */
  function Shift(xs: seq<real>, c: real): (r: seq<real>)
    ensures |r| == |xs|
    ensures forall k :: 0 <= k < |xs| ==> r[k] == xs[k] - c
  {
    seq(|xs|, k requires 0 <= k < |xs| => xs[k] - c)
  }

  /**
   * np.cumsum(np.r_[0, xs]): the running totals of `xs`, starting from 0.
   */
  function PrefixSums(xs: seq<real>): (r: seq<real>)
    ensures |r| == |xs| + 1
    ensures r[0] == 0.0
    ensures forall k :: 0 <= k < |xs| ==> r[k + 1] == r[k] + xs[k]
  {
    if |xs| == 0 then [0.0]
    else
      var p := PrefixSums(xs[..|xs| - 1]);
      p + [p[|xs| - 1] + xs[|xs| - 1]]
  }

  /**
   * np.round: to the nearest integer, halves to the even neighbour.
   */
  function RoundHalfEven(x: real): (r: int)
    ensures -0.5 <= x - r as real <= 0.5
    ensures x - r as real == 0.5 || x - r as real == -0.5 ==> r % 2 == 0
  {
    var f := x.Floor;
    var frac := x - f as real;
    if frac < 0.5 then f
    else if frac > 0.5 then f + 1
    else if f % 2 == 0 then f
    else f + 1
  }

  lemma {:induction false} RoundOfInteger(k: int)
    ensures RoundHalfEven(k as real) == k
  {
  }

  lemma {:induction false} SumOfConstant(xs: seq<real>, c: real)
    requires forall k :: 0 <= k < |xs| ==> xs[k] == c
    ensures Sum(xs) == (|xs| as real) * c
  {
    if |xs| > 0 {
      SumOfConstant(xs[1..], c);
    }
  }

  /** The mean of a non-empty array whose entries all equal `c` is `c`. */
  lemma {:induction false} MeanOfConstant(xs: seq<real>, c: real)
    requires |xs| > 0
    requires forall k :: 0 <= k < |xs| ==> xs[k] == c
    ensures Mean(xs) == c
  {
    SumOfConstant(xs, c);
  }

  /** A sum of non-negative values is non-negative and at least each of them. */
  lemma {:induction false} SumOfNonnegative(xs: seq<real>)
    requires forall k :: 0 <= k < |xs| ==> xs[k] >= 0.0
    ensures Sum(xs) >= 0.0
    ensures forall k :: 0 <= k < |xs| ==> xs[k] <= Sum(xs)
  {
    if |xs| > 0 {
      assert forall k :: 1 <= k < |xs| ==> xs[1..][k - 1] == xs[k];
      SumOfNonnegative(xs[1..]);
    }
  }

  lemma {:induction false} ProductNonnegative(a: real, b: real)
    requires a >= 0.0 && b >= 0.0
    ensures a * b >= 0.0
  {
  }

  lemma {:induction false} ProductPositive(a: real, b: real)
    requires a > 0.0 && b > 0.0
    ensures a * b > 0.0
  {
  }

  /** A squared deviation is never negative, and it is zero only at the mean. */
  lemma {:induction false} DeviationsNonnegative(xs: seq<real>)
    requires |xs| > 0
    ensures forall k :: 0 <= k < |xs| ==> SquaredDeviations(xs)[k] >= 0.0
    ensures forall k :: 0 <= k < |xs| && SquaredDeviations(xs)[k] == 0.0 ==> xs[k] == Mean(xs)
  {
    var mu := Mean(xs);
    var d := SquaredDeviations(xs);
    forall k | 0 <= k < |xs|
      ensures d[k] >= 0.0
      ensures d[k] == 0.0 ==> xs[k] == mu
    {
      ProductNonnegative(Abs(xs[k] - mu), Abs(mu - xs[k]));
      if xs[k] != mu {
        ProductPositive(Abs(xs[k] - mu), Abs(mu - xs[k]));
      }
    }
  }

  lemma {:induction false} QuotientSign(s: real, n: real)
    requires n > 0.0
    ensures s >= 0.0 ==> s / n >= 0.0
    ensures s > 0.0 ==> s / n > 0.0
  {
    assert (s / n) * n == s;
  }

  /**
   * The variance is never negative, and it is zero exactly when every entry
   * equals the first.
   */
  lemma {:induction false} VarianceZeroIffConstant(xs: seq<real>)
    requires |xs| > 0
    ensures Variance(xs) >= 0.0
    ensures Variance(xs) == 0.0 <==> forall k :: 0 <= k < |xs| ==> xs[k] == xs[0]
  {
    var d := SquaredDeviations(xs);
    DeviationsNonnegative(xs);
    SumOfNonnegative(d);
    QuotientSign(Sum(d), |d| as real);
    if forall k :: 0 <= k < |xs| ==> xs[k] == xs[0] {
      MeanOfConstant(xs, xs[0]);
      MeanOfConstant(d, 0.0);
    } else {
      var k :| 0 <= k < |xs| && xs[k] != xs[0];
      if d[k] > 0.0 {
        assert Sum(d) > 0.0;
      } else {
        assert d[0] > 0.0;
      }
    }
  }

  /**
   * With a lawful square root, np.std is zero exactly on a constant array:
   * the one case the standardized normalization cannot divide by.
   */
  lemma {:induction false} StdZeroIffConstant(tx: Transcendentals, xs: seq<real>)
    requires Lawful(tx) && |xs| > 0
    ensures Std(tx, xs) == 0.0 <==> forall k :: 0 <= k < |xs| ==> xs[k] == xs[0]
  {
    VarianceZeroIffConstant(xs);
  }

  lemma {:induction false} SumBounds(xs: seq<real>, lo: real, hi: real)
    requires forall k :: 0 <= k < |xs| ==> lo <= xs[k] <= hi
    ensures (|xs| as real) * lo <= Sum(xs) <= (|xs| as real) * hi
  {
    if |xs| > 0 {
      SumBounds(xs[1..], lo, hi);
    }
  }

  /** A mean lies between the minimum and the maximum. */
  lemma {:induction false} MeanBounds(xs: seq<real>)
    requires |xs| > 0
    ensures Min(xs) <= Mean(xs) <= Max(xs)
  {
    MeanWithin(xs, Min(xs), Max(xs));
  }

  /** A mean of values within [lo, hi] is within [lo, hi]. */
  lemma {:induction false} MeanWithin(xs: seq<real>, lo: real, hi: real)
    requires |xs| > 0
    requires forall k :: 0 <= k < |xs| ==> lo <= xs[k] <= hi
    ensures lo <= Mean(xs) <= hi
  {
    SumBounds(xs, lo, hi);
    QuotientBounds(Sum(xs), |xs| as real, lo, hi);
  }

  lemma {:induction false} QuotientBounds(s: real, n: real, lo: real, hi: real)
    requires n > 0.0
    requires n * lo <= s <= n * hi
    ensures lo <= s / n <= hi
  {
    assert (s / n) * n == s;
  }

  /** The minimum of a shifted array is the shifted minimum. */
  lemma {:induction false} MinOfShift(xs: seq<real>, c: real)
    requires |xs| > 0
    ensures Min(Shift(xs, c)) == Min(xs) - c
  {
    var ys := Shift(xs, c);
    var m := Min(xs);
    var k :| 0 <= k < |xs| && xs[k] == m;
    assert ys[k] == m - c;
    assert Min(ys) <= m - c;
    var j :| 0 <= j < |ys| && ys[j] == Min(ys);
    assert xs[j] >= m;
  }

  /** Running totals of two arrays agree as long as the arrays agree. */
  lemma {:induction false} PrefixSumsAgree(xs: seq<real>, ys: seq<real>, m: nat)
    requires m <= |xs| && m <= |ys|
    requires forall k :: 0 <= k < m ==> xs[k] == ys[k]
    ensures forall i :: 0 <= i <= m ==> PrefixSums(xs)[i] == PrefixSums(ys)[i]
  {
    if m > 0 {
      PrefixSumsAgree(xs, ys, m - 1);
      assert PrefixSums(xs)[m] == PrefixSums(xs)[m - 1] + xs[m - 1];
      assert PrefixSums(ys)[m] == PrefixSums(ys)[m - 1] + ys[m - 1];
    }
  }
}

=== FILE: onset_groups.dfy ===
/**
 * Onset grouping (get_unique_onset_idxs): a stable argsort of the score
 * onsets, split wherever two neighbouring sorted onsets are more than `eps`
 * apart. Each group holds the original note indices of one simultaneity.
 */
module OnsetGroups {

  /** The tolerance get_unique_onset_idxs uses when none is given. */
  const DefaultEps: real := 0.000001

  /** The indices 0, 1, ..., n - 1. */
  function Iota(n: nat): (r: seq<nat>)
    ensures |r| == n
    ensures forall i :: 0 <= i < n ==> r[i] == i
  {
    seq(n, i requires 0 <= i < n => i)
  }

  function Flatten(groups: seq<seq<nat>>): seq<nat> {
    if |groups| == 0 then [] else groups[0] + Flatten(groups[1..])
  }

  function Last(idx: seq<nat>): nat
    requires |idx| > 0
  {
    idx[|idx| - 1]
  }

  predicate InRange(idx: seq<nat>, n: nat) {
    forall k :: 0 <= k < |idx| ==> idx[k] < n
  }

  predicate Distinct(idx: seq<nat>) {
    forall a, b :: 0 <= a < b < |idx| ==> idx[a] != idx[b]
  }

  /** The order a stable sort puts notes in: by onset, ties by original index. */
  predicate Precedes(onsets: seq<real>, a: nat, b: nat)
    requires a < |onsets| && b < |onsets|
  {
    onsets[a] < onsets[b] || (onsets[a] == onsets[b] && a < b)
  }

  predicate SortedByOnset(onsets: seq<real>, idx: seq<nat>) {
    InRange(idx, |onsets|) &&
    forall a, b :: 0 <= a < b < |idx| ==> Precedes(onsets, idx[a], idx[b])
  }

  /** Every note index in the groups is below n. */
  predicate GroupsInRange(groups: seq<seq<nat>>, n: nat) {
    forall g, k :: 0 <= g < |groups| && 0 <= k < |groups[g]| ==> groups[g][k] < n
  }

  /** Every group is non-empty and holds valid note indices. */
  predicate ValidGroups(groups: seq<seq<nat>>, n: nat) {
    && (forall g :: 0 <= g < |groups| ==> |groups[g]| > 0)
    && GroupsInRange(groups, n)
  }

  /** The groups partition the note indices 0 .. n - 1. */
  predicate IsPartition(groups: seq<seq<nat>>, n: nat) {
    && ValidGroups(groups, n)
    && Distinct(Flatten(groups))
    && (forall x :: 0 <= x < n ==> x in Flatten(groups))
  }

  /** No note index occurs at two places of the groups. */
  predicate Disjoint(groups: seq<seq<nat>>) {
    forall g1, k1, g2, k2 ::
      (0 <= g1 < |groups| && 0 <= k1 < |groups[g1]| && 0 <= g2 < |groups| && 0 <= k2 < |groups[g2]| &&
       groups[g1][k1] == groups[g2][k2]) ==> g1 == g2 && k1 == k2
  }

  /** The position of the first group holding `x`, or |groups| if none does. */
  function GroupOf(groups: seq<seq<nat>>, x: nat): (g: nat)
    ensures g <= |groups|
  {
    if |groups| == 0 then 0
    else if x in groups[0] then 0
    else 1 + GroupOf(groups[1..], x)
  }

  /** xs[idx]: the entries of xs at the given positions. */
  function Gather(xs: seq<real>, idx: seq<nat>): (r: seq<real>)
    requires InRange(idx, |xs|)
    ensures |r| == |idx|
    ensures forall k :: 0 <= k < |idx| ==> r[k] == xs[idx[k]]
  {
    seq(|idx|, k requires 0 <= k < |idx| => xs[idx[k]])
  }

  /**
   * The last of the first m groups that holds note j, or -1 if none does:
   * the group whose value survives when a loop over the groups writes
   * each group's value to the positions of its notes.
   */
  function WriterOf(groups: seq<seq<nat>>, m: nat, j: nat): (g: int)
    requires m <= |groups|
    ensures -1 <= g < m
    ensures g >= 0 ==> j in groups[g]
    ensures forall h :: g < h < m ==> j !in groups[h]
  {
    if m == 0 then -1
    else if j in groups[m - 1] then m - 1
    else WriterOf(groups, m - 1, j)
  }

  /**
   * The writer of note j while group g is being written: group g once the
   * first k of its notes hold j, otherwise the earlier writer.
   */
  function WriterWithin(groups: seq<seq<nat>>, g: nat, k: nat, j: nat): (w: int)
    requires g < |groups| && k <= |groups[g]|
    ensures -1 <= w <= g
  {
    if j in groups[g][..k] then g else WriterOf(groups, g, j)
  }

  /** Writing the k-th note of group g changes the writer of that note only. */
  lemma {:induction false} WriterWithinStep(groups: seq<seq<nat>>, g: nat, k: nat, j: nat)
    requires g < |groups| && k < |groups[g]|
    ensures WriterWithin(groups, g, k + 1, j) == if j == groups[g][k] then g else WriterWithin(groups, g, k, j)
  {
    assert groups[g][..k + 1] == groups[g][..k] + [groups[g][k]];
  }

  /** Once all of group g is written, the writer is that of the first g + 1 groups. */
  lemma {:induction false} WriterWithinDone(groups: seq<seq<nat>>, g: nat, j: nat)
    requires g < |groups|
    ensures WriterWithin(groups, g, |groups[g]|, j) == WriterOf(groups, g + 1, j)
  {
    assert groups[g][..|groups[g]|] == groups[g];
  }

  // ---------------------------------------------------------------------
  // Stable argsort

  /** Inserts index j, larger than every index in xs, after all notes that do not start later. */
  function Insert(onsets: seq<real>, j: nat, xs: seq<nat>): (r: seq<nat>)
    requires j < |onsets|
    requires SortedByOnset(onsets, xs)
    requires forall k :: 0 <= k < |xs| ==> xs[k] < j
    ensures multiset(r) == multiset(xs) + multiset{j}
    ensures SortedByOnset(onsets, r)
    decreases |xs|
  {
    if |xs| == 0 then [j]
    else if onsets[j] < onsets[xs[0]] then [j] + xs
    else
      var t := Insert(onsets, j, xs[1..]);
      assert xs == [xs[0]] + xs[1..];
      InsertAfterHead(onsets, j, xs, t);
      [xs[0]] + t
  }

  /**
   * When index j does not start before the head of xs, the head stays in
   * front of the rest with j inserted.
   */
  lemma {:induction false} InsertAfterHead(onsets: seq<real>, j: nat, xs: seq<nat>, t: seq<nat>)
    requires j < |onsets| && |xs| > 0
    requires SortedByOnset(onsets, xs) && SortedByOnset(onsets, t)
    requires forall k :: 0 <= k < |xs| ==> xs[k] < j
    requires onsets[xs[0]] <= onsets[j]
    requires multiset(t) == multiset(xs[1..]) + multiset{j}
    ensures SortedByOnset(onsets, [xs[0]] + t)
  {
    forall b | 0 <= b < |t|
      ensures Precedes(onsets, xs[0], t[b])
    {
      assert t[b] in multiset(t);
      if t[b] != j {
        assert t[b] in xs[1..];
        var q :| 0 <= q < |xs[1..]| && xs[1..][q] == t[b];
        assert xs[q + 1] == t[b];
      }
    }
    var r := [xs[0]] + t;
    forall a, b | 0 <= a < b < |r| ensures Precedes(onsets, r[a], r[b]) {
      assert r[b] == t[b - 1];
      if a > 0 {
        assert r[a] == t[a - 1];
      }
    }
  }

  /** A stable argsort of onsets[0 .. n - 1]. */
  function SortPrefix(onsets: seq<real>, n: nat): (r: seq<nat>)
    requires n <= |onsets|
    ensures |r| == n
    ensures InRange(r, n)
    ensures forall x: nat :: x < n ==> x in r
    ensures SortedByOnset(onsets, r)
  {
    if n == 0 then []
    else
      var xs := SortPrefix(onsets, n - 1);
      var r := Insert(onsets, n - 1, xs);
      InsertKeepsIndices(xs, r, n - 1);
      r
  }

  lemma {:induction false} InsertKeepsIndices(xs: seq<nat>, r: seq<nat>, j: nat)
    requires |xs| == j && InRange(xs, j)
    requires forall x: nat :: x < j ==> x in xs
    requires multiset(r) == multiset(xs) + multiset{j}
    ensures |r| == j + 1 && InRange(r, j + 1)
    ensures forall x: nat :: x < j + 1 ==> x in r
  {
    assert |multiset(r)| == |multiset(xs)| + 1;
    forall k | 0 <= k < |r| ensures r[k] < j + 1 {
      assert r[k] in multiset(r);
      if r[k] != j {
        assert r[k] in multiset(xs);
        var q :| 0 <= q < |xs| && xs[q] == r[k];
      }
    }
    forall x: nat | x < j + 1 ensures x in r {
      if x < j {
        assert x in xs;
        assert x in multiset(xs);
      }
      assert x in multiset(r);
    }
  }

  /**
   * np.argsort(onsets, kind='mergesort'): the note indices ordered by onset,
   * notes with equal onsets in their original order.
   */
  function StableArgSort(onsets: seq<real>): (r: seq<nat>)
    ensures |r| == |onsets|
    ensures InRange(r, |onsets|)
    ensures forall x: nat :: x < |onsets| ==> x in r
    ensures SortedByOnset(onsets, r)
    ensures Distinct(r)
  {
    SortPrefix(onsets, |onsets|)
  }

  // ---------------------------------------------------------------------
  // Splitting the sorted indices into runs

  /**
   * np.split(idx, np.where(np.diff(onsets[idx]) > eps)[0] + 1): cut the
   * sorted indices wherever two neighbouring onsets are more than eps apart.
   * An empty idx gives one empty group, as np.split does.
   */
  function SplitRuns(onsets: seq<real>, idx: seq<nat>, eps: real): (groups: seq<seq<nat>>)
    requires InRange(idx, |onsets|)
    ensures |groups| >= 1
    ensures Flatten(groups) == idx
    ensures |idx| == 0 ==> groups == [[]]
    ensures |idx| > 0 ==> forall g :: 0 <= g < |groups| ==> |groups[g]| > 0
  {
    if |idx| <= 1 then
      assert Flatten([idx]) == idx + Flatten([]);
      [idx]
    else
      var rest := SplitRuns(onsets, idx[1..], eps);
      assert Flatten(rest) == rest[0] + Flatten(rest[1..]);
      assert idx == [idx[0]] + idx[1..];
      if onsets[idx[1]] - onsets[idx[0]] > eps then
        var groups := [[idx[0]]] + rest;
        assert groups[1..] == rest;
        groups
      else
        var first := [idx[0]] + rest[0];
        var groups := [first] + rest[1..];
        assert groups[1..] == rest[1..];
        assert Flatten(groups) == [idx[0]] + (rest[0] + Flatten(rest[1..]));
        groups
  }

  /** Inside each group, neighbouring onsets are at most eps apart. */
  predicate CloseWithinRuns(onsets: seq<real>, groups: seq<seq<nat>>, eps: real) {
    && GroupsInRange(groups, |onsets|)
    && forall g, k :: 0 <= g < |groups| && 0 <= k < |groups[g]| - 1 ==>
         onsets[groups[g][k + 1]] - onsets[groups[g][k]] <= eps
  }

  /** The first onset of each group is more than eps after the last onset of the group before. */
  predicate ApartBetweenRuns(onsets: seq<real>, groups: seq<seq<nat>>, eps: real) {
    && ValidGroups(groups, |onsets|)
    && forall g :: 0 <= g < |groups| - 1 ==>
         onsets[groups[g + 1][0]] - onsets[Last(groups[g])] > eps
  }

  lemma {:induction false} SplitRunsWithin(onsets: seq<real>, idx: seq<nat>, eps: real)
    requires InRange(idx, |onsets|)
    ensures CloseWithinRuns(onsets, SplitRuns(onsets, idx, eps), eps)
  {
    var groups := SplitRuns(onsets, idx, eps);
    FlattenInRange(groups, |onsets|);
    if |idx| > 1 {
      var rest := SplitRuns(onsets, idx[1..], eps);
      SplitRunsWithin(onsets, idx[1..], eps);
      if onsets[idx[1]] - onsets[idx[0]] > eps {
        assert groups == [[idx[0]]] + rest;
        forall g, k | 0 <= g < |groups| && 0 <= k < |groups[g]| - 1
          ensures onsets[groups[g][k + 1]] - onsets[groups[g][k]] <= eps
        {
          assert groups[g] == rest[g - 1];
        }
      } else {
        assert Flatten(rest) == rest[0] + Flatten(rest[1..]);
        var first := [idx[0]] + rest[0];
        assert groups == [first] + rest[1..];
        forall g, k | 0 <= g < |groups| && 0 <= k < |groups[g]| - 1
          ensures onsets[groups[g][k + 1]] - onsets[groups[g][k]] <= eps
        {
          if g == 0 {
            if k > 0 {
              assert first[k] == rest[0][k - 1] && first[k + 1] == rest[0][k];
            }
          } else {
            assert groups[g] == rest[g];
          }
        }
      }
    }
  }

  lemma {:induction false} SplitRunsApart(onsets: seq<real>, idx: seq<nat>, eps: real)
    requires InRange(idx, |onsets|)
    ensures |idx| > 0 ==> ApartBetweenRuns(onsets, SplitRuns(onsets, idx, eps), eps)
  {
    if |idx| == 1 {
      FlattenInRange(SplitRuns(onsets, idx, eps), |onsets|);
    } else if |idx| > 1 {
      var rest := SplitRuns(onsets, idx[1..], eps);
      SplitRunsApart(onsets, idx[1..], eps);
      assert Flatten(rest) == rest[0] + Flatten(rest[1..]);
      assert rest[0][0] == idx[1];
      if onsets[idx[1]] - onsets[idx[0]] > eps {
        ApartAfterSingleton(onsets, idx[0], rest, eps);
      } else {
        ApartAfterMerge(onsets, idx[0], rest, eps);
      }
    }
  }

  /** A note more than eps before the first run starts a run of its own. */
  lemma {:induction false} ApartAfterSingleton(onsets: seq<real>, x: nat, rest: seq<seq<nat>>, eps: real)
    requires x < |onsets| && |rest| > 0
    requires ApartBetweenRuns(onsets, rest, eps)
    requires onsets[rest[0][0]] - onsets[x] > eps
    ensures ApartBetweenRuns(onsets, [[x]] + rest, eps)
  {
    var groups := [[x]] + rest;
    forall g | 1 <= g < |groups| ensures groups[g] == rest[g - 1] {
    }
    forall g | 0 <= g < |groups| - 1
      ensures onsets[groups[g + 1][0]] - onsets[Last(groups[g])] > eps
    {
      if g > 0 {
        assert groups[g] == rest[g - 1] && groups[g + 1] == rest[g];
      }
    }
  }

  /** A note at most eps before the first run joins it. */
  lemma {:induction false} ApartAfterMerge(onsets: seq<real>, x: nat, rest: seq<seq<nat>>, eps: real)
    requires x < |onsets| && |rest| > 0
    requires ApartBetweenRuns(onsets, rest, eps)
    ensures ApartBetweenRuns(onsets, [[x] + rest[0]] + rest[1..], eps)
  {
    var first := [x] + rest[0];
    var groups := [first] + rest[1..];
    forall g | 1 <= g < |groups| ensures groups[g] == rest[g] {
    }
    forall k | 0 <= k < |first| ensures first[k] < |onsets| {
      if k > 0 {
        assert first[k] == rest[0][k - 1];
      }
    }
    forall g | 0 <= g < |groups| - 1
      ensures onsets[groups[g + 1][0]] - onsets[Last(groups[g])] > eps
    {
      if g == 0 {
        assert Last(first) == Last(rest[0]) && groups[1] == rest[1];
      } else {
        assert groups[g] == rest[g] && groups[g + 1] == rest[g + 1];
      }
    }
  }

  lemma {:induction false} FlattenInRange(groups: seq<seq<nat>>, n: nat)
    requires InRange(Flatten(groups), n)
    ensures GroupsInRange(groups, n)
  {
    forall g, k | 0 <= g < |groups| && 0 <= k < |groups[g]|
      ensures groups[g][k] < n
    {
      MemberOfFlatten(groups, g, k);
    }
  }

  /**
   * get_unique_onset_idxs(onsets, eps): the groups of simultaneous notes,
   * in ascending onset order.
   */
  function GroupOnsets(onsets: seq<real>, eps: real): (groups: seq<seq<nat>>)
    ensures |groups| >= 1
    ensures Flatten(groups) == StableArgSort(onsets)
    ensures |onsets| == 0 ==> groups == [[]]
    ensures |onsets| > 0 ==> IsPartition(groups, |onsets|)
    ensures CloseWithinRuns(onsets, groups, eps)
    ensures |onsets| > 0 ==> ApartBetweenRuns(onsets, groups, eps)
  {
    var sorted := StableArgSort(onsets);
    var groups := SplitRuns(onsets, sorted, eps);
    SplitRunsWithin(onsets, sorted, eps);
    SplitRunsApart(onsets, sorted, eps);
    PartitionFromFlatten(groups, |onsets|);
    groups
  }

  lemma {:induction false} PartitionFromFlatten(groups: seq<seq<nat>>, n: nat)
    requires n > 0 ==> forall g :: 0 <= g < |groups| ==> |groups[g]| > 0
    requires InRange(Flatten(groups), n) && Distinct(Flatten(groups))
    requires forall x: nat :: x < n ==> x in Flatten(groups)
    ensures n > 0 ==> IsPartition(groups, n)
  {
    FlattenInRange(groups, n);
  }

  // ---------------------------------------------------------------------
  // Properties of the groups

  lemma {:induction false} MemberOfFlatten(groups: seq<seq<nat>>, g: nat, k: nat)
    requires g < |groups| && k < |groups[g]|
    ensures groups[g][k] in Flatten(groups)
  {
    if g > 0 {
      MemberOfFlatten(groups[1..], g - 1, k);
    }
  }

  lemma {:induction false} DistinctFlattenDisjoint(groups: seq<seq<nat>>)
    requires Distinct(Flatten(groups))
    ensures Disjoint(groups)
  {
    if |groups| > 0 {
      var a, rest := groups[0], groups[1..];
      var b := Flatten(rest);
      assert Flatten(groups) == a + b;
      assert Distinct(b) by {
        forall p, q | 0 <= p < q < |b| ensures b[p] != b[q] {
          assert (a + b)[|a| + p] == b[p] && (a + b)[|a| + q] == b[q];
        }
      }
      DistinctFlattenDisjoint(rest);
      forall g1, k1, g2, k2 |
        0 <= g1 < |groups| && 0 <= k1 < |groups[g1]| && 0 <= g2 < |groups| && 0 <= k2 < |groups[g2]| &&
        groups[g1][k1] == groups[g2][k2]
        ensures g1 == g2 && k1 == k2
      {
        if g1 == 0 && g2 == 0 {
          assert (a + b)[k1] == a[k1] && (a + b)[k2] == a[k2];
        } else if g1 == 0 {
          MemberOfFlatten(rest, g2 - 1, k2);
          NotInBoth(a, b, k1);
          assert false;
        } else if g2 == 0 {
          MemberOfFlatten(rest, g1 - 1, k1);
          NotInBoth(a, b, k2);
          assert false;
        } else {
          assert groups[g1] == rest[g1 - 1] && groups[g2] == rest[g2 - 1];
        }
      }
    }
  }

  lemma {:induction false} NotInBoth(a: seq<nat>, b: seq<nat>, k: nat)
    requires Distinct(a + b) && k < |a|
    ensures a[k] !in b
  {
    assert (a + b)[k] == a[k];
    assert forall q :: 0 <= q < |b| ==> (a + b)[|a| + q] == b[q];
  }

  lemma {:induction false} GroupOfFindsMember(groups: seq<seq<nat>>, x: nat)
    requires x in Flatten(groups)
    ensures GroupOf(groups, x) < |groups| && x in groups[GroupOf(groups, x)]
  {
    if |groups| > 0 && x !in groups[0] {
      assert Flatten(groups) == groups[0] + Flatten(groups[1..]);
      GroupOfFindsMember(groups[1..], x);
    }
  }

  lemma {:induction false} GroupOfIsUnique(groups: seq<seq<nat>>, g: nat, k: nat)
    requires Disjoint(groups)
    requires g < |groups| && k < |groups[g]|
    ensures GroupOf(groups, groups[g][k]) == g
  {
    var x := groups[g][k];
    if g == 0 {
    } else if x in groups[0] {
      assert false;
    } else {
      var rest := groups[1..];
      assert Disjoint(rest) by {
        forall g1, k1, g2, k2 |
          0 <= g1 < |rest| && 0 <= k1 < |rest[g1]| && 0 <= g2 < |rest| && 0 <= k2 < |rest[g2]| &&
          rest[g1][k1] == rest[g2][k2]
          ensures g1 == g2 && k1 == k2
        {
          assert groups[g1 + 1][k1] == groups[g2 + 1][k2];
        }
      }
      GroupOfIsUnique(rest, g - 1, k);
    }
  }

  /** In disjoint groups the note at groups[g][k] is written by group g alone. */
  lemma {:induction false} WriterOfDisjoint(groups: seq<seq<nat>>, g: nat, k: nat)
    requires Disjoint(groups)
    requires g < |groups| && k < |groups[g]|
    ensures WriterOf(groups, |groups|, groups[g][k]) == g
  {
    var x := groups[g][k];
    var w := WriterOf(groups, |groups|, x);
    if w != g {
      assert false;
    }
  }

  /**
   * What a partition gives a caller: no index occurs twice, and every note
   * 0 .. n - 1 lies in exactly the group GroupOf names.
   */
  lemma {:induction false} PartitionFacts(groups: seq<seq<nat>>, n: nat)
    requires IsPartition(groups, n)
    ensures Disjoint(groups)
    ensures forall x :: 0 <= x < n ==> GroupOf(groups, x) < |groups| && x in groups[GroupOf(groups, x)]
    ensures forall g, k :: 0 <= g < |groups| && 0 <= k < |groups[g]| ==> GroupOf(groups, groups[g][k]) == g
  {
    DistinctFlattenDisjoint(groups);
    forall x | 0 <= x < n
      ensures GroupOf(groups, x) < |groups| && x in groups[GroupOf(groups, x)]
    {
      GroupOfFindsMember(groups, x);
    }
    forall g, k | 0 <= g < |groups| && 0 <= k < |groups[g]|
      ensures GroupOf(groups, groups[g][k]) == g
    {
      GroupOfIsUnique(groups, g, k);
    }
  }

  /**
   * Sorted indices, cut into groups, keep the stable order inside each group
   * and between groups.
   */
  lemma {:induction false} SortedGroups(onsets: seq<real>, groups: seq<seq<nat>>)
    requires SortedByOnset(onsets, Flatten(groups))
    requires GroupsInRange(groups, |onsets|)
    ensures forall g, k1, k2 :: 0 <= g < |groups| && 0 <= k1 < k2 < |groups[g]| ==>
              Precedes(onsets, groups[g][k1], groups[g][k2])
    ensures forall g1, g2, k1, k2 :: 0 <= g1 < g2 < |groups| && 0 <= k1 < |groups[g1]| && 0 <= k2 < |groups[g2]| ==>
              Precedes(onsets, groups[g1][k1], groups[g2][k2])
  {
    if |groups| > 0 {
      var a, rest := groups[0], groups[1..];
      var b := Flatten(rest);
      assert Flatten(groups) == a + b;
      assert SortedByOnset(onsets, b) by {
        forall p | 0 <= p < |b| ensures b[p] < |onsets| {
          assert (a + b)[|a| + p] == b[p];
        }
        forall p, q | 0 <= p < q < |b| ensures Precedes(onsets, b[p], b[q]) {
          assert (a + b)[|a| + p] == b[p] && (a + b)[|a| + q] == b[q];
        }
      }
      SortedGroups(onsets, rest);
      forall g, k1, k2 | 0 <= g < |groups| && 0 <= k1 < k2 < |groups[g]|
        ensures Precedes(onsets, groups[g][k1], groups[g][k2])
      {
        if g == 0 {
          assert (a + b)[k1] == a[k1] && (a + b)[k2] == a[k2];
        } else {
          assert groups[g] == rest[g - 1];
        }
      }
      forall g1, g2, k1, k2 | 0 <= g1 < g2 < |groups| && 0 <= k1 < |groups[g1]| && 0 <= k2 < |groups[g2]|
        ensures Precedes(onsets, groups[g1][k1], groups[g2][k2])
      {
        if g1 == 0 {
          MemberOfFlatten(rest, g2 - 1, k2);
          assert rest[g2 - 1][k2] == groups[g2][k2];
          var q :| 0 <= q < |b| && b[q] == groups[g2][k2];
          assert (a + b)[k1] == a[k1] && (a + b)[|a| + q] == b[q];
        } else {
          assert groups[g1] == rest[g1 - 1] && groups[g2] == rest[g2 - 1];
        }
      }
    }
  }

  /** Inside every group the notes follow the stable sort order. */
  predicate StableInsideGroups(onsets: seq<real>, groups: seq<seq<nat>>) {
    && GroupsInRange(groups, |onsets|)
    && forall g, k1, k2 :: 0 <= g < |groups| && 0 <= k1 < k2 < |groups[g]| ==>
         Precedes(onsets, groups[g][k1], groups[g][k2])
  }

  /** Every note of a later group has a strictly larger value than every note of an earlier one. */
  predicate StrictlyAscending(xs: seq<real>, groups: seq<seq<nat>>) {
    && GroupsInRange(groups, |xs|)
    && forall g1, g2, k1, k2 :: 0 <= g1 < g2 < |groups| && 0 <= k1 < |groups[g1]| && 0 <= k2 < |groups[g2]| ==>
         xs[groups[g1][k1]] < xs[groups[g2][k2]]
  }

  /**
   * The groups of get_unique_onset_idxs come in ascending onset order, and
   * inside a group notes keep their original index order where onsets tie.
   */
  lemma {:induction false} GroupsAscend(onsets: seq<real>, eps: real)
    requires |onsets| > 0 && eps >= 0.0
    ensures StableInsideGroups(onsets, GroupOnsets(onsets, eps))
    ensures StrictlyAscending(onsets, GroupOnsets(onsets, eps))
  {
    var groups := GroupOnsets(onsets, eps);
    assert SortedByOnset(onsets, Flatten(groups));
    AscendingRuns(onsets, groups, eps);
  }

  /** Sorted indices cut into runs more than eps apart give ascending groups. */
  lemma {:induction false} AscendingRuns(onsets: seq<real>, groups: seq<seq<nat>>, eps: real)
    requires eps >= 0.0
    requires SortedByOnset(onsets, Flatten(groups)) && ApartBetweenRuns(onsets, groups, eps)
    ensures StableInsideGroups(onsets, groups)
    ensures StrictlyAscending(onsets, groups)
  {
    SortedGroups(onsets, groups);
    assert StableInsideGroups(onsets, groups);
    assert OrderedBetweenGroups(onsets, groups);
    forall g1, g2, k1, k2 | 0 <= g1 < g2 < |groups| && 0 <= k1 < |groups[g1]| && 0 <= k2 < |groups[g2]|
      ensures onsets[groups[g1][k1]] < onsets[groups[g2][k2]]
    {
      AscendAcross(onsets, groups, eps, g1, g2, k1, k2);
    }
  }

  /** Every note of a later group follows every note of an earlier one in the stable order. */
  predicate OrderedBetweenGroups(onsets: seq<real>, groups: seq<seq<nat>>) {
    && GroupsInRange(groups, |onsets|)
    && forall g1, g2, k1, k2 :: 0 <= g1 < g2 < |groups| && 0 <= k1 < |groups[g1]| && 0 <= k2 < |groups[g2]| ==>
         Precedes(onsets, groups[g1][k1], groups[g2][k2])
  }

  /** Runs that are sorted and more than eps apart have strictly ascending onsets. */
  lemma {:induction false} AscendAcross(onsets: seq<real>, groups: seq<seq<nat>>, eps: real,
                                        g1: nat, g2: nat, k1: nat, k2: nat)
    requires eps >= 0.0
    requires StableInsideGroups(onsets, groups) && OrderedBetweenGroups(onsets, groups)
    requires ApartBetweenRuns(onsets, groups, eps)
    requires g1 < g2 < |groups| && k1 < |groups[g1]| && k2 < |groups[g2]|
    ensures onsets[groups[g1][k1]] < onsets[groups[g2][k2]]
  {
    var last := |groups[g1]| - 1;
    assert onsets[groups[g1][k1]] <= onsets[groups[g1][last]] by {
      if k1 < last {
        assert Precedes(onsets, groups[g1][k1], groups[g1][last]);
      }
    }
    assert onsets[groups[g1 + 1][0]] - onsets[groups[g1][last]] > eps;
    assert onsets[groups[g1 + 1][0]] <= onsets[groups[g2][k2]] by {
      if g1 + 1 < g2 {
        assert Precedes(onsets, groups[g1 + 1][0], groups[g2][k2]);
      } else if 0 < k2 {
        assert Precedes(onsets, groups[g2][0], groups[g2][k2]);
      }
    }
  }

  // ---------------------------------------------------------------------
  // Grouping on quantized onsets, as tempo estimation does it

  /** Truncation toward zero, as numpy's cast of a float to an integer does. */
  function Trunc(x: real): int {
    if x >= 0.0 then x.Floor else -((-x).Floor)
  }

  lemma {:induction false} TruncMonotone(x: real, y: real)
    requires x <= y
    ensures Trunc(x) <= Trunc(y)
  {
  }

  /** (1e4 * score_onsets).astype(int), as reals. */
  function QuantizedKeys(onsets: seq<real>): (keys: seq<real>)
    ensures |keys| == |onsets|
  {
    seq(|onsets|, j requires 0 <= j < |onsets| => Trunc(10000.0 * onsets[j]) as real)
  }

  /** All notes of a group carry the same key. */
  predicate SameKeyInGroups(keys: seq<real>, groups: seq<seq<nat>>) {
    && GroupsInRange(groups, |keys|)
    && forall g, k1, k2 :: 0 <= g < |groups| && 0 <= k1 < |groups[g]| && 0 <= k2 < |groups[g]| ==>
         keys[groups[g][k1]] == keys[groups[g][k2]]
  }

  /**
   * Grouping the quantized keys with the default tolerance puts notes with
   * equal keys, and only those, in one group.
   */
  lemma {:induction false} QuantizedGroupsShareKey(onsets: seq<real>)
    requires |onsets| > 0
    ensures SameKeyInGroups(QuantizedKeys(onsets), GroupOnsets(QuantizedKeys(onsets), DefaultEps))
  {
    var keys := QuantizedKeys(onsets);
    var groups := GroupOnsets(keys, DefaultEps);
    GroupsAscend(keys, DefaultEps);
    IntegerKeysShareKey(keys, groups);
  }

  /** Integer keys no more than 1e-6 apart along every run are equal throughout each group. */
  lemma {:induction false} IntegerKeysShareKey(keys: seq<real>, groups: seq<seq<nat>>)
    requires forall j :: 0 <= j < |keys| ==> keys[j] == keys[j].Floor as real
    requires CloseWithinRuns(keys, groups, DefaultEps)
    requires StableInsideGroups(keys, groups)
    ensures SameKeyInGroups(keys, groups)
  {
    forall g | 0 <= g < |groups|
      ensures forall k :: 0 <= k < |groups[g]| - 1 ==> keys[groups[g][k]] == keys[groups[g][k + 1]]
    {
      forall k | 0 <= k < |groups[g]| - 1
        ensures keys[groups[g][k]] == keys[groups[g][k + 1]]
      {
        var a, b := groups[g][k], groups[g][k + 1];
        assert Precedes(keys, a, b);
        IntegersApart(keys[a].Floor, keys[b].Floor);
      }
    }
    forall g, k1, k2 | 0 <= g < |groups| && 0 <= k1 < |groups[g]| && 0 <= k2 < |groups[g]|
      ensures keys[groups[g][k1]] == keys[groups[g][k2]]
    {
      SameKeyAlongRun(keys, groups[g], k1);
      SameKeyAlongRun(keys, groups[g], k2);
    }
  }

  lemma {:induction false} IntegersApart(i: int, j: int)
    ensures i == j || (i as real) - (j as real) >= 1.0 || (j as real) - (i as real) >= 1.0
  {
  }

  /** Groups ordered by quantized key are ordered by onset too. */
  lemma {:induction false} KeyOrderIsOnsetOrder(onsets: seq<real>, groups: seq<seq<nat>>)
    requires StrictlyAscending(QuantizedKeys(onsets), groups)
    ensures StrictlyAscending(onsets, groups)
  {
    var keys := QuantizedKeys(onsets);
    forall g1, g2, k1, k2 | 0 <= g1 < g2 < |groups| && 0 <= k1 < |groups[g1]| && 0 <= k2 < |groups[g2]|
      ensures onsets[groups[g1][k1]] < onsets[groups[g2][k2]]
    {
      var a, b := groups[g1][k1], groups[g2][k2];
      assert keys[a] < keys[b];
      if onsets[a] >= onsets[b] {
        TruncMonotone(10000.0 * onsets[b], 10000.0 * onsets[a]);
        assert false;
      }
    }
  }

  /**
   * Every note of a later group has a strictly larger key and a strictly
   * later onset than every note of an earlier group.
   */
  lemma {:induction false} QuantizedGroupsAscend(onsets: seq<real>)
    requires |onsets| > 0
    ensures StrictlyAscending(QuantizedKeys(onsets), GroupOnsets(QuantizedKeys(onsets), DefaultEps))
    ensures StrictlyAscending(onsets, GroupOnsets(QuantizedKeys(onsets), DefaultEps))
  {
    var keys := QuantizedKeys(onsets);
    GroupsAscend(keys, DefaultEps);
    KeyOrderIsOnsetOrder(onsets, GroupOnsets(keys, DefaultEps));
  }

  lemma {:induction false} SameKeyAlongRun(keys: seq<real>, run: seq<nat>, k: nat)
    requires InRange(run, |keys|) && k < |run|
    requires forall i :: 0 <= i < |run| - 1 ==> keys[run[i]] == keys[run[i + 1]]
    ensures keys[run[k]] == keys[run[0]]
  {
    if k > 0 {
      SameKeyAlongRun(keys, run, k - 1);
    }
  }
}

=== FILE: performance_codecs.dfy ===
/**
 * PerformanceCodec: the expressive parameters of a matched score, the
 * dynamics parameter followed by the time parameters in one matrix, and
 * the way back from the matrix and the score to a performed note list.
 */
module PerformanceCodecs {
  import opened Results
  import opened Numerics
  import opened OnsetGroups
  import opened Tempo
  import opened TempoNormalization
  import opened TimeCodecs
  import opened Dynamics

  /** A note of the score: the fields the decoder reads. */
  datatype ScoreNote = ScoreNote(pitch: int, onset: real, duration: real)

  /** A note of a matched score: the score note and the way it was played. */
  datatype MatchedNote = MatchedNote(pitch: int, onset: real, duration: real, velocity: int,
                                     pOnset: real, pDuration: real)

  datatype PerformanceCodec = PerformanceCodec(parameterNames: seq<string>, time: TimeCodec, dynamics: DynamicsCodec)

  /**
   * PerformanceCodec(time_codec, dynamics_codec): the dynamics names come
   * first. The dynamics names are a tuple, so adding time names that were
   * given as a list raises a TypeError.
   */
  function NewPerformanceCodec(time: TimeCodec, dynamics: DynamicsCodec): (r: Result<PerformanceCodec>)
    ensures r.Err? <==> time.namesAreList
    ensures r.Err? ==> r.error == TypeMismatch
    ensures r.Ok? ==> r.value.time == time && r.value.dynamics == dynamics
    ensures r.Ok? ==> |r.value.parameterNames| == 1 + |time.parameterNames|
    ensures r.Ok? ==> r.value.parameterNames[0] == dynamics.name
    ensures r.Ok? ==> r.value.parameterNames[1..] == time.parameterNames
  {
    if time.namesAreList then Err(TypeMismatch)
    else Ok(JoinedPerformanceCodec(time, dynamics))
  }

  /**
   * The constructor as TimeCodec's acceptance of lists implies it should
   * behave: the time names joined after the dynamics name whether they
   * came as a list or a tuple, as tuple(time_codec.parameter_names) would.
   */
  function JoinedPerformanceCodec(time: TimeCodec, dynamics: DynamicsCodec): (c: PerformanceCodec)
    ensures c.time == time && c.dynamics == dynamics
    ensures |c.parameterNames| == 1 + |time.parameterNames|
    ensures c.parameterNames[0] == dynamics.name
    ensures c.parameterNames[1..] == time.parameterNames
  {
    PerformanceCodec(DynamicsNames(dynamics) + time.parameterNames, time, dynamics)
  }

  /**
   * Every TimeCodec that accepts its names can be combined by the joined
   * constructor, which agrees with PerformanceCodec wherever that succeeds.
   */
  lemma {:induction false} JoinedAgreesWhereAccepted(names: ParameterNames, strategy: TempoStrategy,
                                                    normalization: Option<Normalization>, dynamics: DynamicsCodec)
    requires NewTimeCodec(names, strategy, normalization).Ok?
    ensures var time := NewTimeCodec(names, strategy, normalization).value;
      && (NewPerformanceCodec(time, dynamics).Ok? <==> !names.NameList?)
      && (NewPerformanceCodec(time, dynamics).Ok? ==> NewPerformanceCodec(time, dynamics).value == JoinedPerformanceCodec(time, dynamics))
      && JoinedPerformanceCodec(time, dynamics).parameterNames == [dynamics.name] + time.parameterNames
  {
    var time := NewTimeCodec(names, strategy, normalization).value;
    var c := JoinedPerformanceCodec(time, dynamics);
    assert c.parameterNames == [c.parameterNames[0]] + c.parameterNames[1..];
  }

  /**
   * The names TimeCodec accepts as a list: PerformanceCodec rejects them,
   * the joined constructor takes them.
   */
  lemma {:induction false} ListNamesRejected(strategy: TempoStrategy, dynamics: DynamicsCodec)
    ensures var names := ["beat_period", "timing", "log_articulation"];
      var time := NewTimeCodec(NameList(names), strategy, None);
      && time.Ok?
      && NewPerformanceCodec(time.value, dynamics) == Err(TypeMismatch)
      && JoinedPerformanceCodec(time.value, dynamics).parameterNames == [dynamics.name] + names
  {
    var names := ["beat_period", "timing", "log_articulation"];
    var c := JoinedPerformanceCodec(NewTimeCodec(NameList(names), strategy, None).value, dynamics);
    assert c.parameterNames == [c.parameterNames[0]] + c.parameterNames[1..];
  }

  // ---------------------------------------------------------------------
  // Fields of the note arrays

  function ScoreOf(notes: seq<MatchedNote>): (score: seq<ScoreNote>)
    ensures |score| == |notes|
    ensures forall j :: 0 <= j < |notes| ==>
      score[j] == ScoreNote(notes[j].pitch, notes[j].onset, notes[j].duration)
  {
    seq(|notes|, j requires 0 <= j < |notes| => ScoreNote(notes[j].pitch, notes[j].onset, notes[j].duration))
  }

  function ScoreOnsets(score: seq<ScoreNote>): (r: seq<real>)
    ensures |r| == |score| && forall j :: 0 <= j < |score| ==> r[j] == score[j].onset
  {
    seq(|score|, j requires 0 <= j < |score| => score[j].onset)
  }

  function ScoreDurations(score: seq<ScoreNote>): (r: seq<real>)
    ensures |r| == |score| && forall j :: 0 <= j < |score| ==> r[j] == score[j].duration
  {
    seq(|score|, j requires 0 <= j < |score| => score[j].duration)
  }

  function PerformedOnsets(notes: seq<MatchedNote>): (r: seq<real>)
    ensures |r| == |notes| && forall j :: 0 <= j < |notes| ==> r[j] == notes[j].pOnset
  {
    seq(|notes|, j requires 0 <= j < |notes| => notes[j].pOnset)
  }

  function PerformedDurations(notes: seq<MatchedNote>): (r: seq<real>)
    ensures |r| == |notes| && forall j :: 0 <= j < |notes| ==> r[j] == notes[j].pDuration
  {
    seq(|notes|, j requires 0 <= j < |notes| => notes[j].pDuration)
  }

  function Velocities(notes: seq<MatchedNote>): (r: seq<int>)
    ensures |r| == |notes| && forall j :: 0 <= j < |notes| ==> r[j] == notes[j].velocity
  {
    seq(|notes|, j requires 0 <= j < |notes| => notes[j].velocity)
  }

  // ---------------------------------------------------------------------
  // Columns

  /** Every row of a numpy matrix has the same number of columns. */
  predicate Rectangular(params: seq<seq<real>>) {
    forall j, k :: 0 <= j < |params| && 0 <= k < |params| ==> |params[j]| == |params[k]|
  }

  /** np.column_stack((d, t)): the entry of d in front of each row of t. */
  function Stack(d: seq<real>, t: seq<seq<real>>): (params: seq<seq<real>>)
    requires |d| == |t|
    ensures |params| == |d|
    ensures forall j :: 0 <= j < |d| ==> |params[j]| == 1 + |t[j]| && params[j][0] == d[j]
    ensures forall j :: 0 <= j < |d| ==> params[j][1..] == t[j]
  {
    seq(|d|, j requires 0 <= j < |d| => [d[j]] + t[j])
  }

  /** parameters[:, :w], where a slice stops at the end of the row. */
  function LeadingColumns(params: seq<seq<real>>, w: nat): (r: seq<seq<real>>)
    ensures |r| == |params|
    ensures forall j :: 0 <= j < |params| ==> r[j] == params[j][..if |params[j]| < w then |params[j]| else w]
  {
    seq(|params|, j requires 0 <= j < |params| => params[j][..if |params[j]| < w then |params[j]| else w])
  }

  /** parameters[:, w:]. */
  function TrailingColumns(params: seq<seq<real>>, w: nat): (r: seq<seq<real>>)
    ensures |r| == |params|
    ensures forall j :: 0 <= j < |params| ==> r[j] == params[j][if |params[j]| < w then |params[j]| else w..]
  {
    seq(|params|, j requires 0 <= j < |params| => params[j][if |params[j]| < w then |params[j]| else w..])
  }

  /** The single column of the dynamics slice. */
  function FirstColumn(params: seq<seq<real>>): (col: seq<real>)
    requires forall j :: 0 <= j < |params| ==> |params[j]| >= 1
    ensures |col| == |params| && forall j :: 0 <= j < |params| ==> col[j] == params[j][0]
  {
    seq(|params|, j requires 0 <= j < |params| => params[j][0])
  }

  // ---------------------------------------------------------------------
  // Encoding

  /**
   * PerformanceCodec.encode: the time parameters of the matched score,
   * with the dynamics parameter of every note put in front of its row.
   */
  function EncodePerformance(tx: Transcendentals, codec: PerformanceCodec, notes: seq<MatchedNote>): (r: Result<Encoding>)
    ensures var te := EncodeTime(tx, codec.time, ScoreOnsets(ScoreOf(notes)), PerformedOnsets(notes),
                                 ScoreDurations(ScoreOf(notes)), PerformedDurations(notes));
      && (te.Err? ==> r == Err(te.error))
      && (te.Ok? ==> r.Ok? && r.value == WithDynamics(te.value, notes))
  {
    var score := ScoreOf(notes);
    match EncodeTime(tx, codec.time, ScoreOnsets(score), PerformedOnsets(notes), ScoreDurations(score),
                     PerformedDurations(notes))
    case Err(e) => Err(e)
    case Ok(te) => Ok(WithDynamics(te, notes))
  }

  /** The time encoding with the scaled velocity of every note in front of its row. */
  function WithDynamics(te: Encoding, notes: seq<MatchedNote>): (e: Encoding)
    requires |te.parameters| == |notes|
    ensures e.meanBeatPeriod == te.meanBeatPeriod && e.groups == te.groups
    ensures |e.parameters| == |notes|
    ensures forall j :: 0 <= j < |notes| ==>
      && |e.parameters[j]| == 1 + |te.parameters[j]|
      && e.parameters[j][0] * 127.0 == notes[j].velocity as real
      && e.parameters[j][1..] == te.parameters[j]
  {
    Encoding(Stack(EncodeVelocities(Velocities(notes)), te.parameters), te.meanBeatPeriod, te.groups)
  }

  // ---------------------------------------------------------------------
  // Decoding

  /** np.clip of one value. */
  function Clamp(x: int, lo: int, hi: int): (y: int)
    requires lo <= hi
    ensures lo <= y <= hi
    ensures lo <= x <= hi ==> y == x
    ensures x < lo ==> y == lo
    ensures x > hi ==> y == hi
  {
    if x < lo then lo else if x > hi then hi else x
  }

  /** The score with every pitch clipped to the MIDI range 1 .. 127. */
  function ClipScore(score: seq<ScoreNote>): (r: seq<ScoreNote>)
    ensures |r| == |score|
    ensures forall j :: 0 <= j < |score| ==> r[j] == score[j].(pitch := Clamp(score[j].pitch, 1, 127))
  {
    seq(|score|, j requires 0 <= j < |score| => score[j].(pitch := Clamp(score[j].pitch, 1, 127)))
  }

  /**
   * PerformanceCodec.decode, on the score as it is once its pitches are
   * clipped: the parameter matrix is split after the dynamics columns, the
   * time parameters give the performed onsets and durations and the
   * dynamics parameters the velocities.
   */
  function DecodePerformance(tx: Transcendentals, codec: PerformanceCodec, score: seq<ScoreNote>,
                             params: seq<seq<real>>, meanBp: real, side: Option<real>): (r: Result<seq<MatchedNote>>)
    requires Rectangular(params)
    ensures var td := DecodeTime(tx, codec.time, ScoreOnsets(score), ScoreDurations(score),
                                 TrailingColumns(params, |DynamicsNames(codec.dynamics)|), meanBp, side);
      && (td.Err? ==> r == Err(td.error))
      && (td.Ok? ==> |score| > 0 && |params| >= |score| && |params[0]| >= 1)
      && (td.Ok? ==> r == Ok(WithVelocities(codec.dynamics, score, params, td.value)))
  {
    match DecodeTime(tx, codec.time, ScoreOnsets(score), ScoreDurations(score),
                     TrailingColumns(params, |DynamicsNames(codec.dynamics)|), meanBp, side)
    case Err(e) => Err(e)
    case Ok(perf) =>
      DynamicsColumnExists(tx, codec, score, params, meanBp, side);
      Ok(WithVelocities(codec.dynamics, score, params, perf))
  }

  /**
   * Once the time parameters decode, the matrix has a row for every note
   * and a dynamics column in every row.
   */
  lemma {:induction false} DynamicsColumnExists(tx: Transcendentals, codec: PerformanceCodec, score: seq<ScoreNote>,
                             params: seq<seq<real>>, meanBp: real, side: Option<real>)
    requires DecodeTime(tx, codec.time, ScoreOnsets(score), ScoreDurations(score),
                        TrailingColumns(params, |DynamicsNames(codec.dynamics)|), meanBp, side).Ok?
    ensures |params| >= |score| > 0 && |params[0]| >= 1
  {
    var t := TrailingColumns(params, 1);
    assert |t[0]| >= 3;
  }

  /**
   * The dynamics part of PerformanceCodec.decode: the velocities decoded
   * from the first column and clipped to 1 .. 127, zipped with the score
   * notes and their decoded onsets and durations.
   */
  function WithVelocities(dynamics: DynamicsCodec, score: seq<ScoreNote>, params: seq<seq<real>>,
                          perf: Performance): (notes: seq<MatchedNote>)
    requires Rectangular(params) && |score| > 0 && |params| >= |score| && |params[0]| >= 1
    requires |perf.onsets| == |perf.durations| == |score|
    ensures |notes| == |score|
    ensures forall j :: 0 <= j < |score| ==>
      && notes[j].pitch == score[j].pitch
      && notes[j].onset == score[j].onset
      && notes[j].duration == score[j].duration
      && 1 <= notes[j].velocity <= 127
      && notes[j].pOnset == perf.onsets[j]
      && notes[j].pDuration == perf.durations[j]
    ensures forall j :: 0 <= j < |score| ==>
      notes[j].velocity == Clamp(DecodeVelocities(FirstColumn(LeadingColumns(params, 1))).value[j], 1, 127)
  {
    var dyn := LeadingColumns(params, |DynamicsNames(dynamics)|);
    var velocities := DecodeVelocities(FirstColumn(dyn));
    Zip(score, ClipAll(velocities.value, 1, 127), perf)
  }

  /** np.clip(v, lo, hi). */
  function ClipAll(v: seq<int>, lo: int, hi: int): (c: seq<int>)
    requires lo <= hi
    ensures |c| == |v|
    ensures forall k :: 0 <= k < |v| ==> c[k] == Clamp(v[k], lo, hi)
  {
    seq(|v|, k requires 0 <= k < |v| => Clamp(v[k], lo, hi))
  }

  /** The record of every score note with its velocity, onset and duration; zip stops at the score's end. */
  function Zip(score: seq<ScoreNote>, velocities: seq<int>, perf: Performance): (notes: seq<MatchedNote>)
    requires |score| <= |velocities| && |score| == |perf.onsets| == |perf.durations|
    ensures |notes| == |score|
    ensures forall j :: 0 <= j < |score| ==>
      notes[j] == MatchedNote(score[j].pitch, score[j].onset, score[j].duration, velocities[j],
                              perf.onsets[j], perf.durations[j])
  {
    seq(|score|, j requires 0 <= j < |score| =>
      MatchedNote(score[j].pitch, score[j].onset, score[j].duration, velocities[j], perf.onsets[j], perf.durations[j]))
  }

  /** np.clip(a, lo, hi, out=a). */
  method Clip(a: array<int>, lo: int, hi: int)
    requires lo <= hi
    modifies a
    ensures a[..] == ClipAll(old(a[..]), lo, hi)
  {
    for k := 0 to a.Length
      invariant forall i :: 0 <= i < k ==> a[i] == Clamp(old(a[i]), lo, hi)
      invariant forall i :: k <= i < a.Length ==> a[i] == old(a[i])
    {
      a[k] := Clamp(a[k], lo, hi);
    }
  }

  /** clip(score['pitch'], 1, 127): the pitch column of the caller's score, in place. */
  method ClipPitches(score: array<ScoreNote>)
    modifies score
    ensures score[..] == ClipScore(old(score[..]))
  {
    for k := 0 to score.Length
      invariant forall i :: 0 <= i < k ==> score[i] == old(score[i]).(pitch := Clamp(old(score[i]).pitch, 1, 127))
      invariant forall i :: k <= i < score.Length ==> score[i] == old(score[i])
    {
      score[k] := score[k].(pitch := Clamp(score[k].pitch, 1, 127));
    }
  }

  /**
   * PerformanceCodec.decode: the pitches of the caller's score are clipped
   * in place, whatever happens after.
   */
  method Decode(tx: Transcendentals, codec: PerformanceCodec, score: array<ScoreNote>, params: seq<seq<real>>,
                meanBp: real, side: Option<real>) returns (r: Result<seq<MatchedNote>>)
    requires Rectangular(params)
    modifies score
    ensures score[..] == ClipScore(old(score[..]))
    ensures r == DecodePerformance(tx, codec, score[..], params, meanBp, side)
  {
    ClipPitches(score);
    r := DecodeClipped(tx, codec, score[..], params, meanBp, side);
  }

  /**
   * The rest of PerformanceCodec.decode, once the pitches are clipped:
   * first the time parameters, then the velocities.
   */
  method DecodeClipped(tx: Transcendentals, codec: PerformanceCodec, score: seq<ScoreNote>, params: seq<seq<real>>,
                       meanBp: real, side: Option<real>) returns (r: Result<seq<MatchedNote>>)
    requires Rectangular(params)
    ensures r == DecodePerformance(tx, codec, score, params, meanBp, side)
  {
    var timeResult := TimeCodecs.Decode(tx, codec.time, ScoreOnsets(score), ScoreDurations(score),
                                        TrailingColumns(params, |DynamicsNames(codec.dynamics)|), meanBp, side);
    if timeResult.Err? {
      return Err(timeResult.error);
    }
    DynamicsColumnExists(tx, codec, score, params, meanBp, side);
    var notes := AttachVelocities(codec.dynamics, score, params, timeResult.value);
    r := Ok(notes);
  }

  /** The velocities are decoded and clipped in their own array, then zipped with the notes. */
  method AttachVelocities(dynamics: DynamicsCodec, score: seq<ScoreNote>, params: seq<seq<real>>,
                          perf: Performance) returns (notes: seq<MatchedNote>)
    requires Rectangular(params) && |score| > 0 && |params| >= |score| && |params[0]| >= 1
    requires |perf.onsets| == |perf.durations| == |score|
    ensures notes == WithVelocities(dynamics, score, params, perf)
  {
    var decoded := DecodeVelocities(FirstColumn(LeadingColumns(params, |DynamicsNames(dynamics)|)));
    var values := decoded.value;
    var velocities := new int[|values|](k requires 0 <= k < |values| => values[k]);
    assert velocities[..] == values;
    Clip(velocities, 1, 127);
    notes := Zip(score, velocities[..], perf);
  }

  // ---------------------------------------------------------------------
  // Properties

  /** Splitting a stacked matrix after its first column gives back both parts. */
  lemma {:induction false} SplitUndoesStack(d: seq<real>, t: seq<seq<real>>)
    requires |d| == |t|
    ensures forall j :: 0 <= j < |d| ==> |LeadingColumns(Stack(d, t), 1)[j]| == 1
    ensures FirstColumn(LeadingColumns(Stack(d, t), 1)) == d
    ensures TrailingColumns(Stack(d, t), 1) == t
  {
    var params := Stack(d, t);
    assert forall j :: 0 <= j < |d| ==> |params[j]| >= 1;
  }

  /**
   * Decoding what the encoder produced, on the score of the same notes,
   * gives back every note: its pitch clipped to 1 .. 127, its notated
   * onset and duration, its velocity clipped to 1 .. 127, its performed
   * onset less the earliest one, and its performed duration when notated
   * and performed durations are positive (0 for a grace note). The
   * decoder is handed what TimeRoundTrip hands it.
   */
  lemma {:induction false} PerformanceRoundTrip(tx: Transcendentals, codec: PerformanceCodec, notes: seq<MatchedNote>, side: Option<real>)
    requires Lawful(tx)
    requires forall j :: 0 <= j < |notes| ==> 0 <= notes[j].velocity <= 127
    requires EncodePerformance(tx, codec, notes).Ok?
    requires var so := ScoreOnsets(ScoreOf(notes));
      GroupOnsets(so, DefaultEps) == DefaultGroups(so)
    requires var score := ScoreOf(notes);
      var t := TempoOf(codec.time.strategy, ScoreOnsets(score), PerformedOnsets(notes), ScoreDurations(score),
                       PerformedDurations(notes), None, None);
      side == SideFor(tx, codec.time.normalization, t.value.curve)
    ensures Rectangular(EncodePerformance(tx, codec, notes).value.parameters)
    ensures var e := EncodePerformance(tx, codec, notes).value;
      var d := DecodePerformance(tx, codec, ClipScore(ScoreOf(notes)), e.parameters, e.meanBeatPeriod, side);
      d.Ok? && NotesRecovered(notes, d.value)
  {
    var score := ScoreOf(notes);
    var so, po, sd, pd := ScoreOnsets(score), PerformedOnsets(notes), ScoreDurations(score), PerformedDurations(notes);
    var te := EncodeTime(tx, codec.time, so, po, sd, pd).value;
    TimeRowWidths(tx, codec.time, so, po, sd, pd);
    TimeRoundTrip(tx, codec.time, so, po, sd, pd, side);
    var perf := DecodeTime(tx, codec.time, so, sd, te.parameters, te.meanBeatPeriod, side).value;
    TimingFromTimes(notes, perf);
    RoundTripFromParts(tx, codec, notes, te, side, perf);
  }

  /**
   * The timing the round trip gives back: performed onsets shifted to start
   * at zero, performed durations of ordinary notes, zero for grace notes.
   */
  predicate TimingRecovered(notes: seq<MatchedNote>, perf: Performance) {
    && |notes| > 0 && |perf.durations| == |notes|
    && perf.onsets == Shift(PerformedOnsets(notes), Min(PerformedOnsets(notes)))
    && (forall j :: 0 <= j < |notes| && notes[j].duration > 0.0 && notes[j].pDuration > 0.0 ==>
          perf.durations[j] == notes[j].pDuration)
    && (forall j :: 0 <= j < |notes| && notes[j].duration == 0.0 ==> perf.durations[j] == 0.0)
  }

  /**
   * What decoding gives back of each note: the score fields with the pitch
   * clipped to 1 .. 127, the velocity clipped likewise, and the timing above.
   */
  predicate NotesRecovered(notes: seq<MatchedNote>, d: seq<MatchedNote>) {
    && |notes| > 0 && |d| == |notes|
    && forall j :: 0 <= j < |notes| ==>
         && d[j].pitch == Clamp(notes[j].pitch, 1, 127)
         && d[j].onset == notes[j].onset
         && d[j].duration == notes[j].duration
         && d[j].velocity == Clamp(notes[j].velocity, 1, 127)
         && d[j].pOnset == notes[j].pOnset - Min(PerformedOnsets(notes))
         && (notes[j].duration > 0.0 && notes[j].pDuration > 0.0 ==> d[j].pDuration == notes[j].pDuration)
         && (notes[j].duration == 0.0 ==> d[j].pDuration == 0.0)
  }

  /** The facade's round trip, once the time matrix is known to decode back. */
  lemma {:induction false} RoundTripFromParts(tx: Transcendentals, codec: PerformanceCodec, notes: seq<MatchedNote>, te: Encoding,
                           side: Option<real>, perf: Performance)
    requires forall j :: 0 <= j < |notes| ==> 0 <= notes[j].velocity <= 127
    requires |te.parameters| == |notes| > 0 && forall j :: 0 <= j < |notes| ==> |te.parameters[j]| == 3
    requires var score := ScoreOf(notes);
      DecodeTime(tx, codec.time, ScoreOnsets(score), ScoreDurations(score), te.parameters, te.meanBeatPeriod, side)
      == Ok(perf)
    requires TimingRecovered(notes, perf)
    ensures Rectangular(WithDynamics(te, notes).parameters)
    ensures var e := WithDynamics(te, notes);
      var d := DecodePerformance(tx, codec, ClipScore(ScoreOf(notes)), e.parameters, e.meanBeatPeriod, side);
      d.Ok? && NotesRecovered(notes, d.value)
  {
    var e := WithDynamics(te, notes);
    VelocitiesRecovered(notes, te);
    ScoreFieldsKept(ScoreOf(notes));
    DecodedNotes(tx, codec, notes, e.parameters, te.parameters, e.meanBeatPeriod, side, perf);
  }

  /** Every row of a successful time encoding has the three time parameters. */
  lemma {:induction false} TimeRowWidths(tx: Transcendentals, codec: TimeCodec, so: seq<real>, po: seq<real>, sd: seq<real>, pd: seq<real>)
    requires EncodeTime(tx, codec, so, po, sd, pd).Ok?
    ensures var e := EncodeTime(tx, codec, so, po, sd, pd).value;
      |e.parameters| == |so| > 0 && forall j :: 0 <= j < |e.parameters| ==> |e.parameters[j]| == 3
  {
    var t := TempoOf(codec.strategy, so, po, sd, pd, None, None).value;
    assert EncodeTime(tx, codec, so, po, sd, pd) == EncodeWith(tx, codec.normalization, so, po, sd, pd, t);
    EncodedRowFacts(tx, codec.normalization, so, po, sd, pd, t);
  }

  /** The dynamics column of the stacked matrix decodes to the velocities; the rest is the time matrix. */
  lemma {:induction false} VelocitiesRecovered(notes: seq<MatchedNote>, te: Encoding)
    requires |te.parameters| == |notes| > 0 && forall j :: 0 <= j < |notes| ==> |te.parameters[j]| == 3
    requires forall j :: 0 <= j < |notes| ==> 0 <= notes[j].velocity <= 127
    ensures var params := WithDynamics(te, notes).parameters;
      && Rectangular(params)
      && (forall j :: 0 <= j < |params| ==> |params[j]| >= 1)
      && DecodeVelocities(FirstColumn(LeadingColumns(params, 1))) == Ok(Velocities(notes))
      && TrailingColumns(params, 1) == te.parameters
  {
    var d := EncodeVelocities(Velocities(notes));
    assert WithDynamics(te, notes).parameters == Stack(d, te.parameters);
    SplitUndoesStack(d, te.parameters);
    VelocityRoundTrip(Velocities(notes));
  }

  /** Clipping the pitches leaves the onsets and durations alone. */
  lemma {:induction false} ScoreFieldsKept(score: seq<ScoreNote>)
    ensures ScoreOnsets(ClipScore(score)) == ScoreOnsets(score)
    ensures ScoreDurations(ClipScore(score)) == ScoreDurations(score)
  {
  }

  /** The facade's decode, once the time and the dynamics parts are known to come back. */
  lemma {:induction false} DecodedNotes(tx: Transcendentals, codec: PerformanceCodec, notes: seq<MatchedNote>, params: seq<seq<real>>,
                     timeParams: seq<seq<real>>, meanBp: real, side: Option<real>, perf: Performance)
    requires Rectangular(params) && |params| == |notes| > 0
    requires forall j :: 0 <= j < |params| ==> |params[j]| >= 1
    requires DecodeVelocities(FirstColumn(LeadingColumns(params, 1))) == Ok(Velocities(notes))
    requires TrailingColumns(params, 1) == timeParams
    requires var score := ScoreOf(notes);
      DecodeTime(tx, codec.time, ScoreOnsets(score), ScoreDurations(score), timeParams, meanBp, side) == Ok(perf)
    requires ScoreOnsets(ClipScore(ScoreOf(notes))) == ScoreOnsets(ScoreOf(notes))
    requires ScoreDurations(ClipScore(ScoreOf(notes))) == ScoreDurations(ScoreOf(notes))
    requires TimingRecovered(notes, perf)
    ensures var d := DecodePerformance(tx, codec, ClipScore(ScoreOf(notes)), params, meanBp, side);
      d.Ok? && NotesRecovered(notes, d.value)
  {
    var clipped := ClipScore(ScoreOf(notes));
    var d := DecodePerformance(tx, codec, clipped, params, meanBp, side);
    assert d == Ok(WithVelocities(codec.dynamics, clipped, params, perf));
    ZippedNotesRecovered(codec.dynamics, notes, params, perf);
  }

  /** The zipped notes carry the clipped score fields, the clipped velocities and the recovered timing. */
  lemma {:induction false} ZippedNotesRecovered(dynamics: DynamicsCodec, notes: seq<MatchedNote>, params: seq<seq<real>>,
                                                perf: Performance)
    requires Rectangular(params) && |params| == |notes| > 0
    requires forall j :: 0 <= j < |params| ==> |params[j]| >= 1
    requires DecodeVelocities(FirstColumn(LeadingColumns(params, 1))) == Ok(Velocities(notes))
    requires TimingRecovered(notes, perf) && |perf.onsets| == |notes|
    ensures NotesRecovered(notes, WithVelocities(dynamics, ClipScore(ScoreOf(notes)), params, perf))
  {
    var out := WithVelocities(dynamics, ClipScore(ScoreOf(notes)), params, perf);
    var po := PerformedOnsets(notes);
    forall j | 0 <= j < |notes|
      ensures out[j].pitch == Clamp(notes[j].pitch, 1, 127)
      ensures out[j].velocity == Clamp(notes[j].velocity, 1, 127)
      ensures out[j].pOnset == notes[j].pOnset - Min(po)
    {
      assert ClipScore(ScoreOf(notes))[j].pitch == Clamp(ScoreOf(notes)[j].pitch, 1, 127);
      assert Velocities(notes)[j] == notes[j].velocity;
      assert perf.onsets[j] == po[j] - Min(po);
    }
  }

  /** The time round trip, restated on the notes' own fields. */
  lemma {:induction false} TimingFromTimes(notes: seq<MatchedNote>, perf: Performance)
    requires |notes| > 0 && |perf.durations| == |notes|
    requires perf.onsets == Shift(PerformedOnsets(notes), Min(PerformedOnsets(notes)))
    requires var sd, pd := ScoreDurations(ScoreOf(notes)), PerformedDurations(notes);
      forall j :: 0 <= j < |notes| && sd[j] > 0.0 && pd[j] > 0.0 ==> perf.durations[j] == pd[j]
    requires var sd := ScoreDurations(ScoreOf(notes));
      forall j :: 0 <= j < |notes| && sd[j] == 0.0 ==> perf.durations[j] == 0.0
    ensures TimingRecovered(notes, perf)
  {
    var sd, pd := ScoreDurations(ScoreOf(notes)), PerformedDurations(notes);
    forall j | 0 <= j < |notes| ensures sd[j] == notes[j].duration && pd[j] == notes[j].pDuration {
    }
  }
}


=== FILE: results.dfy ===
/** Optional values and the error outcomes of the codec. */
module Results {

  datatype Option<T> = None | Some(value: T)

  /** The ways an encode or decode call can fail. */
  datatype Error =
    | ShapeMismatch            // score and performance arrays (or the parameter matrix) disagree in size
    | EmptyInput               // a minimum or maximum is taken over an empty array
    | DegenerateInput          // too few points survive to define a tempo curve, or a zero divisor
    | UnknownConfiguration     // a parameter-names specification that is neither 'auto' nor a list
    | MissingSideParameter     // rescaling standardized tempo without the standard deviation
    | UnexpectedSideParameter  // a side parameter given to a rescale that takes none
    | TypeMismatch             // Python operands of the wrong type: a tuple plus a list, or indexing None

  datatype Result<T> = Ok(value: T) | Err(error: Error)
}

=== FILE: tempo.dfy ===
/**
 * The two tempo estimates, tempo_by_average and tempo_by_derivative. Both
 * reduce every group of simultaneous notes to one score time and one
 * performed time, drop the points that would make time run backwards, and
 * then read a beat period (seconds per beat) off the remaining points.
 */
module Tempo {
  import opened Results
  import opened Numerics
  import opened OnsetGroups
  import opened UniqueSeqs
  import opened Monotonizer
  import opened Interpolation

  /** tempo_curve, input_onsets and unique_onset_idxs of either estimate. */
  datatype TempoCurve = TempoCurve(curve: seq<real>, inputOnsets: seq<real>, groups: seq<seq<nat>>)

  /** The step of the central difference taken by tempo_by_derivative. */
  const Dx: real := 0.5

  /**
   * The grouping used when none is given: the score onsets quantized to
   * 1/10000 of a beat, grouped when their keys are equal.
   */
  function DefaultGroups(scoreOnsets: seq<real>): (groups: seq<seq<nat>>)
    ensures |groups| >= 1
    ensures |scoreOnsets| > 0 ==> IsPartition(groups, |scoreOnsets|) && StrictlyAscending(scoreOnsets, groups)
  {
    var groups := GroupOnsets(QuantizedKeys(scoreOnsets), DefaultEps);
    if |scoreOnsets| == 0 then groups else QuantizedGroupsAscend(scoreOnsets); groups
  }

  /** The shared first half of both estimates. */
  datatype Aligned = Aligned(
    groups: seq<seq<nat>>,
    scoreTimes: seq<real>,
    perfTimes: seq<real>,
    scoreMono: seq<real>,
    perfMono: seq<real>)

  /**
   * The u_onset entry of get_unique_seq(onsets, onsets + durations,
   * groups, return_diff=False): one mean time per group and a closing time.
   */
  function UniqueTimes(onsets: seq<real>, durations: seq<real>, groups: seq<seq<nat>>): (r: Result<seq<real>>)
    requires |onsets| == |durations|
    ensures r.Ok? <==> GetUniqueSeq(onsets, Add(onsets, durations), Some(groups), false).Ok?
    ensures r.Err? ==> r.error == GetUniqueSeq(onsets, Add(onsets, durations), Some(groups), false).error
    ensures r.Ok? ==> |onsets| > 0 && ValidGroups(groups, |onsets|) && |r.value| == |groups| + 1
    ensures r.Ok? ==> r.value == GetUniqueSeq(onsets, Add(onsets, durations), Some(groups), false).value.uOnset
  {
    var u := GetUniqueSeq(onsets, Add(onsets, durations), Some(groups), false);
    if u.Err? then Err(u.error) else Ok(u.value.uOnset)
  }

  /**
   * monotonize_times(perf, deltas=score) in strict mode, with both outputs
   * strictly increasing.
   */
  function MonotonizedPair(perf: seq<real>, score: seq<real>): (r: (seq<real>, seq<real>))
    requires |perf| > 0 && |score| == |perf| && StrictlyIncreasing(score)
    ensures Monotonized(perf, score, true) == Ok(r)
    ensures StrictlyIncreasing(r.0) && StrictlyIncreasing(r.1)
    ensures 1 <= |r.0| == |r.1| <= |perf|
  {
    MonotonizedIncreasing(perf, score);
    Monotonized(perf, score, true).value
  }

  /**
   * What the first half delivers: one score and one performed time per
   * group plus a closing time, and the monotonized pair, both strictly
   * increasing.
   */
  ghost predicate AlignedFacts(so: seq<real>, po: seq<real>, sd: seq<real>, pd: seq<real>, a: Aligned) {
    && |so| == |sd| && |po| == |pd|
    && UniqueTimes(so, sd, a.groups) == Ok(a.scoreTimes)
    && UniqueTimes(po, pd, a.groups) == Ok(a.perfTimes)
    && |a.scoreTimes| == |a.perfTimes| == |a.groups| + 1
    && StrictlyIncreasing(a.scoreTimes)
    && MonotonizedPair(a.perfTimes, a.scoreTimes) == (a.perfMono, a.scoreMono)
    && WellAligned(a)
  }

  /** The shape of an aligned record on which both estimates can be read. */
  predicate WellAligned(a: Aligned) {
    && |a.scoreTimes| == |a.groups| + 1
    && 1 <= |a.scoreMono| == |a.perfMono| <= |a.scoreTimes|
    && StrictlyIncreasing(a.scoreMono)
    && StrictlyIncreasing(a.perfMono)
  }

  /**
   * Grouping, get_unique_seq for the score and for the performance, and
   * monotonize_times. Onsets and durations of different lengths cannot be
   * added; score times that do not strictly increase (possible only with a
   * grouping supplied by the caller) are refused, since the monotonizer
   * divides by their differences.
   */
  function Align(so: seq<real>, po: seq<real>, sd: seq<real>, pd: seq<real>,
                 groups: Option<seq<seq<nat>>>): (r: Result<Aligned>)
    ensures |so| != |sd| || |po| != |pd| ==> r == Err(ShapeMismatch)
    ensures |so| == |sd| && |po| == |pd| && |so| == 0 ==> r == Err(EmptyInput)
    ensures r.Ok? && groups.None? ==> r.value.groups == DefaultGroups(so)
    ensures r.Ok? && groups.Some? ==> r.value.groups == groups.value
    ensures r.Ok? ==> AlignedFacts(so, po, sd, pd, r.value) && WellAligned(r.value)
  {
    AlignWith(so, po, sd, pd, if groups.Some? then groups.value else DefaultGroups(so))
  }

  /** Align with the grouping settled. */
  function AlignWith(so: seq<real>, po: seq<real>, sd: seq<real>, pd: seq<real>,
                     gs: seq<seq<nat>>): (r: Result<Aligned>)
    ensures |so| != |sd| || |po| != |pd| ==> r == Err(ShapeMismatch)
    ensures |so| == |sd| && |po| == |pd| && |so| == 0 ==> r == Err(EmptyInput)
    ensures r.Ok? ==> r.value.groups == gs
    ensures r.Ok? ==> AlignedFacts(so, po, sd, pd, r.value)
  {
    if |so| != |sd| || |po| != |pd| then Err(ShapeMismatch)
    else
      match UniqueTimes(so, sd, gs)
      case Err(e) => Err(e)
      case Ok(su) =>
        match UniqueTimes(po, pd, gs)
        case Err(e) => Err(e)
        case Ok(pu) =>
          if !StrictlyIncreasing(su) then Err(DegenerateInput)
          else
            var mono := MonotonizedPair(pu, su);
            Ok(Aligned(gs, su, pu, mono.1, mono.0))
  }

  /**
   * np.diff(perf) / np.diff(score): the beat period of every segment
   * between neighbouring points.
   */
  function BeatPeriods(perf: seq<real>, score: seq<real>): (bp: seq<real>)
    requires |perf| == |score| >= 1 && StrictlyIncreasing(score)
    ensures |bp| == |perf| - 1
    ensures forall k :: 0 <= k < |bp| ==> Scales(bp[k], score[k + 1] - score[k], perf[k + 1] - perf[k])
  {
    seq(|perf| - 1, k requires 0 <= k < |perf| - 1 =>
      PositiveRatio(perf[k + 1] - perf[k], score[k + 1] - score[k]))
  }

  /** Rising performed times give positive beat periods. */
  lemma {:induction false} BeatPeriodsPositive(perf: seq<real>, score: seq<real>)
    requires |perf| == |score| >= 1 && StrictlyIncreasing(score) && StrictlyIncreasing(perf)
    ensures forall k :: 0 <= k < |perf| - 1 ==> BeatPeriods(perf, score)[k] > 0.0
  {
    var bp := BeatPeriods(perf, score);
    forall k | 0 <= k < |bp| ensures bp[k] > 0.0 {
      assert perf[k] < perf[k + 1] && score[k] < score[k + 1];
      ScalesPositive(bp[k], score[k + 1] - score[k], perf[k + 1] - perf[k]);
    }
  }

  lemma {:induction false} ScalesPositive(q: real, b: real, a: real)
    requires b > 0.0 && a > 0.0 && Scales(q, b, a)
    ensures q > 0.0
  {
  }

  /** `q` stretches a span of `b` into a span of `a`. */
  predicate Scales(q: real, b: real, a: real) {
    q * b == a
  }

  function PositiveRatio(a: real, b: real): (q: real)
    requires b > 0.0
    ensures Scales(q, b, a)
  {
    a / b
  }

  function Prefix(xs: seq<real>): (r: seq<real>)
    requires |xs| >= 1
    ensures |r| == |xs| - 1
    ensures forall k :: 0 <= k < |r| ==> r[k] == xs[k]
    ensures StrictlyIncreasing(xs) ==> StrictlyIncreasing(r)
  {
    xs[..|xs| - 1]
  }

  /** The query times: those given, or the score time of every group. */
  function QueryTimes(a: Aligned, inputOnsets: Option<seq<real>>): (q: seq<real>)
    requires WellAligned(a)
    ensures inputOnsets.Some? ==> q == inputOnsets.value
    ensures inputOnsets.None? ==> |q| == |a.groups| && forall g :: 0 <= g < |q| ==> q[g] == a.scoreTimes[g]
  {
    if inputOnsets.Some? then inputOnsets.value else Prefix(a.scoreTimes)
  }

  /**
   * tempo_by_average: the beat period of every segment, read by linear
   * interpolation over the segment starts and held constant beyond them.
   * Without query times, the curve is sampled at the score time of every
   * group.
   */
  function TempoByAverage(so: seq<real>, po: seq<real>, sd: seq<real>, pd: seq<real>,
                          groups: Option<seq<seq<nat>>>, inputOnsets: Option<seq<real>>): (r: Result<TempoCurve>)
    ensures Align(so, po, sd, pd, groups).Err? ==> r == Err(Align(so, po, sd, pd, groups).error)
    ensures Align(so, po, sd, pd, groups).Ok? ==> r == AverageCurve(Align(so, po, sd, pd, groups).value, inputOnsets)
  {
    match Align(so, po, sd, pd, groups)
    case Err(e) => Err(e)
    case Ok(a) => AverageCurve(a, inputOnsets)
  }

  /**
   * The second half of tempo_by_average. With a single monotonized point
   * there is no segment and interp1d has no knot.
   */
  function AverageCurve(a: Aligned, inputOnsets: Option<seq<real>>): (r: Result<TempoCurve>)
    requires WellAligned(a)
    ensures r.Ok? <==> |a.scoreMono| >= 2
    ensures r.Ok? ==> r.value.groups == a.groups && r.value.inputOnsets == QueryTimes(a, inputOnsets)
    ensures r.Ok? ==> |r.value.curve| == |r.value.inputOnsets|
  {
    var bp := BeatPeriods(a.perfMono, a.scoreMono);
    var input := QueryTimes(a, inputOnsets);
    match Interpolate(Prefix(a.scoreMono), bp, HoldEnds, input)
    case Err(e) => Err(e)
    case Ok(curve) => Ok(TempoCurve(curve, input, a.groups))
  }

  /** scipy's derivative(f, x, dx=0.5) with three points: a central difference. */
  function OnsetSlope(score: seq<real>, perf: seq<real>, x: real): (d: real)
    requires |score| == |perf| >= 2 && StrictlyIncreasing(score)
    ensures StrictlyIncreasing(perf) ==> d > 0.0
  {
    var hi, lo := InterpAt(score, perf, x + Dx, Extrapolate), InterpAt(score, perf, x - Dx, Extrapolate);
    if StrictlyIncreasing(perf) then ExtrapolateRises(score, perf, x - Dx, x + Dx); (hi - lo) / (2.0 * Dx)
    else (hi - lo) / (2.0 * Dx)
  }

  /**
   * tempo_by_derivative: the slope of performed time against score time,
   * with the monotonized points joined by straight lines and the first and
   * last line extended.
   */
  function TempoByDerivative(so: seq<real>, po: seq<real>, sd: seq<real>, pd: seq<real>,
                             groups: Option<seq<seq<nat>>>, inputOnsets: Option<seq<real>>): (r: Result<TempoCurve>)
    ensures Align(so, po, sd, pd, groups).Err? ==> r == Err(Align(so, po, sd, pd, groups).error)
    ensures Align(so, po, sd, pd, groups).Ok? ==> r == DerivativeCurve(Align(so, po, sd, pd, groups).value, inputOnsets)
  {
    match Align(so, po, sd, pd, groups)
    case Err(e) => Err(e)
    case Ok(a) => DerivativeCurve(a, inputOnsets)
  }

  /**
   * The second half of tempo_by_derivative. A single monotonized point has
   * no line through it.
   */
  function DerivativeCurve(a: Aligned, inputOnsets: Option<seq<real>>): (r: Result<TempoCurve>)
    requires WellAligned(a)
    ensures r.Ok? <==> |a.scoreMono| >= 2
    ensures r.Ok? ==> r.value.groups == a.groups && r.value.inputOnsets == QueryTimes(a, inputOnsets)
    ensures r.Ok? ==> |r.value.curve| == |r.value.inputOnsets|
  {
    if |a.scoreMono| < 2 then Err(DegenerateInput)
    else
      var input := QueryTimes(a, inputOnsets);
      var curve := seq(|input|, k requires 0 <= k < |input| => OnsetSlope(a.scoreMono, a.perfMono, input[k]));
      Ok(TempoCurve(curve, input, a.groups))
  }

  // ---------------------------------------------------------------------
  // Properties

  /**
   * With the default grouping, notes with onsets and durations of matching
   * lengths always align: the groups partition the notes and the score
   * times strictly increase.
   */
  lemma {:induction false} DefaultAlignSucceeds(so: seq<real>, po: seq<real>, sd: seq<real>, pd: seq<real>)
    requires |so| == |sd| == |po| == |pd| > 0
    ensures Align(so, po, sd, pd, None).Ok?
    ensures IsPartition(Align(so, po, sd, pd, None).value.groups, |so|)
  {
    var keys := QuantizedKeys(so);
    var gs := DefaultGroups(so);
    assert IsPartition(gs, |keys|);
    QuantizedGroupsAscend(so);
    UniqueOnsetsIncrease(so, Add(so, sd), gs);
    assert UniqueTimes(so, sd, gs).Ok?;
    assert UniqueTimes(po, pd, gs).Ok?;
  }

  /** Every value of the average tempo curve is a positive beat period. */
  lemma {:induction false} AverageCurvePositive(a: Aligned, inputOnsets: Option<seq<real>>)
    requires WellAligned(a) && AverageCurve(a, inputOnsets).Ok?
    ensures forall k :: 0 <= k < |AverageCurve(a, inputOnsets).value.curve| ==> AverageCurve(a, inputOnsets).value.curve[k] > 0.0
  {
    var bp := BeatPeriods(a.perfMono, a.scoreMono);
    var knots := Prefix(a.scoreMono);
    var input := QueryTimes(a, inputOnsets);
    var curve := AverageCurve(a, inputOnsets).value.curve;
    BeatPeriodsPositive(a.perfMono, a.scoreMono);
    assert Interpolate(knots, bp, HoldEnds, input) == Ok(curve);
    forall k | 0 <= k < |curve| ensures curve[k] > 0.0 {
      HoldEndsWithin(knots, bp, input[k], Min(bp), Max(bp));
    }
  }

  lemma {:induction false} TempoByAveragePositive(so: seq<real>, po: seq<real>, sd: seq<real>, pd: seq<real>,
                               groups: Option<seq<seq<nat>>>, inputOnsets: Option<seq<real>>)
    requires TempoByAverage(so, po, sd, pd, groups, inputOnsets).Ok?
    ensures var curve := TempoByAverage(so, po, sd, pd, groups, inputOnsets).value.curve;
      forall k :: 0 <= k < |curve| ==> curve[k] > 0.0
  {
    AverageCurvePositive(Align(so, po, sd, pd, groups).value, inputOnsets);
  }

  /**
   * When the monotonizer keeps every point, the average tempo at the score
   * time of each group is the performed inter-onset interval divided by the
   * score inter-onset interval.
   */
  lemma {:induction false} AverageCurveIsIoiRatio(a: Aligned)
    requires WellAligned(a) && |a.groups| >= 1
    requires a.perfMono == a.perfTimes && a.scoreMono == a.scoreTimes
    ensures AverageCurve(a, None).Ok?
    ensures IoiRatios(AverageCurve(a, None).value.curve, a.perfTimes, a.scoreTimes)
  {
    var perf, score := a.perfTimes, a.scoreTimes;
    var curve := AverageCurve(a, None).value.curve;
    assert Interpolate(Prefix(score), BeatPeriods(perf, score), HoldEnds, QueryTimes(a, None)) == Ok(curve);
    HeldCurveAtKnots(perf, score, curve);
  }

  lemma {:induction false} HeldCurveAtKnots(perf: seq<real>, score: seq<real>, curve: seq<real>)
    requires |perf| == |score| >= 2 && StrictlyIncreasing(score) && |curve| == |score| - 1
    requires forall g :: 0 <= g < |curve| ==>
      curve[g] == InterpAt(Prefix(score), BeatPeriods(perf, score), score[g], HoldEnds)
    ensures IoiRatios(curve, perf, score)
  {
    forall g | 0 <= g < |curve|
      ensures curve[g] == (perf[g + 1] - perf[g]) / (score[g + 1] - score[g])
    {
      BeatPeriodAtKnot(perf, score, g);
    }
  }

  /** Sampled at the start of a segment, the held interpolant gives that segment's beat period. */
  lemma {:induction false} BeatPeriodAtKnot(perf: seq<real>, score: seq<real>, g: nat)
    requires |perf| == |score| >= 2 && StrictlyIncreasing(score) && g < |score| - 1
    ensures InterpAt(Prefix(score), BeatPeriods(perf, score), score[g], HoldEnds)
         == (perf[g + 1] - perf[g]) / (score[g + 1] - score[g])
  {
    var knots := Prefix(score);
    assert knots[g] == score[g];
    BeatPeriodIsRatio(perf, score, g);
    InterpAtKnot(knots, BeatPeriods(perf, score), g, HoldEnds);
  }

  lemma {:induction false} BeatPeriodIsRatio(perf: seq<real>, score: seq<real>, g: nat)
    requires |perf| == |score| >= 2 && StrictlyIncreasing(score) && g < |score| - 1
    ensures BeatPeriods(perf, score)[g] == (perf[g + 1] - perf[g]) / (score[g + 1] - score[g])
  {
    var bp := BeatPeriods(perf, score);
    var num, den := perf[g + 1] - perf[g], score[g + 1] - score[g];
    assert Scales(bp[g], den, num);
    RatioIsQuotient(bp[g], num, den);
  }

  /**
   * One value per segment between neighbouring times, each the performed
   * interval over the score interval.
   */
  predicate IoiRatios(curve: seq<real>, perf: seq<real>, score: seq<real>) {
    && |perf| == |score| == |curve| + 1
    && StrictlyIncreasing(score)
    && forall g :: 0 <= g < |curve| ==> curve[g] == (perf[g + 1] - perf[g]) / (score[g + 1] - score[g])
  }

  lemma {:induction false} RatioIsQuotient(q: real, a: real, b: real)
    requires b > 0.0 && Scales(q, b, a)
    ensures q == a / b
  {
  }

  /**
   * With the default grouping and performed group times that strictly
   * increase, tempo_by_average sampled at the groups is the ratio of
   * performed to score inter-onset intervals.
   */
  lemma {:induction false} TempoByAverageIsIoiRatio(so: seq<real>, po: seq<real>, sd: seq<real>, pd: seq<real>)
    requires |so| == |sd| == |po| == |pd| > 0
    requires Align(so, po, sd, pd, None).Ok? && StrictlyIncreasing(Align(so, po, sd, pd, None).value.perfTimes)
    ensures TempoByAverage(so, po, sd, pd, None, None).Ok?
    ensures IoiRatios(TempoByAverage(so, po, sd, pd, None, None).value.curve,
                      Align(so, po, sd, pd, None).value.perfTimes, Align(so, po, sd, pd, None).value.scoreTimes)
  {
    var a := Align(so, po, sd, pd, None).value;
    assert AlignedFacts(so, po, sd, pd, a) && WellAligned(a);
    assert MonotonizedPair(a.perfTimes, a.scoreTimes) == (a.perfMono, a.scoreMono);
    RisingTimesKept(a);
    assert |a.groups| >= 1 by {
      assert a.groups == DefaultGroups(so);
    }
    AverageCurveIsIoiRatio(a);
    assert TempoByAverage(so, po, sd, pd, None, None) == AverageCurve(a, None);
  }

  /** Strictly rising performed times pass the monotonizer unchanged. */
  lemma {:induction false} RisingTimesKept(a: Aligned)
    requires |a.perfTimes| > 0 && |a.scoreTimes| == |a.perfTimes|
    requires StrictlyIncreasing(a.scoreTimes) && StrictlyIncreasing(a.perfTimes)
    requires MonotonizedPair(a.perfTimes, a.scoreTimes) == (a.perfMono, a.scoreMono)
    ensures a.perfMono == a.perfTimes && a.scoreMono == a.scoreTimes
  {
    MonotonizedKeepsRisingInput(a.perfTimes, a.scoreTimes);
  }

  /** Every value of the derivative tempo curve is positive. */
  lemma {:induction false} DerivativeCurvePositive(a: Aligned, inputOnsets: Option<seq<real>>)
    requires WellAligned(a) && DerivativeCurve(a, inputOnsets).Ok?
    ensures forall k :: 0 <= k < |DerivativeCurve(a, inputOnsets).value.curve| ==> DerivativeCurve(a, inputOnsets).value.curve[k] > 0.0
  {
    var input := QueryTimes(a, inputOnsets);
    var curve := DerivativeCurve(a, inputOnsets).value.curve;
    forall k | 0 <= k < |curve| ensures curve[k] > 0.0 {
      ExtrapolateRises(a.scoreMono, a.perfMono, input[k] - Dx, input[k] + Dx);
    }
  }

  lemma {:induction false} TempoByDerivativePositive(so: seq<real>, po: seq<real>, sd: seq<real>, pd: seq<real>,
                                  groups: Option<seq<seq<nat>>>, inputOnsets: Option<seq<real>>)
    requires TempoByDerivative(so, po, sd, pd, groups, inputOnsets).Ok?
    ensures var curve := TempoByDerivative(so, po, sd, pd, groups, inputOnsets).value.curve;
      forall k :: 0 <= k < |curve| ==> curve[k] > 0.0
  {
    DerivativeCurvePositive(Align(so, po, sd, pd, groups).value, inputOnsets);
  }

  /** Which of the two estimates a time codec uses. */
  datatype TempoStrategy = ByAverage | ByDerivative

  function TempoOf(strategy: TempoStrategy, so: seq<real>, po: seq<real>, sd: seq<real>, pd: seq<real>,
                   groups: Option<seq<seq<nat>>>, inputOnsets: Option<seq<real>>): (r: Result<TempoCurve>)
    ensures r.Ok? ==> forall k :: 0 <= k < |r.value.curve| ==> r.value.curve[k] > 0.0
  {
    match strategy
    case ByAverage =>
      var t := TempoByAverage(so, po, sd, pd, groups, inputOnsets);
      if t.Err? then t else TempoByAveragePositive(so, po, sd, pd, groups, inputOnsets); t
    case ByDerivative =>
      var t := TempoByDerivative(so, po, sd, pd, groups, inputOnsets);
      if t.Err? then t else TempoByDerivativePositive(so, po, sd, pd, groups, inputOnsets); t
  }

  /**
   * What an encoder may rely on when a tempo estimate with the default
   * grouping and default query times succeeds.
   */
  ghost predicate EncodableTempo(so: seq<real>, po: seq<real>, sd: seq<real>, pd: seq<real>, t: TempoCurve) {
    && |so| == |sd| && |po| == |pd|
    && t.groups == DefaultGroups(so)
    && |t.groups| >= 1 && |t.curve| == |t.groups| && |t.inputOnsets| == |t.groups|
    && ValidGroups(t.groups, |so|) && ValidGroups(t.groups, |po|)
    && (forall k :: 0 <= k < |t.curve| ==> t.curve[k] > 0.0)
    && UniqueTimes(so, sd, t.groups).Ok?
    && (forall g :: 0 <= g < |t.groups| ==> t.inputOnsets[g] == UniqueTimes(so, sd, t.groups).value[g])
  }

  /**
   * A successful estimate with the default grouping gives one positive
   * beat period per group, sampled at the score time of the group.
   */
  lemma {:induction false} DefaultTempoFacts(strategy: TempoStrategy, so: seq<real>, po: seq<real>, sd: seq<real>, pd: seq<real>)
    requires TempoOf(strategy, so, po, sd, pd, None, None).Ok?
    ensures EncodableTempo(so, po, sd, pd, TempoOf(strategy, so, po, sd, pd, None, None).value)
  {
    var a := Align(so, po, sd, pd, None).value;
    assert AlignedFacts(so, po, sd, pd, a) && WellAligned(a);
    var t := TempoOf(strategy, so, po, sd, pd, None, None).value;
    match strategy
    case ByAverage =>
      assert t == AverageCurve(a, None).value;
      AverageCurvePositive(a, None);
    case ByDerivative =>
      assert t == DerivativeCurve(a, None).value;
      DerivativeCurvePositive(a, None);
  }
}

=== FILE: tempo_normalization.dfy ===
/**
 * The tempo normalizations: how a beat-period curve becomes the tempo
 * parameter and back. Each keeps its parameter name; the standardized one
 * needs the standard deviation of the original curve to scale back.
 */
module TempoNormalization {
  import opened Results
  import opened Numerics

  datatype Normalization =
    | Plain(name: string)    // TempoNormalization(name): the beat period itself
    | LogBp                  // LogTempoNormalization
    | Standardized           // StandardTempoNormalization
    | MeanRatio              // MeanTempoNormalization
    | LogRatio               // LogRelTempoNormalization

  /** The parameter name each normalization gives the tempo column. */
  function Name(norm: Normalization): (s: string)
    ensures norm.Plain? ==> s == norm.name
    ensures norm == LogBp ==> s == "log_bp"
    ensures norm == Standardized ==> s == "standardized_bp"
    ensures norm == MeanRatio ==> s == "bpr"
    ensures norm == LogRatio ==> s == "log_bpr"
  {
    match norm
    case Plain(name) => name
    case LogBp => "log_bp"
    case Standardized => "standardized_bp"
    case MeanRatio => "bpr"
    case LogRatio => "log_bpr"
  }

  /** The default normalization of a time codec: the plain beat period. */
  const Default: Normalization := Plain("beat_period")

  function Log2All(tx: Transcendentals, xs: seq<real>): (r: seq<real>)
    ensures |r| == |xs|
    ensures forall k :: 0 <= k < |xs| ==> r[k] == tx.log2(xs[k])
  {
    seq(|xs|, k requires 0 <= k < |xs| => tx.log2(xs[k]))
  }

  function Pow2All(tx: Transcendentals, xs: seq<real>): (r: seq<real>)
    ensures |r| == |xs|
    ensures forall k :: 0 <= k < |xs| ==> r[k] == tx.pow2(xs[k])
  {
    seq(|xs|, k requires 0 <= k < |xs| => tx.pow2(xs[k]))
  }

  /** Every entry divided by `c`. */
  function Scale(xs: seq<real>, c: real): (r: seq<real>)
    requires c != 0.0
    ensures |r| == |xs|
    ensures forall k :: 0 <= k < |xs| ==> r[k] * c == xs[k]
  {
    seq(|xs|, k requires 0 <= k < |xs| => xs[k] / c)
  }

  /**
   * normalize_tempo. An empty curve normalizes to an empty curve (numpy
   * divides an empty array by the nan mean of nothing); a division by a
   * zero mean or deviation has no value.
   */
  function Normalize(tx: Transcendentals, norm: Normalization, curve: seq<real>): (r: Result<seq<real>>)
    ensures r.Ok? <==> norm.Plain? || norm == LogBp || |curve| == 0
                       || ((norm == Standardized ==> Std(tx, curve) != 0.0)
                           && (norm != Standardized ==> Mean(curve) != 0.0))
    ensures |curve| == 0 ==> r == Ok([])
    ensures r.Err? ==> r.error == DegenerateInput
    ensures r.Ok? ==> |r.value| == |curve|
  {
    match norm
    case Plain(_) => Ok(curve)
    case LogBp => Ok(Log2All(tx, curve))
    case Standardized =>
      if |curve| == 0 then Ok([])
      else if Std(tx, curve) == 0.0 then Err(DegenerateInput)
      else Ok(Scale(Shift(curve, Mean(curve)), Std(tx, curve)))
    case MeanRatio =>
      if |curve| == 0 then Ok([])
      else if Mean(curve) == 0.0 then Err(DegenerateInput)
      else Ok(Scale(curve, Mean(curve)))
    case LogRatio =>
      if |curve| == 0 then Ok([])
      else if Mean(curve) == 0.0 then Err(DegenerateInput)
      else Ok(Log2All(tx, Scale(curve, Mean(curve))))
  }

  /**
   * With a lawful square root, the standardized normalization refuses
   * exactly the non-empty constant curves, where numpy divides 0 by a zero
   * deviation.
   */
  lemma {:induction false} StandardizedRefusesConstant(tx: Transcendentals, curve: seq<real>)
    requires Lawful(tx)
    ensures Normalize(tx, Standardized, curve).Err?
            <==> |curve| > 0 && forall k :: 0 <= k < |curve| ==> curve[k] == curve[0]
  {
    if |curve| > 0 {
      StdZeroIffConstant(tx, curve);
    }
  }

  /**
   * rescale_tempo(tempo_param, mean_beat_period, *side). The standardized
   * normalization takes the standard deviation as one more argument and
   * fails without it; the log and ratio normalizations take no more
   * arguments; the plain one accepts and ignores them.
   */
  function Rescale(tx: Transcendentals, norm: Normalization, param: seq<real>, meanBp: real,
                   side: Option<real>): (r: Result<seq<real>>)
    ensures norm == Standardized && side.None? ==> r == Err(MissingSideParameter)
    ensures !norm.Plain? && norm != Standardized && side.Some? ==> r == Err(UnexpectedSideParameter)
    ensures r.Ok? <==> norm.Plain? || (norm == Standardized <==> side.Some?)
    ensures r.Ok? ==> |r.value| == |param|
  {
    match norm
    case Plain(_) => Ok(param)
    case Standardized =>
      if side.None? then Err(MissingSideParameter)
      else Ok(seq(|param|, k requires 0 <= k < |param| => param[k] * side.value + meanBp))
    case LogBp =>
      if side.Some? then Err(UnexpectedSideParameter) else Ok(Pow2All(tx, param))
    case MeanRatio =>
      if side.Some? then Err(UnexpectedSideParameter)
      else Ok(seq(|param|, k requires 0 <= k < |param| => param[k] * meanBp))
    case LogRatio =>
      if side.Some? then Err(UnexpectedSideParameter)
      else Ok(seq(|param|, k requires 0 <= k < |param| => tx.pow2(param[k]) * meanBp))
  }

  /** The extra argument the decoder hands to rescale_tempo to undo `norm` on `curve`. */
  function SideFor(tx: Transcendentals, norm: Normalization, curve: seq<real>): (side: Option<real>)
    requires |curve| > 0
    ensures side.Some? <==> norm == Standardized
    ensures side.Some? ==> side.value == Std(tx, curve)
  {
    if norm == Standardized then Some(Std(tx, curve)) else None
  }

  // ---------------------------------------------------------------------
  // Properties

  /**
   * Rescaling a normalized positive beat-period curve with its mean (and,
   * when standardized, its standard deviation) gives the curve back.
   */
  lemma {:induction false} NormalizationRoundTrip(tx: Transcendentals, norm: Normalization, curve: seq<real>)
    requires Lawful(tx) && |curve| > 0
    requires forall k :: 0 <= k < |curve| ==> curve[k] > 0.0
    requires Normalize(tx, norm, curve).Ok?
    ensures Rescale(tx, norm, Normalize(tx, norm, curve).value, Mean(curve), SideFor(tx, norm, curve)) == Ok(curve)
  {
    match norm
    case Plain(_) =>
    case LogBp => LogRoundTrip(tx, curve);
    case Standardized => StandardRoundTrip(tx, curve);
    case MeanRatio => MeanRatioRoundTrip(tx, curve);
    case LogRatio => LogRatioRoundTrip(tx, curve);
  }

  lemma {:induction false} LogRoundTrip(tx: Transcendentals, curve: seq<real>)
    requires Lawful(tx)
    requires forall k :: 0 <= k < |curve| ==> curve[k] > 0.0
    ensures Pow2All(tx, Log2All(tx, curve)) == curve
  {
    var back := Pow2All(tx, Log2All(tx, curve));
    forall k | 0 <= k < |curve| ensures back[k] == curve[k] {
      assert back[k] == tx.pow2(tx.log2(curve[k]));
    }
  }

  lemma {:induction false} StandardRoundTrip(tx: Transcendentals, curve: seq<real>)
    requires |curve| > 0 && Std(tx, curve) != 0.0
    ensures var param := Normalize(tx, Standardized, curve).value;
      Rescale(tx, Standardized, param, Mean(curve), Some(Std(tx, curve))) == Ok(curve)
  {
    UnstandardizeInverts(tx, curve, Mean(curve), Std(tx, curve));
  }

  /** x * sigma + mu undoes (x - mu) / sigma for any non-zero sigma. */
  lemma {:induction false} UnstandardizeInverts(tx: Transcendentals, curve: seq<real>, mu: real, sigma: real)
    requires sigma != 0.0
    ensures Rescale(tx, Standardized, Scale(Shift(curve, mu), sigma), mu, Some(sigma)) == Ok(curve)
  {
    var param := Scale(Shift(curve, mu), sigma);
    var back := Rescale(tx, Standardized, param, mu, Some(sigma)).value;
    forall k | 0 <= k < |curve| ensures back[k] == curve[k] {
      assert param[k] * sigma == curve[k] - mu;
    }
    assert back == curve;
  }

  lemma {:induction false} MeanRatioRoundTrip(tx: Transcendentals, curve: seq<real>)
    requires |curve| > 0 && Mean(curve) != 0.0
    ensures var param := Normalize(tx, MeanRatio, curve).value;
      Rescale(tx, MeanRatio, param, Mean(curve), None) == Ok(curve)
  {
    var param := Normalize(tx, MeanRatio, curve).value;
    var back := Rescale(tx, MeanRatio, param, Mean(curve), None).value;
    forall k | 0 <= k < |curve| ensures back[k] == curve[k] {
      assert param[k] * Mean(curve) == curve[k];
    }
    assert back == curve;
  }

  lemma {:induction false} LogRatioRoundTrip(tx: Transcendentals, curve: seq<real>)
    requires Lawful(tx) && |curve| > 0
    requires forall k :: 0 <= k < |curve| ==> curve[k] > 0.0
    ensures Mean(curve) > 0.0
    ensures var param := Normalize(tx, LogRatio, curve).value;
      Rescale(tx, LogRatio, param, Mean(curve), None) == Ok(curve)
  {
    var mu := Mean(curve);
    MeanWithin(curve, Min(curve), Max(curve));
    var ratio := Scale(curve, mu);
    RatiosPositive(curve, mu);
    var param := Normalize(tx, LogRatio, curve).value;
    assert param == Log2All(tx, ratio);
    ScaledLogRoundTrip(tx, curve, mu);
  }

  lemma {:induction false} RatiosPositive(curve: seq<real>, mu: real)
    requires mu > 0.0
    requires forall k :: 0 <= k < |curve| ==> curve[k] > 0.0
    ensures forall k :: 0 <= k < |curve| ==> Scale(curve, mu)[k] > 0.0
  {
    var ratio := Scale(curve, mu);
    forall k | 0 <= k < |curve| ensures ratio[k] > 0.0 {
      PositiveOverPositive(curve[k], mu, ratio[k]);
    }
  }

  lemma {:induction false} ScaledLogRoundTrip(tx: Transcendentals, curve: seq<real>, mu: real)
    requires Lawful(tx) && mu > 0.0
    requires forall k :: 0 <= k < |curve| ==> Scale(curve, mu)[k] > 0.0
    ensures Rescale(tx, LogRatio, Log2All(tx, Scale(curve, mu)), mu, None) == Ok(curve)
  {
    var ratio := Scale(curve, mu);
    var back := Rescale(tx, LogRatio, Log2All(tx, ratio), mu, None).value;
    forall k | 0 <= k < |curve| ensures back[k] == curve[k] {
      assert back[k] == tx.pow2(tx.log2(ratio[k])) * mu;
      assert ratio[k] * mu == curve[k];
    }
    assert back == curve;
  }

  lemma {:induction false} PositiveOverPositive(a: real, c: real, q: real)
    requires a > 0.0 && c > 0.0 && q * c == a
    ensures q > 0.0
  {
  }

  /** Normalizing a rescaled log parameter gives the parameter back. */
  lemma {:induction false} LogNormalizationInverts(tx: Transcendentals, param: seq<real>)
    requires Lawful(tx)
    ensures Normalize(tx, LogBp, Rescale(tx, LogBp, param, 0.0, None).value) == Ok(param)
  {
    var back := Rescale(tx, LogBp, param, 0.0, None).value;
    forall k | 0 <= k < |param| ensures Log2All(tx, back)[k] == param[k] {
      assert back[k] == tx.pow2(param[k]);
    }
    assert Log2All(tx, back) == param;
  }
}

=== FILE: time_codecs.dfy ===
/**
 * TimeCodec: the time-related expressive parameters of every note, a row
 * of (tempo parameter, timing, log articulation), and the way back from
 * the rows and the score to performed onsets and durations.
 */
module TimeCodecs {
  import opened Results
  import opened Numerics
  import opened OnsetGroups
  import opened UniqueSeqs
  import opened Tempo
  import opened Articulation
  import opened TempoNormalization

  /** The parameter_names argument: 'auto', a list of names, a tuple of names, or anything else. */
  datatype ParameterNames = Auto | NameList(names: seq<string>) | NameTuple(names: seq<string>) | Unsupported

  /**
   * A TimeCodec. `namesAreList` records that parameter_names is the list
   * the caller passed in; 'auto' names and given tuples are tuples.
   */
  datatype TimeCodec = TimeCodec(parameterNames: seq<string>, namesAreList: bool,
                                 strategy: TempoStrategy, normalization: Normalization)

  /**
   * TimeCodec(parameter_names, tempo_fun, normalization). Without a
   * normalization the plain beat period is used.
   */
  function NewTimeCodec(names: ParameterNames, strategy: TempoStrategy, normalization: Option<Normalization>): (r: Result<TimeCodec>)
    ensures names == Unsupported <==> r == Err(UnknownConfiguration)
    ensures r.Ok? ==> r.value.strategy == strategy
    ensures r.Ok? ==> r.value.normalization == if normalization.Some? then normalization.value else Default
    ensures r.Ok? ==> (r.value.namesAreList <==> names.NameList?)
    ensures names == Auto ==> r.Ok? && r.value.parameterNames == [Name(r.value.normalization), "timing", "log_articulation"]
    ensures names.NameList? || names.NameTuple? ==> r.Ok? && r.value.parameterNames == names.names
  {
    var norm := if normalization.Some? then normalization.value else Default;
    match names
    case Auto => Ok(TimeCodec([Name(norm), "timing", "log_articulation"], false, strategy, norm))
    case NameList(given) => Ok(TimeCodec(given, true, strategy, norm))
    case NameTuple(given) => Ok(TimeCodec(given, false, strategy, norm))
    case Unsupported => Err(UnknownConfiguration)
  }

  // ---------------------------------------------------------------------
  // Encoding

  /** The parameter matrix (one row of three per note), the mean beat period and the groups. */
  datatype Encoding = Encoding(parameters: seq<seq<real>>, meanBeatPeriod: real, groups: seq<seq<nat>>)

  /**
   * eq_onsets: the performed time of every group if the beat period held
   * steady within each group's interval, starting at `start`.
   */
  function EquivalentOnsets(bp: seq<real>, sOnsets: seq<real>, start: real): (eq: seq<real>)
    requires |bp| == |sOnsets| >= 1
    ensures |eq| == |bp|
    ensures eq[0] == start
    ensures forall i :: 0 <= i < |bp| - 1 ==> eq[i + 1] == eq[i] + Span(bp[i], Diff(sOnsets)[i])
  {
    var sums := PrefixSums(ScoreSteps(bp, sOnsets));
    seq(|bp|, i requires 0 <= i < |bp| => sums[i] + start)
  }

  /** The performed length of a score interval played at beat period `b`. */
  function Span(b: real, interval: real): real {
    b * interval
  }

  /** bp[:-1] * np.diff(s_onsets). */
  function ScoreSteps(bp: seq<real>, sOnsets: seq<real>): (steps: seq<real>)
    requires |bp| == |sOnsets| >= 1
    ensures |steps| == |bp| - 1
    ensures forall k :: 0 <= k < |steps| ==> steps[k] == Span(bp[k], Diff(sOnsets)[k])
  {
    var d := Diff(sOnsets);
    seq(|bp| - 1, k requires 0 <= k < |bp| - 1 => Span(bp[k], d[k]))
  }

  /**
   * The row of note j: the tempo parameter of its group, its timing (how
   * far it lies before its group's equivalent onset) and its articulation.
   * A note in no group keeps zeros in the first two columns.
   */
  function ParamRow(groups: seq<seq<nat>>, tp: seq<real>, eq: seq<real>, po: seq<real>, art: seq<real>, j: nat): (row: seq<real>)
    requires |tp| == |eq| == |groups| && j < |po| && j < |art|
    ensures |row| == 3 && row[2] == art[j]
    ensures var w := WriterOf(groups, |groups|, j); w >= 0 ==> row[0] == tp[w] && row[1] + po[j] == eq[w]
    ensures WriterOf(groups, |groups|, j) < 0 ==> row[0] == 0.0 && row[1] == 0.0
  {
    var w := WriterOf(groups, |groups|, j);
    if w < 0 then [0.0, 0.0, art[j]] else [tp[w], eq[w] - po[j], art[j]]
  }

  /**
   * TimeCodec.encode: the score and the performed onsets must have the
   * same shape; the tempo estimate runs with the default grouping and is
   * sampled at the groups.
   */
  function EncodeTime(tx: Transcendentals, codec: TimeCodec, so: seq<real>, po: seq<real>, sd: seq<real>,
                      pd: seq<real>): (r: Result<Encoding>)
    ensures |so| != |po| ==> r == Err(ShapeMismatch)
    ensures |so| == |po| && TempoOf(codec.strategy, so, po, sd, pd, None, None).Err? ==>
      r == Err(TempoOf(codec.strategy, so, po, sd, pd, None, None).error)
    ensures r.Ok? ==> |so| == |po| && TempoOf(codec.strategy, so, po, sd, pd, None, None).Ok?
    ensures r.Ok? ==> |r.value.parameters| == |so|
    ensures r.Ok? ==> EncodableTempo(so, po, sd, pd, TempoOf(codec.strategy, so, po, sd, pd, None, None).value)
  {
    if |so| != |po| then Err(ShapeMismatch)
    else
      match TempoOf(codec.strategy, so, po, sd, pd, None, None)
      case Err(e) => Err(e)
      case Ok(t) =>
        DefaultTempoFacts(codec.strategy, so, po, sd, pd);
        EncodeWith(tx, codec.normalization, so, po, sd, pd, t)
  }

  /** The rest of the encoding once the tempo curve is known. */
  function EncodeWith(tx: Transcendentals, norm: Normalization, so: seq<real>, po: seq<real>, sd: seq<real>,
                      pd: seq<real>, t: TempoCurve): (r: Result<Encoding>)
    requires |so| == |po| && EncodableTempo(so, po, sd, pd, t)
    ensures r.Ok? <==> Normalize(tx, norm, t.curve).Ok?
    ensures r.Ok? ==> |r.value.parameters| == |so|
    ensures r.Ok? ==> r.value.meanBeatPeriod == Mean(t.curve) && r.value.groups == t.groups
  {
    var eq := EquivalentOnsets(t.curve, t.inputOnsets, Mean(Gather(po, t.groups[0])));
    match Normalize(tx, norm, t.curve)
    case Err(e) => Err(e)
    case Ok(tp) =>
      TempoArticulable(so, po, sd, pd, t);
      var art := Articulations(tx, sd, pd, t.groups, t.curve, |t.groups|);
      Ok(Encoding(seq(|so|, j requires 0 <= j < |so| => ParamRow(t.groups, tp, eq, po, art, j)),
                  Mean(t.curve), t.groups))
  }

  /** Every group of a successful tempo estimate can be articulated. */
  lemma {:induction false} TempoArticulable(so: seq<real>, po: seq<real>, sd: seq<real>, pd: seq<real>, t: TempoCurve)
    requires |so| == |po| && EncodableTempo(so, po, sd, pd, t)
    ensures Processable(sd, pd, t.groups, t.curve, |t.groups|)
  {
    forall g | 0 <= g < |t.groups|
      ensures GroupFault(Smaller(|sd|, |pd|), t.groups[g], t.curve[g]) == None
    {
      assert t.curve[g] > 0.0;
    }
  }

  // ---------------------------------------------------------------------
  // Decoding

  /** The performance matrix: onset and duration of every note. */
  datatype Performance = Performance(onsets: seq<real>, durations: seq<real>)

  /** The first n rows exist and have at least `width` columns. */
  predicate RowsCover(params: seq<seq<real>>, n: nat, width: nat) {
    |params| >= n && forall j :: 0 <= j < n ==> |params[j]| >= width
  }

  /** Column c of the rows of a group. */
  function GroupColumn(params: seq<seq<real>>, group: seq<nat>, c: nat): (r: seq<real>)
    requires forall k :: 0 <= k < |group| ==> group[k] < |params| && c < |params[group[k]]|
    ensures |r| == |group|
    ensures forall k :: 0 <= k < |group| ==> r[k] == params[group[k]][c]
  {
    seq(|group|, k requires 0 <= k < |group| => params[group[k]][c])
  }

  /** np.mean(parameters[uix, 0]) for every group. */
  function GroupTempoParams(params: seq<seq<real>>, groups: seq<seq<nat>>, n: nat): (r: seq<real>)
    requires RowsCover(params, n, 1) && ValidGroups(groups, n)
    ensures |r| == |groups|
  {
    seq(|groups|, i requires 0 <= i < |groups| => Mean(GroupColumn(params, groups[i], 0)))
  }

  /**
   * TimeCodec.decode: the groups are formed again from the score onsets;
   * each group's tempo parameter is the mean over its notes, rescaled to a
   * beat period; equivalent onsets are accumulated from the score
   * intervals (the last one closing at the end of the piece) and every
   * note is placed its timing before its group's equivalent onset.
   * Finally the onsets are shifted so that the earliest is 0.
   */
  function DecodeTime(tx: Transcendentals, codec: TimeCodec, so: seq<real>, sd: seq<real>, params: seq<seq<real>>,
                      meanBp: real, side: Option<real>): (r: Result<Performance>)
    ensures |so| != |sd| ==> r == Err(ShapeMismatch)
    ensures |so| == |sd| == 0 ==> r == Err(EmptyInput)
    ensures |so| == |sd| > 0 && !RowsCover(params, |so|, 1) ==> r == Err(ShapeMismatch)
    ensures r.Ok? ==> |so| > 0 && RowsCover(params, |so|, 3)
    ensures r.Ok? ==> |r.value.onsets| == |r.value.durations| == |so|
  {
    if |so| != |sd| then Err(ShapeMismatch)
    else
      match GetUniqueSeq(so, Add(so, sd), None, true)
      case Err(e) => Err(e)
      case Ok(info) =>
        if !RowsCover(params, |so|, 1) then Err(ShapeMismatch)
        else
          var tp := GroupTempoParams(params, info.groups, |so|);
          match Rescale(tx, codec.normalization, tp, meanBp, side)
          case Err(e) => Err(e)
          case Ok(bp) =>
            if !RowsCover(params, |so|, 3) then Err(ShapeMismatch)
            else Ok(PlaceNotes(tx, sd, params, info.groups, info.diffUOnset.value, bp))
  }

  /** eq_onset: the running total of the performed intervals, starting at 0. */
  function DecodedEquivalentOnsets(diff: seq<real>, bp: seq<real>): (eq: seq<real>)
    requires |diff| == |bp|
    ensures |eq| == |bp| + 1
    ensures eq[0] == 0.0
    ensures forall i :: 0 <= i < |bp| ==> eq[i + 1] == eq[i] + Span(bp[i], diff[i])
  {
    PrefixSums(seq(|bp|, i requires 0 <= i < |bp| => Span(bp[i], diff[i])))
  }

  /** Onsets before the shift: each note its timing before its group's equivalent onset. */
  function RawOnsets(params: seq<seq<real>>, groups: seq<seq<nat>>, eq: seq<real>, n: nat): (raw: seq<real>)
    requires RowsCover(params, n, 3) && |eq| > |groups|
    ensures |raw| == n
  {
    seq(n, j requires 0 <= j < n =>
      var w := WriterOf(groups, |groups|, j);
      if w < 0 then 0.0 else eq[w] - params[j][1])
  }

  /** Durations: the articulation of each note decoded at its group's beat period. */
  function Durations(tx: Transcendentals, sd: seq<real>, params: seq<seq<real>>, groups: seq<seq<nat>>,
                     bp: seq<real>): (dur: seq<real>)
    requires RowsCover(params, |sd|, 3) && |bp| == |groups|
    ensures |dur| == |sd|
  {
    seq(|sd|, j requires 0 <= j < |sd| =>
      var w := WriterOf(groups, |groups|, j);
      if w < 0 then 0.0 else DecodeArticulation(tx, sd[j], params[j][2], bp[w]))
  }

  function PlaceNotes(tx: Transcendentals, sd: seq<real>, params: seq<seq<real>>, groups: seq<seq<nat>>,
                      diff: seq<real>, bp: seq<real>): (p: Performance)
    requires |sd| > 0 && RowsCover(params, |sd|, 3) && |diff| == |bp| == |groups|
    ensures |p.onsets| == |p.durations| == |sd|
  {
    var raw := RawOnsets(params, groups, DecodedEquivalentOnsets(diff, bp), |sd|);
    Performance(Shift(raw, Min(raw)), Durations(tx, sd, params, groups, bp))
  }

  // ---------------------------------------------------------------------
  // Properties

  /** The earliest decoded onset is exactly 0. */
  lemma {:induction false} DecodedOnsetsStartAtZero(tx: Transcendentals, codec: TimeCodec, so: seq<real>, sd: seq<real>,
                                 params: seq<seq<real>>, meanBp: real, side: Option<real>)
    requires DecodeTime(tx, codec, so, sd, params, meanBp, side).Ok?
    ensures Min(DecodeTime(tx, codec, so, sd, params, meanBp, side).value.onsets) == 0.0
  {
    var info := GetUniqueSeq(so, Add(so, sd), None, true).value;
    var bp := Rescale(tx, codec.normalization, GroupTempoParams(params, info.groups, |so|), meanBp, side).value;
    assert DecodeTime(tx, codec, so, sd, params, meanBp, side)
        == Ok(PlaceNotes(tx, sd, params, info.groups, info.diffUOnset.value, bp));
    PlacedOnsetsStartAtZero(tx, sd, params, info.groups, info.diffUOnset.value, bp);
  }

  lemma {:induction false} PlacedOnsetsStartAtZero(tx: Transcendentals, sd: seq<real>, params: seq<seq<real>>, groups: seq<seq<nat>>,
                                diff: seq<real>, bp: seq<real>)
    requires |sd| > 0 && RowsCover(params, |sd|, 3) && |diff| == |bp| == |groups|
    ensures Min(PlaceNotes(tx, sd, params, groups, diff, bp).onsets) == 0.0
  {
    var raw := RawOnsets(params, groups, DecodedEquivalentOnsets(diff, bp), |sd|);
    MinOfShift(raw, Min(raw));
  }

  /** In a partition every note is written, and by its own group. */
  lemma {:induction false} PartitionWriters(groups: seq<seq<nat>>, n: nat)
    requires IsPartition(groups, n)
    ensures forall j :: 0 <= j < n ==> WriterOf(groups, |groups|, j) >= 0
    ensures forall g, k :: 0 <= g < |groups| && 0 <= k < |groups[g]| ==> WriterOf(groups, |groups|, groups[g][k]) == g
  {
    PartitionFacts(groups, n);
    forall g, k | 0 <= g < |groups| && 0 <= k < |groups[g]|
      ensures WriterOf(groups, |groups|, groups[g][k]) == g
    {
      WriterOfDisjoint(groups, g, k);
    }
    forall j | 0 <= j < n ensures WriterOf(groups, |groups|, j) >= 0 {
      var g := GroupOf(groups, j);
      assert j in groups[g];
    }
  }

  /**
   * When every note's first column holds its group's value, the group
   * means of that column give the values back.
   */
  lemma {:induction false} TempoParamsRecovered(params: seq<seq<real>>, groups: seq<seq<nat>>, n: nat, tp: seq<real>)
    requires IsPartition(groups, n) && RowsCover(params, n, 1) && |tp| == |groups|
    requires forall j :: 0 <= j < n ==> WriterOf(groups, |groups|, j) >= 0
    requires forall j :: 0 <= j < n ==> params[j][0] == tp[WriterOf(groups, |groups|, j)]
    ensures GroupTempoParams(params, groups, n) == tp
  {
    PartitionWriters(groups, n);
    var means := GroupTempoParams(params, groups, n);
    forall i | 0 <= i < |groups| ensures means[i] == tp[i] {
      var column := GroupColumn(params, groups[i], 0);
      forall k | 0 <= k < |column| ensures column[k] == tp[i] {
        assert WriterOf(groups, |groups|, groups[i][k]) == i;
      }
      MeanOfConstant(column, tp[i]);
    }
  }

  /** Two sequences with the same steps differ by their starting offset throughout. */
  lemma {:induction false} SameStepsAgree(a: seq<real>, b: seq<real>, c: real, m: nat)
    requires m < |a| && m < |b| && b[0] == a[0] - c
    requires forall i :: 0 <= i < m ==> b[i + 1] - b[i] == a[i + 1] - a[i]
    ensures b[m] == a[m] - c
  {
    if m > 0 {
      SameStepsAgree(a, b, c, m - 1);
    }
  }

  /**
   * The decoder accumulates the same intervals the encoder did, so its
   * equivalent onsets are the encoder's less the encoder's start.
   */
  lemma {:induction false} EquivalentOnsetsRecovered(bp: seq<real>, su: seq<real>, sOnsets: seq<real>, c: real)
    requires |bp| >= 1 && |su| == |bp| + 1 && |sOnsets| == |bp|
    requires forall k :: 0 <= k < |bp| ==> sOnsets[k] == su[k]
    ensures forall i :: 0 <= i < |bp| ==>
      DecodedEquivalentOnsets(Diff(su), bp)[i] == EquivalentOnsets(bp, sOnsets, c)[i] - c
  {
    var enc := EquivalentOnsets(bp, sOnsets, c);
    var dec := DecodedEquivalentOnsets(Diff(su), bp);
    forall h | 0 <= h < |bp| - 1 ensures dec[h + 1] - dec[h] == enc[h + 1] - enc[h] {
      DiffsAgree(su, sOnsets, h);
      StepsMatch(bp, su, sOnsets, c, h);
    }
    forall i | 0 <= i < |bp| ensures dec[i] == enc[i] - c {
      SameStepsAgree(enc, dec, c, i);
    }
  }

  /** The decoder's h-th interval equals the encoder's. */
  lemma {:induction false} StepsMatch(bp: seq<real>, su: seq<real>, sOnsets: seq<real>, c: real, h: nat)
    requires |su| == |bp| + 1 && |sOnsets| == |bp| && h + 1 < |bp|
    requires Diff(sOnsets)[h] == Diff(su)[h]
    ensures var dec, enc := DecodedEquivalentOnsets(Diff(su), bp), EquivalentOnsets(bp, sOnsets, c);
      dec[h + 1] - dec[h] == enc[h + 1] - enc[h]
  {
    DecodedStep(Diff(su), bp, h);
    EncodedStep(bp, sOnsets, c, h);
  }

  lemma {:induction false} DiffsAgree(xs: seq<real>, ys: seq<real>, h: nat)
    requires h + 1 < |xs| && h + 1 < |ys| && xs[h] == ys[h] && xs[h + 1] == ys[h + 1]
    ensures Diff(xs)[h] == Diff(ys)[h]
  {
  }

  lemma {:induction false} DecodedStep(diff: seq<real>, bp: seq<real>, h: nat)
    requires |diff| == |bp| && h < |bp|
    ensures DecodedEquivalentOnsets(diff, bp)[h + 1] - DecodedEquivalentOnsets(diff, bp)[h] == Span(bp[h], diff[h])
  {
  }

  lemma {:induction false} EncodedStep(bp: seq<real>, sOnsets: seq<real>, c: real, h: nat)
    requires |sOnsets| == |bp| && h + 1 < |bp|
    ensures EquivalentOnsets(bp, sOnsets, c)[h + 1] - EquivalentOnsets(bp, sOnsets, c)[h] == Span(bp[h], Diff(sOnsets)[h])
  {
  }

  /** get_unique_seq forms the same times whether the groups are passed or formed inside. */
  lemma {:induction false} UniqueTimesAgree(so: seq<real>, sd: seq<real>, groups: seq<seq<nat>>)
    requires |so| == |sd|
    requires GetUniqueSeq(so, Add(so, sd), None, true).Ok?
    requires GetUniqueSeq(so, Add(so, sd), None, true).value.groups == groups
    ensures UniqueTimes(so, sd, groups).Ok?
    ensures GetUniqueSeq(so, Add(so, sd), None, true).value.uOnset == UniqueTimes(so, sd, groups).value
  {
    var u := GetUniqueSeq(so, Add(so, sd), None, true).value.uOnset;
    var v := UniqueTimes(so, sd, groups).value;
    assert |u| == |v|;
    forall g | 0 <= g < |u| ensures u[g] == v[g] {
    }
  }

  /** The default groups of a non-empty score partition its notes. */
  lemma {:induction false} DefaultGroupsPartition(so: seq<real>)
    requires |so| > 0
    ensures IsPartition(DefaultGroups(so), |so|)
  {
    assert |QuantizedKeys(so)| == |so|;
  }

  /** Every onset comes back less the encoder's starting point. */
  lemma {:induction false} RawOnsetsRecovered(params: seq<seq<real>>, groups: seq<seq<nat>>, n: nat, eq: seq<real>, eqd: seq<real>,
                           po: seq<real>, c: real)
    requires RowsCover(params, n, 3) && |po| == n && |eq| == |groups| && |eqd| > |groups|
    requires forall g :: 0 <= g < |groups| ==> eqd[g] == eq[g] - c
    requires forall j :: 0 <= j < n ==> WriterOf(groups, |groups|, j) >= 0
    requires forall j :: 0 <= j < n ==> params[j][1] == eq[WriterOf(groups, |groups|, j)] - po[j]
    ensures RawOnsets(params, groups, eqd, n) == Shift(po, c)
  {
    var raw := RawOnsets(params, groups, eqd, n);
    forall j | 0 <= j < n ensures raw[j] == po[j] - c {
      var w := WriterOf(groups, |groups|, j);
      assert raw[j] == eqd[w] - params[j][1];
    }
  }

  /** Shifting a shifted sequence by its own minimum undoes the first shift. */
  lemma {:induction false} ShiftedBack(raw: seq<real>, po: seq<real>, c: real)
    requires |po| > 0 && raw == Shift(po, c)
    ensures Shift(raw, Min(raw)) == Shift(po, Min(po))
  {
    MinOfShift(po, c);
    var m := Min(po);
    assert Min(raw) == m - c;
    var back, want := Shift(raw, m - c), Shift(po, m);
    forall j | 0 <= j < |po| ensures back[j] == want[j] {
      assert back[j] == raw[j] - (m - c);
    }
    assert back == want;
  }

  /** In a partition every row holds its group's tempo parameter and equivalent onset. */
  lemma {:induction false} WrittenRows(params: seq<seq<real>>, groups: seq<seq<nat>>, tp: seq<real>, eq: seq<real>, po: seq<real>,
                    art: seq<real>)
    requires |tp| == |eq| == |groups| && |params| == |po| <= |art|
    requires forall j :: 0 <= j < |po| ==> WriterOf(groups, |groups|, j) >= 0
    requires forall j :: 0 <= j < |po| ==> params[j] == ParamRow(groups, tp, eq, po, art, j)
    ensures RowsCover(params, |po|, 3)
    ensures forall j :: 0 <= j < |po| ==> params[j][0] == tp[WriterOf(groups, |groups|, j)]
    ensures forall j :: 0 <= j < |po| ==> params[j][1] == eq[WriterOf(groups, |groups|, j)] - po[j]
    ensures forall j :: 0 <= j < |po| ==> params[j][2] == art[j]
  {
  }

  /** A performed duration comes back; a grace note comes back as 0. */
  lemma {:induction false} DurationsRecovered(tx: Transcendentals, sd: seq<real>, pd: seq<real>, params: seq<seq<real>>,
                           groups: seq<seq<nat>>, bp: seq<real>)
    requires Lawful(tx) && |sd| == |pd| && RowsCover(params, |sd|, 3) && |bp| == |groups|
    requires forall k :: 0 <= k < |bp| ==> bp[k] > 0.0
    requires forall j :: 0 <= j < |sd| ==> WriterOf(groups, |groups|, j) >= 0
    requires forall j :: 0 <= j < |sd| ==>
      params[j][2] == LogArticulation(tx, sd[j], pd[j], bp[WriterOf(groups, |groups|, j)])
    ensures forall j :: 0 <= j < |sd| && sd[j] > 0.0 && pd[j] > 0.0 ==> Durations(tx, sd, params, groups, bp)[j] == pd[j]
    ensures forall j :: 0 <= j < |sd| && sd[j] == 0.0 ==> Durations(tx, sd, params, groups, bp)[j] == 0.0
  {
    var dur := Durations(tx, sd, params, groups, bp);
    forall j | 0 <= j < |sd| && (sd[j] == 0.0 || (sd[j] > 0.0 && pd[j] > 0.0))
      ensures sd[j] == 0.0 ==> dur[j] == 0.0
      ensures sd[j] > 0.0 ==> dur[j] == pd[j]
    {
      var b := bp[WriterOf(groups, |groups|, j)];
      if sd[j] > 0.0 {
        PositiveRatio(pd[j], b, sd[j]);
      }
      ArticulationRoundTrip(tx, sd[j], pd[j], b);
    }
  }

  lemma {:induction false} PositiveRatio(p: real, b: real, s: real)
    requires p > 0.0 && b > 0.0 && s > 0.0
    ensures p / (b * s) > 0.0
  {
    assert b * s > 0.0;
  }

  /**
   * Decoding what the encoder produced gives back the performance: every
   * onset less the earliest one, every duration of a note with positive
   * notated and performed durations, and 0 for a grace note. The decoder
   * is handed the mean beat period the encoder returned and, for the
   * standardized normalization, the standard deviation of the beat
   * periods; it must form the same groups from the raw score onsets as the
   * encoder did from the quantized ones.
   */
  lemma {:induction false} TimeRoundTrip(tx: Transcendentals, codec: TimeCodec, so: seq<real>, po: seq<real>, sd: seq<real>,
                      pd: seq<real>, side: Option<real>)
    requires Lawful(tx)
    requires EncodeTime(tx, codec, so, po, sd, pd).Ok?
    requires GroupOnsets(so, DefaultEps) == DefaultGroups(so)
    requires side == SideFor(tx, codec.normalization, TempoOf(codec.strategy, so, po, sd, pd, None, None).value.curve)
    ensures var e := EncodeTime(tx, codec, so, po, sd, pd).value;
      var d := DecodeTime(tx, codec, so, sd, e.parameters, e.meanBeatPeriod, side);
      && d.Ok?
      && d.value.onsets == Shift(po, Min(po))
      && (forall j :: 0 <= j < |so| && sd[j] > 0.0 && pd[j] > 0.0 ==> d.value.durations[j] == pd[j])
      && (forall j :: 0 <= j < |so| && sd[j] == 0.0 ==> d.value.durations[j] == 0.0)
  {
    var t := TempoOf(codec.strategy, so, po, sd, pd, None, None).value;
    assert EncodeTime(tx, codec, so, po, sd, pd) == EncodeWith(tx, codec.normalization, so, po, sd, pd, t);
    RoundTripWith(tx, codec, so, po, sd, pd, t, side);
  }

  /** The round trip, once the tempo estimate `t` has succeeded. */
  lemma {:induction false} RoundTripWith(tx: Transcendentals, codec: TimeCodec, so: seq<real>, po: seq<real>, sd: seq<real>,
                      pd: seq<real>, t: TempoCurve, side: Option<real>)
    requires Lawful(tx) && |so| == |po| && EncodableTempo(so, po, sd, pd, t)
    requires EncodeWith(tx, codec.normalization, so, po, sd, pd, t).Ok?
    requires GroupOnsets(so, DefaultEps) == DefaultGroups(so)
    requires side == SideFor(tx, codec.normalization, t.curve)
    ensures var e := EncodeWith(tx, codec.normalization, so, po, sd, pd, t).value;
      var d := DecodeTime(tx, codec, so, sd, e.parameters, e.meanBeatPeriod, side);
      && d.Ok?
      && d.value.onsets == Shift(po, Min(po))
      && (forall j :: 0 <= j < |so| && sd[j] > 0.0 && pd[j] > 0.0 ==> d.value.durations[j] == pd[j])
      && (forall j :: 0 <= j < |so| && sd[j] == 0.0 ==> d.value.durations[j] == 0.0)
  {
    DecodeReachesPlacement(tx, codec, so, po, sd, pd, t, side);
    EncodedPlacement(tx, codec.normalization, so, po, sd, pd, t);
  }

  /** The placement of a successful encoding gives back the performed onsets and durations. */
  lemma {:induction false} EncodedPlacement(tx: Transcendentals, norm: Normalization, so: seq<real>, po: seq<real>, sd: seq<real>,
                         pd: seq<real>, t: TempoCurve)
    requires Lawful(tx) && |so| == |po| && EncodableTempo(so, po, sd, pd, t)
    requires EncodeWith(tx, norm, so, po, sd, pd, t).Ok?
    requires |so| > 0 && RowsCover(EncodeWith(tx, norm, so, po, sd, pd, t).value.parameters, |so|, 3)
    ensures var e := EncodeWith(tx, norm, so, po, sd, pd, t).value;
      var p := PlaceNotes(tx, sd, e.parameters, t.groups, Diff(UniqueTimes(so, sd, t.groups).value), t.curve);
      && p.onsets == Shift(po, Min(po))
      && (forall j :: 0 <= j < |so| && sd[j] > 0.0 && pd[j] > 0.0 ==> p.durations[j] == pd[j])
      && (forall j :: 0 <= j < |so| && sd[j] == 0.0 ==> p.durations[j] == 0.0)
  {
    var e := EncodeWith(tx, norm, so, po, sd, pd, t).value;
    var c := Mean(Gather(po, t.groups[0]));
    EncodedRowFacts(tx, norm, so, po, sd, pd, t);
    PlacedNotesRecovered(tx, sd, pd, po, e.parameters, t.groups, t.curve, UniqueTimes(so, sd, t.groups).value, t.inputOnsets, c);
  }

  /** The rows the encoder writes, once the tempo estimate `t` has succeeded. */
  lemma {:induction false} EncodedRows(tx: Transcendentals, norm: Normalization, so: seq<real>, po: seq<real>, sd: seq<real>,
                    pd: seq<real>, t: TempoCurve)
    requires |so| == |po| && EncodableTempo(so, po, sd, pd, t)
    requires EncodeWith(tx, norm, so, po, sd, pd, t).Ok?
    ensures Normalize(tx, norm, t.curve).Ok?
    ensures Processable(sd, pd, t.groups, t.curve, |t.groups|)
    ensures var e := EncodeWith(tx, norm, so, po, sd, pd, t).value;
      var eq := EquivalentOnsets(t.curve, t.inputOnsets, Mean(Gather(po, t.groups[0])));
      var art := Articulations(tx, sd, pd, t.groups, t.curve, |t.groups|);
      && |e.parameters| == |so|
      && forall j :: 0 <= j < |so| ==>
           e.parameters[j] == ParamRow(t.groups, Normalize(tx, norm, t.curve).value, eq, po, art, j)
  {
    TempoArticulable(so, po, sd, pd, t);
  }

  /** What every row of a successful encoding holds. */
  lemma {:induction false} EncodedRowFacts(tx: Transcendentals, norm: Normalization, so: seq<real>, po: seq<real>, sd: seq<real>,
                        pd: seq<real>, t: TempoCurve)
    requires |so| == |po| && EncodableTempo(so, po, sd, pd, t)
    requires EncodeWith(tx, norm, so, po, sd, pd, t).Ok?
    ensures var e, gs, bp := EncodeWith(tx, norm, so, po, sd, pd, t).value, t.groups, t.curve;
      var eq := EquivalentOnsets(bp, t.inputOnsets, Mean(Gather(po, gs[0])));
      && |so| == |sd| == |pd| == |e.parameters| > 0
      && (forall j :: 0 <= j < |so| ==> WriterOf(gs, |gs|, j) >= 0)
      && (forall j :: 0 <= j < |so| ==> |e.parameters[j]| == 3)
      && (forall j :: 0 <= j < |so| ==> e.parameters[j][1] == eq[WriterOf(gs, |gs|, j)] - po[j])
      && (forall j :: 0 <= j < |so| ==>
            e.parameters[j][2] == LogArticulation(tx, sd[j], pd[j], bp[WriterOf(gs, |gs|, j)]))
  {
    var e, gs, bp := EncodeWith(tx, norm, so, po, sd, pd, t).value, t.groups, t.curve;
    var eq := EquivalentOnsets(bp, t.inputOnsets, Mean(Gather(po, gs[0])));
    EncodedRows(tx, norm, so, po, sd, pd, t);
    EveryNoteWritten(so, po, sd, pd, t);
    RowColumns(tx, sd, pd, po, e.parameters, gs, bp, Normalize(tx, norm, bp).value, eq);
  }

  /** Every note of a successful estimate lies in one of its groups. */
  lemma {:induction false} EveryNoteWritten(so: seq<real>, po: seq<real>, sd: seq<real>, pd: seq<real>, t: TempoCurve)
    requires |so| == |po| && EncodableTempo(so, po, sd, pd, t)
    ensures |so| == |po| == |sd| == |pd| > 0
    ensures IsPartition(t.groups, |so|)
    ensures forall j :: 0 <= j < |so| ==> WriterOf(t.groups, |t.groups|, j) >= 0
  {
    assert t.groups[0][0] < |so|;
    DefaultGroupsPartition(so);
    PartitionWriters(t.groups, |so|);
  }

  /** The columns of rows built by ParamRow when every note is written. */
  lemma {:induction false} RowColumns(tx: Transcendentals, sd: seq<real>, pd: seq<real>, po: seq<real>, params: seq<seq<real>>,
                   groups: seq<seq<nat>>, bp: seq<real>, tp: seq<real>, eq: seq<real>)
    requires |sd| == |pd| == |po| == |params| && |tp| == |eq| == |groups|
    requires Processable(sd, pd, groups, bp, |groups|)
    requires forall j :: 0 <= j < |po| ==> WriterOf(groups, |groups|, j) >= 0
    requires forall j :: 0 <= j < |po| ==>
      params[j] == ParamRow(groups, tp, eq, po, Articulations(tx, sd, pd, groups, bp, |groups|), j)
    ensures forall j :: 0 <= j < |po| ==> |params[j]| == 3
    ensures forall j :: 0 <= j < |po| ==> params[j][1] == eq[WriterOf(groups, |groups|, j)] - po[j]
    ensures forall j :: 0 <= j < |po| ==>
      params[j][2] == LogArticulation(tx, sd[j], pd[j], bp[WriterOf(groups, |groups|, j)])
  {
    var art := Articulations(tx, sd, pd, groups, bp, |groups|);
    WrittenRows(params, groups, tp, eq, po, art);
    WrittenArticulations(tx, sd, pd, groups, bp);
  }

  /** With every note in a group, each note's articulation is that of its own group. */
  lemma {:induction false} WrittenArticulations(tx: Transcendentals, sd: seq<real>, pd: seq<real>, groups: seq<seq<nat>>, bp: seq<real>)
    requires Processable(sd, pd, groups, bp, |groups|)
    requires forall j :: 0 <= j < |sd| ==> WriterOf(groups, |groups|, j) >= 0
    ensures |sd| <= |pd|
    ensures forall j :: 0 <= j < |sd| ==> bp[WriterOf(groups, |groups|, j)] != 0.0
    ensures forall j :: 0 <= j < |sd| ==>
      Articulations(tx, sd, pd, groups, bp, |groups|)[j]
      == LogArticulation(tx, sd[j], pd[j], bp[WriterOf(groups, |groups|, j)])
  {
    if |sd| > 0 {
      WriterInRange(sd, pd, groups, bp, |groups|, |sd| - 1);
    }
    var art := Articulations(tx, sd, pd, groups, bp, |groups|);
    forall j | 0 <= j < |sd|
      ensures bp[WriterOf(groups, |groups|, j)] != 0.0
      ensures art[j] == LogArticulation(tx, sd[j], pd[j], bp[WriterOf(groups, |groups|, j)])
    {
      WriterInRange(sd, pd, groups, bp, |groups|, j);
    }
  }


  /**
   * The decoder, handed the encoder's output, forms the encoder's groups,
   * times and beat periods and places the notes with them.
   */
  lemma {:induction false} DecodeReachesPlacement(tx: Transcendentals, codec: TimeCodec, so: seq<real>, po: seq<real>, sd: seq<real>,
                               pd: seq<real>, t: TempoCurve, side: Option<real>)
    requires Lawful(tx) && |so| == |po| && EncodableTempo(so, po, sd, pd, t)
    requires EncodeWith(tx, codec.normalization, so, po, sd, pd, t).Ok?
    requires GroupOnsets(so, DefaultEps) == DefaultGroups(so)
    requires side == SideFor(tx, codec.normalization, t.curve)
    ensures var e := EncodeWith(tx, codec.normalization, so, po, sd, pd, t).value;
      && |e.parameters| == |so| > 0
      && RowsCover(e.parameters, |so|, 3)
      && DecodeTime(tx, codec, so, sd, e.parameters, e.meanBeatPeriod, side)
         == Ok(PlaceNotes(tx, sd, e.parameters, t.groups, Diff(UniqueTimes(so, sd, t.groups).value), t.curve))
  {
    var gs, bp, n := t.groups, t.curve, |so|;
    var e := EncodeWith(tx, codec.normalization, so, po, sd, pd, t).value;
    EncodedRows(tx, codec.normalization, so, po, sd, pd, t);
    var tp := Normalize(tx, codec.normalization, bp).value;
    var eq := EquivalentOnsets(bp, t.inputOnsets, Mean(Gather(po, gs[0])));
    var art := Articulations(tx, sd, pd, gs, bp, |gs|);
    assert gs[0][0] < n;
    DefaultGroupsPartition(so);
    PartitionWriters(gs, n);
    WrittenRows(e.parameters, gs, tp, eq, po, art);
    UniqueTimesAgree(so, sd, gs);
    TempoParamsRecovered(e.parameters, gs, n, tp);
    NormalizationRoundTrip(tx, codec.normalization, bp);
  }

  /**
   * Placing the notes with the encoder's rows at the encoder's beat
   * periods gives back the performed onsets, less the earliest, and the
   * performed durations.
   */
  lemma {:induction false} PlacedNotesRecovered(tx: Transcendentals, sd: seq<real>, pd: seq<real>, po: seq<real>, params: seq<seq<real>>,
                             groups: seq<seq<nat>>, bp: seq<real>, su: seq<real>, sOnsets: seq<real>, c: real)
    requires Lawful(tx) && |sd| == |pd| == |po| > 0 && RowsCover(params, |sd|, 3)
    requires |bp| == |groups| == |sOnsets| >= 1 && |su| == |bp| + 1
    requires forall k :: 0 <= k < |bp| ==> bp[k] > 0.0 && sOnsets[k] == su[k]
    requires forall j :: 0 <= j < |sd| ==> WriterOf(groups, |groups|, j) >= 0
    requires forall j :: 0 <= j < |sd| ==>
      params[j][1] == EquivalentOnsets(bp, sOnsets, c)[WriterOf(groups, |groups|, j)] - po[j]
    requires forall j :: 0 <= j < |sd| ==>
      params[j][2] == LogArticulation(tx, sd[j], pd[j], bp[WriterOf(groups, |groups|, j)])
    ensures var p := PlaceNotes(tx, sd, params, groups, Diff(su), bp);
      && p.onsets == Shift(po, Min(po))
      && (forall j :: 0 <= j < |sd| && sd[j] > 0.0 && pd[j] > 0.0 ==> p.durations[j] == pd[j])
      && (forall j :: 0 <= j < |sd| && sd[j] == 0.0 ==> p.durations[j] == 0.0)
  {
    EquivalentOnsetsRecovered(bp, su, sOnsets, c);
    var eqd := DecodedEquivalentOnsets(Diff(su), bp);
    RawOnsetsRecovered(params, groups, |sd|, EquivalentOnsets(bp, sOnsets, c), eqd, po, c);
    ShiftedBack(RawOnsets(params, groups, eqd, |sd|), po, c);
    DurationsRecovered(tx, sd, pd, params, groups, bp);
  }

  // ---------------------------------------------------------------------
  // The matrices, filled in place

  /** The rows of an n x 3 parameter matrix. */
  function MatrixRows(a: array2<real>): (rows: seq<seq<real>>)
    requires a.Length1 == 3
    reads a
    ensures |rows| == a.Length0
    ensures forall j :: 0 <= j < a.Length0 ==> rows[j] == [a[j, 0], a[j, 1], a[j, 2]]
  {
    seq(a.Length0, j requires 0 <= j < a.Length0 reads a => [a[j, 0], a[j, 1], a[j, 2]])
  }

  /** Column c of a matrix. */
  function Column(a: array2<real>, c: nat): (col: seq<real>)
    requires c < a.Length1
    reads a
    ensures |col| == a.Length0
    ensures forall j :: 0 <= j < a.Length0 ==> col[j] == a[j, c]
  {
    seq(a.Length0, j requires 0 <= j < a.Length0 reads a => a[j, c])
  }

  /**
   * TimeCodec.encode: after the shape check and the tempo estimate, the
   * rest is done by EncodeMatrix.
   */
  method Encode(tx: Transcendentals, codec: TimeCodec, so: seq<real>, po: seq<real>, sd: seq<real>, pd: seq<real>)
    returns (r: Result<Encoding>)
    ensures r == EncodeTime(tx, codec, so, po, sd, pd)
  {
    if |so| != |po| {
      return Err(ShapeMismatch);
    }
    var tempo := TempoOf(codec.strategy, so, po, sd, pd, None, None);
    if tempo.Err? {
      return Err(tempo.error);
    }
    DefaultTempoFacts(codec.strategy, so, po, sd, pd);
    r := EncodeMatrix(tx, codec.normalization, so, po, sd, pd, tempo.value);
  }

  /**
   * TimeCodec._encode: a zeroed n x 3 matrix receives the articulations in
   * column 2, then every group writes its tempo parameter and the timing
   * of each of its notes into columns 0 and 1.
   */
  method EncodeMatrix(tx: Transcendentals, norm: Normalization, so: seq<real>, po: seq<real>, sd: seq<real>,
                      pd: seq<real>, t: TempoCurve) returns (r: Result<Encoding>)
    requires |so| == |po| && EncodableTempo(so, po, sd, pd, t)
    ensures r == EncodeWith(tx, norm, so, po, sd, pd, t)
  {
    var gs, bp := t.groups, t.curve;
    var eq := EquivalentOnsets(bp, t.inputOnsets, Mean(Gather(po, gs[0])));
    var normalized := Normalize(tx, norm, bp);
    if normalized.Err? {
      return Err(normalized.error);
    }
    var tp := normalized.value;
    TempoArticulable(so, po, sd, pd, t);
    var articulation := EncodeArticulation(tx, sd, pd, gs, bp);
    assert articulation.Ok?;
    var rows := FillRows(gs, normalized.value, eq, po, articulation.value);
    r := Ok(Encoding(rows, Mean(bp), gs));
  }

  /** The zeroed parameter matrix of TimeCodec._encode, filled and read back row by row. */
  method FillRows(gs: seq<seq<nat>>, tp: seq<real>, eq: seq<real>, po: seq<real>, art: seq<real>)
    returns (rows: seq<seq<real>>)
    requires |po| == |art| && |tp| == |eq| == |gs| && GroupsInRange(gs, |po|)
    ensures rows == seq(|po|, j requires 0 <= j < |po| => ParamRow(gs, tp, eq, po, art, j))
  {
    var params := new real[|po|, 3]((_, _) => 0.0);
    FillParameters(params, gs, tp, eq, po, art);
    rows := MatrixRows(params);
  }

  /**
   * The loop of TimeCodec._encode over a zeroed matrix: column 2 takes the
   * articulations, and the notes of each group in turn take the group's
   * tempo parameter and their timing, so the last group holding a note
   * decides its row.
   */
  method FillParameters(params: array2<real>, gs: seq<seq<nat>>, tp: seq<real>, eq: seq<real>, po: seq<real>,
                        art: seq<real>)
    requires params.Length0 == |po| == |art| && params.Length1 == 3
    requires |tp| == |eq| == |gs| && GroupsInRange(gs, |po|)
    requires forall i :: 0 <= i < |po| ==> params[i, 0] == 0.0 && params[i, 1] == 0.0
    modifies params
    ensures forall i :: 0 <= i < |po| ==> [params[i, 0], params[i, 1], params[i, 2]] == ParamRow(gs, tp, eq, po, art, i)
  {
    var n := |po|;
    for j := 0 to n
      invariant forall i :: 0 <= i < n ==> params[i, 0] == 0.0 && params[i, 1] == 0.0
      invariant forall i :: 0 <= i < j ==> params[i, 2] == art[i]
    {
      params[j, 2] := art[j];
    }
    for g := 0 to |gs|
      invariant forall i :: 0 <= i < n ==> params[i, 2] == art[i]
      invariant forall i :: 0 <= i < n ==>
        var w := WriterOf(gs, g, i);
        params[i, 0] == (if w < 0 then 0.0 else tp[w]) && params[i, 1] == (if w < 0 then 0.0 else eq[w] - po[i])
    {
      FillGroup(params, gs, g, tp, eq, po, art);
    }
  }

  /** One pass of the loop of TimeCodec._encode: the notes of group g take their parameters. */
  method FillGroup(params: array2<real>, gs: seq<seq<nat>>, g: nat, tp: seq<real>, eq: seq<real>, po: seq<real>,
                   art: seq<real>)
    requires params.Length0 == |po| == |art| && params.Length1 == 3
    requires g < |gs| == |tp| == |eq| && GroupsInRange(gs, |po|)
    requires forall i :: 0 <= i < |po| ==> params[i, 2] == art[i]
    requires forall i :: 0 <= i < |po| ==>
      var w := WriterOf(gs, g, i);
      params[i, 0] == (if w < 0 then 0.0 else tp[w]) && params[i, 1] == (if w < 0 then 0.0 else eq[w] - po[i])
    modifies params
    ensures forall i :: 0 <= i < |po| ==> params[i, 2] == art[i]
    ensures forall i :: 0 <= i < |po| ==>
      var w := WriterOf(gs, g + 1, i);
      params[i, 0] == (if w < 0 then 0.0 else tp[w]) && params[i, 1] == (if w < 0 then 0.0 else eq[w] - po[i])
  {
    var idx := gs[g];
    for k := 0 to |idx|
      invariant forall i :: 0 <= i < |po| ==> params[i, 2] == art[i]
      invariant forall i :: 0 <= i < |po| ==>
        var w := WriterWithin(gs, g, k, i);
        params[i, 0] == (if w < 0 then 0.0 else tp[w]) && params[i, 1] == (if w < 0 then 0.0 else eq[w] - po[i])
    {
      var j := idx[k];
      params[j, 0] := tp[g];
      params[j, 1] := eq[g] - po[j];
      forall i | 0 <= i < |po| ensures WriterWithin(gs, g, k + 1, i) == if i == j then g else WriterWithin(gs, g, k, i) {
        WriterWithinStep(gs, g, k, i);
      }
    }
    forall i | 0 <= i < |po| ensures WriterWithin(gs, g, |idx|, i) == WriterOf(gs, g + 1, i) {
      WriterWithinDone(gs, g, i);
    }
  }

  /**
   * TimeCodec.decode: a zeroed n x 2 matrix receives, group by group, the
   * onset and the duration of each note; then the earliest onset is
   * subtracted from column 0 in place.
   */
  method Decode(tx: Transcendentals, codec: TimeCodec, so: seq<real>, sd: seq<real>, params: seq<seq<real>>,
                meanBp: real, side: Option<real>) returns (r: Result<Performance>)
    ensures r == DecodeTime(tx, codec, so, sd, params, meanBp, side)
  {
    if |so| != |sd| {
      return Err(ShapeMismatch);
    }
    var scoreInfo := GetUniqueSeq(so, Add(so, sd), None, true);
    if scoreInfo.Err? {
      return Err(scoreInfo.error);
    }
    var info := scoreInfo.value;
    var n, gs := |so|, info.groups;
    if !RowsCover(params, n, 1) {
      return Err(ShapeMismatch);
    }
    var rescaled := Rescale(tx, codec.normalization, GroupTempoParams(params, gs, n), meanBp, side);
    if rescaled.Err? {
      return Err(rescaled.error);
    }
    var bp := rescaled.value;
    if !RowsCover(params, n, 3) {
      return Err(ShapeMismatch);
    }
    var diff := info.diffUOnset.value;
    assert |diff| == |bp| == |gs|;
    var placed := Place(tx, sd, params, gs, diff, bp);
    r := Ok(placed);
  }

  /**
   * The part of TimeCodec.decode that writes the performance matrix: the
   * notes are placed group by group, then the earliest onset is
   * subtracted from column 0.
   */
  method Place(tx: Transcendentals, sd: seq<real>, params: seq<seq<real>>, gs: seq<seq<nat>>, diff: seq<real>,
               bp: seq<real>) returns (p: Performance)
    requires |sd| > 0 && RowsCover(params, |sd|, 3) && |diff| == |bp| == |gs| && GroupsInRange(gs, |sd|)
    ensures p == PlaceNotes(tx, sd, params, gs, diff, bp)
  {
    var perf := new real[|sd|, 2]((_, _) => 0.0);
    PlaceGroups(tx, perf, gs, DecodedEquivalentOnsets(diff, bp), sd, params, bp);
    ShiftOnsets(perf);
    p := Performance(Column(perf, 0), Column(perf, 1));
  }

  /**
   * The loop of TimeCodec.decode over a zeroed matrix: the notes of each
   * group in turn take their onset (the group's equivalent onset less
   * their timing) and their decoded duration.
   */
  method PlaceGroups(tx: Transcendentals, perf: array2<real>, gs: seq<seq<nat>>, eq: seq<real>, sd: seq<real>,
                     params: seq<seq<real>>, bp: seq<real>)
    requires perf.Length0 == |sd| && perf.Length1 == 2 && RowsCover(params, |sd|, 3)
    requires |eq| > |gs| && |bp| == |gs| && GroupsInRange(gs, |sd|)
    requires forall i :: 0 <= i < |sd| ==> perf[i, 0] == 0.0 && perf[i, 1] == 0.0
    modifies perf
    ensures Column(perf, 0) == RawOnsets(params, gs, eq, |sd|)
    ensures Column(perf, 1) == Durations(tx, sd, params, gs, bp)
  {
    for g := 0 to |gs|
      invariant forall i :: 0 <= i < |sd| ==>
        var w := WriterOf(gs, g, i);
        && perf[i, 0] == (if w < 0 then 0.0 else eq[w] - params[i][1])
        && perf[i, 1] == (if w < 0 then 0.0 else DecodeArticulation(tx, sd[i], params[i][2], bp[w]))
    {
      PlaceGroup(tx, perf, gs, g, eq, sd, params, bp);
    }
  }

  /** One pass of the loop of TimeCodec.decode: the notes of group g are placed. */
  method PlaceGroup(tx: Transcendentals, perf: array2<real>, gs: seq<seq<nat>>, g: nat, eq: seq<real>,
                    sd: seq<real>, params: seq<seq<real>>, bp: seq<real>)
    requires perf.Length0 == |sd| && perf.Length1 == 2 && RowsCover(params, |sd|, 3)
    requires g < |gs| <= |bp| && |gs| < |eq| && GroupsInRange(gs, |sd|)
    requires forall i :: 0 <= i < |sd| ==>
      var w := WriterOf(gs, g, i);
      && perf[i, 0] == (if w < 0 then 0.0 else eq[w] - params[i][1])
      && perf[i, 1] == (if w < 0 then 0.0 else DecodeArticulation(tx, sd[i], params[i][2], bp[w]))
    modifies perf
    ensures forall i :: 0 <= i < |sd| ==>
      var w := WriterOf(gs, g + 1, i);
      && perf[i, 0] == (if w < 0 then 0.0 else eq[w] - params[i][1])
      && perf[i, 1] == (if w < 0 then 0.0 else DecodeArticulation(tx, sd[i], params[i][2], bp[w]))
  {
    var idx := gs[g];
    for k := 0 to |idx|
      invariant forall i :: 0 <= i < |sd| ==>
        var w := WriterWithin(gs, g, k, i);
        && perf[i, 0] == (if w < 0 then 0.0 else eq[w] - params[i][1])
        && perf[i, 1] == (if w < 0 then 0.0 else DecodeArticulation(tx, sd[i], params[i][2], bp[w]))
    {
      var j := idx[k];
      perf[j, 0] := eq[g] - params[j][1];
      perf[j, 1] := DecodeArticulation(tx, sd[j], params[j][2], bp[g]);
      forall i | 0 <= i < |sd| ensures WriterWithin(gs, g, k + 1, i) == if i == j then g else WriterWithin(gs, g, k, i) {
        WriterWithinStep(gs, g, k, i);
      }
    }
    forall i | 0 <= i < |sd| ensures WriterWithin(gs, g, |idx|, i) == WriterOf(gs, g + 1, i) {
      WriterWithinDone(gs, g, i);
    }
  }

  /** performance[:, 0] -= np.min(performance[:, 0]). */
  method ShiftOnsets(perf: array2<real>)
    requires perf.Length0 > 0 && perf.Length1 == 2
    modifies perf
    ensures Column(perf, 0) == Shift(old(Column(perf, 0)), Min(old(Column(perf, 0))))
    ensures Column(perf, 1) == old(Column(perf, 1))
  {
    ghost var raw := Column(perf, 0);
    var low := Min(Column(perf, 0));
    for j := 0 to perf.Length0
      invariant forall i :: 0 <= i < j ==> perf[i, 0] == raw[i] - low
      invariant forall i :: j <= i < perf.Length0 ==> perf[i, 0] == raw[i]
      invariant forall i :: 0 <= i < perf.Length0 ==> perf[i, 1] == old(perf[i, 1])
    {
      perf[j, 0] := perf[j, 0] - low;
    }
    assert Column(perf, 0) == Shift(raw, low);
  }
}

=== FILE: unique_seqs.dfy ===
/**
 * get_unique_seq: the mean time of every group of simultaneous notes,
 * followed by one closing time, so that there is one inter-onset interval
 * per group.
 */
module UniqueSeqs {
  import opened Results
  import opened Numerics
  import opened OnsetGroups

  /** The output dictionary of get_unique_seq; `diffUOnset` is present only when asked for. */
  datatype UniqueSeq = UniqueSeq(
    uOnset: seq<real>,
    totalDur: real,
    groups: seq<seq<nat>>,
    diffUOnset: Option<seq<real>>)

  /** The mean of the entries of `xs` in every group. */
  function GroupMeans(xs: seq<real>, groups: seq<seq<nat>>): (r: seq<real>)
    requires ValidGroups(groups, |xs|)
    ensures |r| == |groups|
  {
    seq(|groups|, g requires 0 <= g < |groups| => Mean(Gather(xs, groups[g])))
  }

  /**
   * max(max(onsets) + eps, max(offsets)): a closing time strictly later
   * than every onset.
   */
  function LastTime(onsets: seq<real>, offsets: seq<real>): (t: real)
    requires |onsets| > 0 && |offsets| > 0
    ensures forall k :: 0 <= k < |onsets| ==> onsets[k] < t
    ensures forall k :: 0 <= k < |offsets| ==> offsets[k] <= t
    ensures t == Max(onsets) + Float32Eps || t == Max(offsets)
  {
    var a := Max(onsets) + Float32Eps;
    var b := Max(offsets);
    if b > a then b else a
  }

  predicate HasEmptyGroup(groups: seq<seq<nat>>) {
    exists g :: 0 <= g < |groups| && |groups[g]| == 0
  }

  /**
   * get_unique_seq(onsets, offsets, unique_onset_idxs, return_diff). When
   * no groups are given they are formed from the onsets with the default
   * tolerance. np.min of an empty array raises; an index beyond the
   * onsets raises; the mean of an empty group is not a number.
   */
  function GetUniqueSeq(onsets: seq<real>, offsets: seq<real>, groups: Option<seq<seq<nat>>>,
                        returnDiff: bool): (r: Result<UniqueSeq>)
    ensures |onsets| == 0 || |offsets| == 0 ==> r == Err(EmptyInput)
    ensures r.Ok? <==>
      |onsets| > 0 && |offsets| > 0 && (groups.Some? ==> ValidGroups(groups.value, |onsets|))
    ensures r.Ok? ==> groups.None? ==> r.value.groups == GroupOnsets(onsets, DefaultEps)
    ensures r.Ok? ==> groups.Some? ==> r.value.groups == groups.value
    ensures r.Ok? ==> var u := r.value;
      && ValidGroups(u.groups, |onsets|)
      && |u.uOnset| == |u.groups| + 1
      && (forall g :: 0 <= g < |u.groups| ==> u.uOnset[g] == Mean(Gather(onsets, u.groups[g])))
      && u.uOnset[|u.groups|] == LastTime(onsets, offsets)
      && u.totalDur == LastTime(onsets, offsets) - Min(onsets)
      && (u.diffUOnset.Some? <==> returnDiff)
      && (returnDiff ==> u.diffUOnset.value == Diff(u.uOnset))
  {
    if |onsets| == 0 || |offsets| == 0 then Err(EmptyInput)
    else
      var gs := if groups.None? then GroupOnsets(onsets, DefaultEps) else groups.value;
      if !GroupsInRange(gs, |onsets|) then Err(ShapeMismatch)
      else if HasEmptyGroup(gs) then Err(DegenerateInput)
      else
        var last := LastTime(onsets, offsets);
        var u := GroupMeans(onsets, gs) + [last];
        Ok(UniqueSeq(u, last - Min(onsets), gs, if returnDiff then Some(Diff(u)) else None))
  }

  /** A group's mean lies between its smallest and its largest entry. */
  lemma {:induction false} GroupMeanBounds(xs: seq<real>, group: seq<nat>, lo: real, hi: real)
    requires |group| > 0 && InRange(group, |xs|)
    requires forall k :: 0 <= k < |group| ==> lo <= xs[group[k]] <= hi
    ensures lo <= Mean(Gather(xs, group)) <= hi
  {
    MeanWithin(Gather(xs, group), lo, hi);
  }

  /**
   * When every note of a later group starts strictly later than every note
   * of an earlier group, the unique onsets strictly increase, closing time
   * included.
   */
  lemma {:induction false} UniqueOnsetsIncrease(onsets: seq<real>, offsets: seq<real>, groups: seq<seq<nat>>)
    requires |onsets| > 0 && |offsets| > 0
    requires ValidGroups(groups, |onsets|)
    requires StrictlyAscending(onsets, groups)
    ensures GetUniqueSeq(onsets, offsets, Some(groups), false).Ok?
    ensures StrictlyIncreasing(GetUniqueSeq(onsets, offsets, Some(groups), false).value.uOnset)
  {
    var u := GetUniqueSeq(onsets, offsets, Some(groups), false).value.uOnset;
    var last := LastTime(onsets, offsets);
    forall i, j | 0 <= i < j < |u| ensures u[i] < u[j] {
      if j < |groups| {
        MeansAscend(onsets, groups, i, j);
      } else {
        MeanBeforeClosing(onsets, groups[i], last);
      }
    }
  }

  /** The mean onset of an earlier group is below that of a later one. */
  lemma {:induction false} MeansAscend(onsets: seq<real>, groups: seq<seq<nat>>, i: nat, j: nat)
    requires ValidGroups(groups, |onsets|) && StrictlyAscending(onsets, groups)
    requires i < j < |groups|
    ensures Mean(Gather(onsets, groups[i])) < Mean(Gather(onsets, groups[j]))
  {
    var gi, gj := Gather(onsets, groups[i]), Gather(onsets, groups[j]);
    MeanBounds(gi);
    MeanBounds(gj);
    var a :| 0 <= a < |gi| && gi[a] == Max(gi);
    var b :| 0 <= b < |gj| && gj[b] == Min(gj);
    assert onsets[groups[i][a]] < onsets[groups[j][b]];
  }

  /** The mean onset of a group is below a time later than every onset. */
  lemma {:induction false} MeanBeforeClosing(onsets: seq<real>, group: seq<nat>, last: real)
    requires |group| > 0 && InRange(group, |onsets|)
    requires forall k :: 0 <= k < |onsets| ==> onsets[k] < last
    ensures Mean(Gather(onsets, group)) < last
  {
    var g := Gather(onsets, group);
    MeanBounds(g);
    var a :| 0 <= a < |g| && g[a] == Max(g);
    assert g[a] == onsets[group[a]];
  }
}
